=== FILE: README.md ===
# Treebank-to-oracle pipeline of a shift-reduce parser, in Dafny

This project models the data pipeline that turns treebank sentences into
training oracles for an RNNG-style shift-reduce constituency parser, and
proves properties of that model. An oracle is the sequence of transitions
`NT(label)`, `SHIFT`, `REDUCE` that rebuilds a tree. The pipeline has five
parts:

- **Oracle derivation** (`src/get_oracle_id.py`). A single left-to-right
  scan over a one-line bracketed tree emits the transitions. Companion scans
  pull out the part-of-speech tags, words and lowercase words of the
  terminals `(TAG word)`. `unkify` maps unknown words to `UNK`.
- **Oracle records** (`src/oracle.py`). `Oracle` records have five preamble
  lines and `GenOracle` records have three. Both print as lines and are
  decoded from a blank-line-separated stream.
- **Treebank normalisation** (`src/dataset.py`). This covers:
  - reassembling a Penn Treebank sentence spread over several lines;
  - cutting an Indonesian Treebank line into its sentences;
  - squeezing whitespace;
  - cutting grammatical-function suffixes off labels;
  - pruning null elements;
  - joining multi-word units.
- **Train/test consistency filters** (`scripts/remove_unseen.py`,
  `scripts/remove_unseen_unk.py`, `scripts/remove_unk_nt.py`). Each drops
  evaluation examples that use a nonterminal or an `UNK` token the training
  data lacks.
- **Cross-validation split** (`scripts/split_cv.py`). This computes the fold
  sizes, the folds, and the test/validation/training parts.

## How the model is built

Trees are the inductive datatype `Leaf(word) | Node(label, children)`.
Strings are `seq<char>`. Every Python exception the modelled code can raise
is a value instead, either `Err(e)` in a `Result` or the `failure` of a
`Stream`. A `Stream` is the items a generator yielded before it raised, plus
what it raised, if anything. The loops of `_concat_parsed_sentences`,
`_get_parsed_sentences`, `get_actions` and the bracket counter are methods
with loop invariants. Each is proved equal to a recursive definition, and
the properties are proved about that definition. The loop of
`get_split_indices` is a method too, but it is specified directly: its
contract gives the error cases, the size of each fold and the
concatenation of the folds.

Modules, one per file:

- `Base`: options, results, streams and error kinds. Also the string helpers
  the code uses: `strip`, `split`, `join`, `lower`, `startswith`, and a
  first-occurrence search.
- `Trees`: the tree datatype, its bracketed rendering, its leaves and its
  labels.
- `OracleScan`: the scanners of `get_oracle_id.py`.
- `OracleMain`: the loop of `main()` in `get_oracle_id.py`, which prints a
  block of lines per dev line, and the proof that what it prints reads back
  through `oracle_iter`.
- `OracleScanProofs`: the bracket-count facts about those scanners, and the
  proof that on a rendered tree they compute the pre-order walk.
- `OracleCodec`: `oracle.py`.
- `TreebankText`: the line-level scanners of `dataset.py`.
- `FunctionLabels`, `PennTreebank`, `IdnTreebank`: the tree passes of
  `dataset.py`.
- `Preprocess`: `_preprocess_sentence` of both readers, the passes composed.
- `Selection`: order-preserving filtering and set unions shared by the
  scripts.
- `RemoveUnseen`, `RemoveUnseenUnk`, `RemoveUnkNt`, `SplitCv`: the scripts.

Notes on what the code does:

- A terminal's `)` is consumed by its `SHIFT`, so `REDUCE` closes only
  phrases. The counts are therefore #NT + #SHIFT = #`(` and
  #SHIFT + #REDUCE = #`)`. REDUCE does not equal leaves plus internal nodes.
- An unbalanced line is rejected by `main` with `NotImplementedError`,
  before the scanners run.
- A record built from the wrong number of preamble lines fails with the
  constructor's `TypeError`.
- A preamble line gets its leading space when its first element is `#`.
- `_squeeze_line` strips, deletes every `\n` and turns runs of two or more
  spaces into one space. The words stay the same and stay apart. It does not
  touch the space between brackets. On a tree whose words and labels hold no
  whitespace, it gives the one-line rendering back unchanged.
- The Indonesian null-element pruning is not idempotent.
  `(NP * *T*)` becomes `(NP *)`, which a second pass deletes.
- `_concat_parsed_sentences` itself does not skip blank lines. A blank line
  on a balanced buffer is emitted as an empty sentence. The caller filters
  blank lines out before calling it.
- When null pruning leaves nothing of a tree, `_remove_null_elements`
  returns `None`, `_strip_function_labels` passes it on, and the reader
  yields the sentence `None`, the text of `str(None)`.
- `remove_unseen.py` runs under Python 2, where `zip` builds its whole list
  before the loop starts. A decoder failure therefore stops the script
  before it writes anything.
- `main()` of `get_oracle_id.py` prints as it goes. When a line fails, the
  lines already printed for it stay in the output.

Characters are ASCII: whitespace is space, tab, `\n`, `\r`, `\x0b` and
`\x0c`, and `lower` maps only `A`–`Z`.

## Model

| member | source | states |
|---|---|---|
| OracleScan.Unkify | src/get_oracle_id.py:5-13 | Same length as the input. At each position: the right-stripped token when it is non-empty and a known word, `UNK` otherwise. So every entry is `UNK` or a known word. |
| OracleScan.IsNextOpenBracketSpec | src/get_oracle_id.py:15-21 | Fails with `IndexError` exactly when no bracket follows the index. Otherwise the answer is whether the first bracket after it is `(`. |
| OracleScan.GetBetweenBracketsSpec | src/get_oracle_id.py:23-30 | On success, the result is the bracket-free text right after the index, up to a `)` or the end of the line. It fails, with an assertion error, exactly when a `(` comes before any `)`. |
| OracleScan.GetNonterminal | src/get_oracle_id.py:63-71 | On success, the index holds `(`, and the result is the text after it up to a space or the end, with no bracket or space in it. An index past the end gives `IndexError`; a non-`(` gives an assertion error. |
| OracleScan.StepAt | src/get_oracle_id.py:79-101 | One pass of the `get_actions` loop. It starts on a bracket and moves strictly forward onto a bracket. It breaks only with REDUCE at the last character. REDUCE is chosen exactly at `)`; SHIFT exactly at a `(` whose next bracket is `)`. |
| OracleScan.SkipTo | src/get_oracle_id.py:86-87 | The inner scanning loop of `get_actions` stops at the first character of the wanted kind at or after its start, or runs off the end, as the bracket search `FindFrom` says. |
| OracleScan.Step | src/get_oracle_id.py:80-101 | One loop pass written with its inner loops computes exactly the move `StepAt` describes, failures included. |
| OracleScan.GetActionsLoop | src/get_oracle_id.py:74-103 | The imperative loop with its growing action list returns what the recursive `GetActions` returns, on every line, failing lines included. |
| OracleScan.SplitTerminals | src/get_oracle_id.py:52-61 | Fails exactly when some terminal does not split into two words. Otherwise there is one tag, token and lowercase token per terminal, in order. Each terminal splits into its tag and token, and each lowercase entry is its token lowered. |
| OracleScan.GetTagsTokensLowercase | src/get_oracle_id.py:41-61 | The three lists have equal length, hold single words, and the third is the second lowercased. |
| OracleScan.PreambleLine | src/get_oracle_id.py:127-135 | The line is the space-join, with one leading space exactly when the first element is `#`. |
| OracleMain.OracleBlock | src/get_oracle_id.py:117-139 | A line whose `(` and `)` counts differ prints nothing and is rejected with `NotImplementedError` carrying its line number. A block goes through exactly when the line is balanced and both scanners accept it. Any balanced line prints first `# ` and the right-stripped line. |
| OracleMain.PrintBlockLayout | src/get_oracle_id.py:123-139 | After the header come the four preamble lines when the terminal scan succeeds, and then one line per action and a blank line when the action scan succeeds. The first scanner to fail stops the block there with its error. |
| OracleMain.OracleBlockLayout | src/get_oracle_id.py:123-136 | On a balanced line: only the header when the terminal scan fails; otherwise the tag, token, lowercase and unkified lines, with nothing after them when the action scan fails. |
| OracleMain.OracleBlockActions | src/get_oracle_id.py:136-139 | A block that goes through has six lines more than actions: the preamble, one line per action in order, and a final blank line. |
| OracleMain.OutputIsChain | src/get_oracle_id.py:117-139 | The loop prints the blocks of the dev lines one after another, counting lines from 1, up to and including the first block that fails. |
| OracleMain.OutputFailure | src/get_oracle_id.py:117-139 | The loop fails exactly when the block of some dev line fails. |
| OracleMain.OutputFirstFailure | src/get_oracle_id.py:117-139 | When the loop fails, it fails with the error of some line's block, and the blocks of all earlier lines went through. |
| OracleMain.BlockLines | src/get_oracle_id.py:117-139 | On a line holding a rendered tree, the block goes through, and its lines, stripped, are the fields of the tree's record and a blank line. |
| OracleMain.BlockOfTree | src/get_oracle_id.py:117-139 | The block printed for a rendered tree reads back through `oracle_iter` as exactly one record: the tree, its tags, words, lowercased words and unkified words, and the texts of its pre-order walk as actions. |
| OracleMain.OutputOfTrees | src/get_oracle_id.py:117-139 | Everything printed for a dev file of rendered trees reads back through `oracle_iter` as the trees' records, in order, without error. |
| OracleScanProofs.StepCounts | src/get_oracle_id.py:79-101 | One loop pass consumes exactly the brackets of its action: one `(` for NT, one `(` and one `)` for SHIFT, one `)` for REDUCE. |
| OracleScanProofs.StepNoOpen | src/get_oracle_id.py:81-94 | A loop pass skips no `(`. |
| OracleScanProofs.ActionsFromCounts | src/get_oracle_id.py:79-102 | A successful scan from any index accounts for every bracket after it. Its SHIFTs are exactly the terminal `(`s, and it ends in REDUCE. |
| OracleScanProofs.RStripKeepsBrackets | src/get_oracle_id.py:76 | Right-stripping the line removes no bracket. |
| OracleScanProofs.ActionCounts | src/get_oracle_id.py:74-103 | On any line `get_actions` accepts: #NT + #SHIFT is the number of `(` in the line, #SHIFT + #REDUCE the number of `)`, and the last action is REDUCE. On a balanced line, #NT equals #REDUCE. |
| OracleScanProofs.TerminalsFromCount | src/get_oracle_id.py:46-50 | The tag scan collects one entry per terminal `(`. |
| OracleScanProofs.ShiftsMatchTerminals | src/get_oracle_id.py:49-92 | On any line both scanners accept, #SHIFT equals the number of tokens, and hence of tags and lowercase tokens. |
| OracleScanProofs.ScanTree | src/get_oracle_id.py:79-101 | Scanning a rendered subtree emits its pre-order walk, then carries on after it. |
| OracleScanProofs.GetActionsOfTree | src/get_oracle_id.py:74-103 | On a rendered tree, `get_actions` is its pre-order walk: NT on entering a phrase, SHIFT per preterminal, REDUCE on leaving a phrase. |
| OracleScanProofs.TermsTree | src/get_oracle_id.py:46-50 | The tag scan over a rendered subtree collects `TAG word` for each of its preterminals, left to right. |
| OracleScanProofs.SplitTexts | src/get_oracle_id.py:55-60 | Splitting `TAG word` texts gives back the tags, the words and the lowered words. |
| OracleScanProofs.GetTagsOfTree | src/get_oracle_id.py:41-61 | On a rendered tree, the three lists are the tag, the word and the lowered word of each preterminal, left to right. |
| OracleCodec.MakeOracle | src/oracle.py:29 | The record is built exactly when the block has five preamble lines. Its fields are the block's lines in order. Any other count fails with `TypeError`. |
| OracleCodec.MakeGenOracle | src/oracle.py:39 | The same with three preamble lines. |
| OracleCodec.Oracles | src/oracle.py:22-44 | The records come from the blocks in order, up to the first block that fails, and that block's error is the stream's failure. There is no failure exactly when every block has five preamble lines. |
| OracleCodec.GenOracles | src/oracle.py:22-44 | The same with three preamble lines. |
| OracleCodec.BlocksGood | src/oracle.py:26-39 | Every block has at most `n` preamble lines, has actions only after a full preamble, and holds only stripped, non-blank lines. |
| OracleCodec.BlocksKeepLines | src/oracle.py:26-37 | The blocks hold exactly the stripped non-blank lines of the input, in order. |
| OracleCodec.OracleIterStripped | src/oracle.py:27 | Decoded fields and actions carry no surrounding whitespace. |
| OracleCodec.OracleIterAfter | src/oracle.py:23-39 | After any written records, decoding gives those records and then exactly what decoding the remaining lines alone gives, failure included. |
| OracleCodec.GenOracleIterAfter | src/oracle.py:23-44 | The same for generative records and `gen_oracle_iter`. |
| OracleCodec.EmptyBlockFails | src/oracle.py:28-32 | After any written records, a blank line where a record should start closes an empty block. Both decoders yield the records before it and then fail with `TypeError`. |
| OracleCodec.ShortBlockFails | src/oracle.py:38-39 | After any written records, a final block of fewer than five non-blank lines yields the records before it and then fails with `TypeError`. |
| OracleCodec.BlocksRoundTrip | src/oracle.py:22-40 | Decoding the printed text of encodable blocks gives the blocks back. |
| OracleCodec.OracleRoundTrip | src/oracle.py:7-43 | Printing well-formed records, each followed by a blank line, and decoding the file gives the same records, in order, without error. |
| OracleCodec.GenOracleRoundTrip | src/oracle.py:16-44 | The same for generative records and `gen_oracle_iter`. |
| OracleCodec.LastRecordWithoutBlank | src/oracle.py:38-39 | After any written records, a final record without a blank line after it is still decoded, after them and without error. |
| TreebankText.ConcatGroups | src/dataset.py:90-104 | The emitted groups, in order, are a prefix of the stripped lines. Each group is balanced for the first time at its last line. No prefix of the lines after them balances, so a trailing unbalanced group is dropped. |
| TreebankText.ConcatBalanced | src/dataset.py:90-104 | Every emitted sentence has as many `(` as `)`. |
| TreebankText.CountBrackets | src/dataset.py:96-100 | The inner loop computes the number of `(` minus the number of `)`. |
| TreebankText.ConcatLoop | src/dataset.py:90-104 | The loop with its carried count emits the groups of the recursive definition. |
| TreebankText.CloseIff | src/dataset.py:190-201 | The depth scan closes a sentence at position `e` exactly when the text up to `e` is a bracketed sentence. |
| TreebankText.SentencesAreSentences | src/dataset.py:185-204 | Everything yielded opens with `(`, and its depth stays positive until it returns to zero at its last character. |
| TreebankText.SentencesOfInterleave | src/dataset.py:185-204 | On a line of sentences separated by text without `(`, exactly those sentences are yielded, in order. |
| TreebankText.SkipLoop | src/dataset.py:186-188 | The skipping loop stops at the next `(` or at the end of the line. |
| TreebankText.CloseLoop | src/dataset.py:190-201 | The counting loop stops where the depth first returns to zero, and runs to the end of the line when it never does. |
| TreebankText.GetParsedSentences | src/dataset.py:185-204 | The nested loops yield the sentences of the recursive definition. |
| TreebankText.CollapseNoDouble | src/dataset.py:108 | After the substitution no two spaces are adjacent. |
| TreebankText.CollapseKeepsOthers | src/dataset.py:108 | The substitution deletes only spaces. |
| TreebankText.CollapseFixed | src/dataset.py:108 | A string without two adjacent spaces is unchanged. |
| TreebankText.SqueezeLine | src/dataset.py:107-108 | The result has no `\n`, no two adjacent spaces and no surrounding whitespace. Its characters other than spaces are those of the stripped line without its newlines, in order. Its words, the maximal runs without whitespace, are exactly the words of the stripped line without its newlines. |
| TreebankText.CollapseSplit | src/dataset.py:108 | Turning space runs into one space leaves the words of the text unchanged and apart. |
| TreebankText.SqueezeWords | src/dataset.py:107-108 | On a line whose only whitespace is spaces and newlines, the result is the words of the stripped line without its newlines, joined by single spaces. |
| TreebankText.SqueezeIdempotent | src/dataset.py:232-233 | Squeezing a squeezed line changes nothing. |
| FunctionLabels.CutLabel | src/dataset.py:115-118 | The result is a prefix of the label. It is shorter exactly when the label has a separator that is not its first character, and then it stops right before the first separator. |
| FunctionLabels.CutLabelIdempotent | src/dataset.py:115-118 | Cutting a cut label changes nothing. |
| FunctionLabels.StripLabelsSpec | src/dataset.py:110-119 | The tree keeps its shape and leaves. Its labels, in pre-order, are the input's, each cut. |
| FunctionLabels.StripLabelsIdempotent | src/dataset.py:110-119 | Stripping twice is stripping once. |
| FunctionLabels.StripLabelsSpaceless | src/dataset.py:110-119 | Cutting labels brings no whitespace into a tree whose words and labels hold none. |
| PennTreebank.StripFunctionLabels | src/dataset.py:110-119 | Same shape and leaves; every label cut at the first `-`, `=` or vertical bar that is not its first character. |
| PennTreebank.NullTagKept | src/dataset.py:116-118 | `-NONE-` is never cut. |
| PennTreebank.RemoveNullFails | src/dataset.py:121-131 | The pass fails exactly on a tree where it reaches a non-empty word as a tree of its own, and then with the missing-attribute error. |
| PennTreebank.RemoveNullYield | src/dataset.py:121-131 | A tree comes back exactly when some preterminal is not tagged `-NONE-`. Its words are those preterminals' words, in order. |
| PennTreebank.RemoveNullPruned | src/dataset.py:121-131 | What comes back has no `-NONE-` preterminal and no empty node. |
| PennTreebank.PrunedFixed | src/dataset.py:121-131 | A pruned tree comes back unchanged. |
| PennTreebank.RemoveNullIdempotent | src/dataset.py:121-131 | Pruning twice is pruning once. |
| PennTreebank.RemoveNullSpaceless | src/dataset.py:121-131 | A tree whose words and labels hold no whitespace prunes to such a tree. |
| PennTreebank.RemoveNullExample | src/dataset.py:121-131 | `(VP (VB left) (NP-SBJ (-NONE- *)))` becomes `(VP (VB left))`. |
| IdnTreebank.HeadLabel | src/dataset.py:265-268 | The result is a prefix of the label. It is shorter exactly when a `-` occurs after the first character, and then it stops right before the first `-`. |
| IdnTreebank.StripFunctionLabels | src/dataset.py:235-243 | Same shape and leaves; every label cut at its first `-` unless that opens it. |
| IdnTreebank.CombineLabels | src/dataset.py:219-229 | Joining word units leaves the internal labels, in pre-order, as they were. |
| IdnTreebank.CombineUnit | src/dataset.py:219-229 | The leaves a word unit `(w1 ... wn)` arrives as come back as the single leaf `w1_..._wn` under the same label. |
| IdnTreebank.CombineOneWord | src/dataset.py:221-222 | A lone `[w]` leaf loses its brackets. |
| IdnTreebank.CombineFixed | src/dataset.py:219-229 | A tree without word units comes back unchanged. |
| IdnTreebank.CombineFailures | src/dataset.py:219-229 | The pass fails exactly when the walk reaches an empty word outside a several-word node, or a several-word node whose first word is empty or does not open with `[`, or whose last word is empty or does not close with `]`. The words inside a several-word node are joined, not walked. An `IndexError` implies the tree has an empty word; any other failure is the assertion error. |
| IdnTreebank.CombineExamples | src/dataset.py:219-229 | An `NN` node with the words `[a`, the empty word and `b]` joins to `(NN a__b)` without error. An `NN` node with the words `a` and the empty word fails on the bracket assertion before any empty word is indexed. |
| IdnTreebank.CombineSpaceless | src/dataset.py:219-229 | Joining word units brings no whitespace and no empty word into a tree whose words and labels hold no whitespace and which has no empty unit `[]`. |
| IdnTreebank.RemoveNullYield | src/dataset.py:245-259 | A tree comes back exactly when some word survives. Its words are the surviving words in order: not null elements, and not under an `NP` whose only child is `*`. |
| IdnTreebank.RemoveNullClean | src/dataset.py:245-259 | What comes back has no null word and no empty node. |
| IdnTreebank.RemoveNullSpaceless | src/dataset.py:245-259 | A tree whose words and labels hold no whitespace prunes to such a tree. |
| Preprocess.SqueezedTree | src/dataset.py:107-108 | The squeezed text of a bracketed tree keeps a `(`, so it is never the word `None`. |
| Preprocess.SqueezeRendered | src/dataset.py:87 | Squeezing the one-line rendering of a tree whose words and labels hold no whitespace gives the rendering back. |
| Preprocess.PennSentenceText | src/dataset.py:83-87 | On a tree whose words and labels hold no whitespace, the Penn reader fails exactly when its passes fail, and otherwise yields exactly the rendering of the pruned, label-cut tree, or `None`. |
| Preprocess.IdnSentenceText | src/dataset.py:207-229 | On such a tree with no empty unit `[]`, the Indonesian reader fails exactly when its passes fail, and otherwise yields exactly the rendering of the joined, label-cut, pruned tree, or `None`. |
| Preprocess.PennSentenceOutcome | src/dataset.py:83-87 | The Penn reader fails exactly on a tree with a stray word. It yields `None` exactly when every preterminal is a null element, and a text holding `(` otherwise. |
| Preprocess.IdnSentenceOutcome | src/dataset.py:207-229 | The Indonesian reader fails exactly when joining word units breaks. It yields `None` exactly when no word survives pruning of the joined, label-cut tree, and a text holding `(` otherwise. |
| IdnTreebank.RemoveNullNotIdempotent | src/dataset.py:250-252 | `(NP * *T*)` becomes `(NP *)`, which a second pass deletes. |
| RemoveUnseen.NtLabelsOpened | scripts/remove_unseen.py:16-23 | A label is collected exactly when the pre-order walk opens it with NT. So a preterminal's tag is collected only when the tag also labels a phrase. |
| RemoveUnseen.NtLabelsOfOracle | scripts/remove_unseen.py:16-23 | On a rendered tree, the collected labels are the labels of the NT actions of its oracle. |
| RemoveUnseen.NtLabelsSkipTags | scripts/remove_unseen.py:16-18 | `(S (NN dog))` contributes `S` and not `NN`. |
| Selection.UnkTokensOfWords | scripts/remove_unseen.py:26-27 | On a space-joined line of words, the UNK tokens are exactly the words that start with `UNK`. |
| RemoveUnseen.CollectSeen | scripts/remove_unseen.py:62-87 | The training sets are collected exactly when both training oracle files decode. Otherwise the first decoding failure stops the script. |
| RemoveUnseen.HasNoUnseenOfOracle | scripts/remove_unseen.py:16-38 | On a rendered tree and oracles whose unkified lines are space-joined words: the test holds exactly when every label the tree's oracle opens with NT is a training label, and every word starting with `UNK` in either unkified line is in its training set. |
| RemoveUnseen.TrainingPasses | scripts/remove_unseen.py:30-38 | A training example passes against the sets collected from its own data. |
| RemoveUnseen.HasNoUnseenMonotone | scripts/remove_unseen.py:30-38 | Larger sets reject less. |
| RemoveUnseen.ZipAligned | scripts/remove_unseen.py:95-96 | The zip is as long as the shortest input and aligns the inputs position by position. It fails with the failure of the first decoder to run out; a tree file running out is a clean stop. |
| RemoveUnseen.RemoveUnseen | scripts/remove_unseen.py:95-102 | At most as many examples as the shortest input. The failure is the zip's, and when there is one nothing is written. |
| RemoveUnseen.RemoveUnseenKeeps | scripts/remove_unseen.py:95-102 | An example is written exactly when the zip succeeds, the example is one of the aligned test examples, and it passes the test. Its tree line and both oracles go together. |
| RemoveUnseen.RemoveUnseenOrdered | scripts/remove_unseen.py:95-102 | The written examples keep their order. |
| RemoveUnseen.RemoveUnseenMonotone | scripts/remove_unseen.py:95-102 | Enlarging the training sets never drops an example that was written. |
| RemoveUnseen.KeptWellFormed | scripts/remove_unseen.py:98-102 | A written example holds an oracle pair from the test files. |
| RemoveUnseen.ExamplesReadBack | scripts/remove_unseen.py:100-102 | The two oracle files written for well-formed examples decode to those examples' oracles. |
| RemoveUnseen.OutputReadsBack | scripts/remove_unseen.py:95-102 | With well-formed test oracles, the two oracle files written decode to exactly the kept oracles, in order. |
| RemoveUnseenUnk.UnkFromBlocks | scripts/remove_unseen_unk.py:5-14 | From any state of the counter, the tokens still to come are the third-line tokens of the blocks the oracle decoder still has to close. |
| RemoveUnseenUnk.GetUnkTokensOfBlocks | scripts/remove_unseen_unk.py:5-14 | The UNK tokens yielded are exactly those of the third line of every block. Blocks are as the three-line oracle decoder reads them. |
| RemoveUnseenUnk.GetUnkTokensOfRecords | scripts/remove_unseen_unk.py:5-14 | On a file of well-formed generative records, the tokens are those of the records' unkified lines. This is the same set `remove_unseen.py` collects. |
| RemoveUnseenUnk.ActionRunStops | scripts/remove_unseen_unk.py:67-74 | The action lines copied run up to the first blank line or to the end. |
| RemoveUnseenUnk.ValidFromStep | scripts/remove_unseen_unk.py:32-75 | A block closed by a blank line prints its lines when its UNK tokens are known, then a blank line. The loop then goes on after the block. |
| RemoveUnseenUnk.ValidFromEofLine | scripts/remove_unseen_unk.py:32-75 | The only failure is an early end of file, and it names the line just past the last one. |
| RemoveUnseenUnk.RemoveUnseenUnkAsWritten | scripts/remove_unseen_unk.py:44-46 | The loop as written prints what the intended loop prints and fails exactly when it does. |
| RemoveUnseenUnk.EofMessageLost | scripts/remove_unseen_unk.py:44-46 | On `["(S (NN x))"]` the script as written dies with the missing-attribute error. The intended message names line 2. |
| RemoveUnseenUnk.RemoveUnseenUnkEofLine | scripts/remove_unseen_unk.py:32-75 | Every early end of file is reported with the line number one past the file's last line. |
| RemoveUnseenUnk.ValidFromRecords | scripts/remove_unseen_unk.py:32-75 | Over a file of well-formed records, the loop prints each record whose UNK tokens are known and a blank line after every record, without failing. |
| RemoveUnseenUnk.RemoveUnseenUnkOfRecords | scripts/remove_unseen_unk.py:32-75 | The same for the whole script on a written generative oracle file. |
| RemoveUnseenUnk.DroppedRecordLeavesBlank | scripts/remove_unseen_unk.py:55-75 | A dropped first record leaves its blank line at the head of the output, which the oracle decoder reads as an empty record. |
| RemoveUnkNt.TrainingTreesPass | scripts/remove_unk_nt.py:25-28 | Every training tree passes against the training label set. |
| RemoveUnkNt.TrainLabelsFromTrees | scripts/remove_unk_nt.py:25-28 | Every training label comes from some training tree. |
| RemoveUnkNt.RemoveUnkNtKeeps | scripts/remove_unk_nt.py:34-38 | A line is printed exactly when it is a stripped validation line whose tree has only known labels. |
| RemoveUnkNt.RemoveUnkNtOrdered | scripts/remove_unk_nt.py:34-38 | The printed lines keep the order of the validation file. |
| RemoveUnkNt.KeptHereKeptThere | scripts/remove_unk_nt.py:10-15 | A tree this filter keeps also passes the nonterminal test of `remove_unseen.py` against the same set. |
| RemoveUnkNt.TagsCountHere | scripts/remove_unk_nt.py:10-15 | The converse fails: here the tag `NN` of `(S (NN dog))` counts. |
| SplitCv.FoldSizes | scripts/split_cv.py:18-20 | Fold `i` gets `size // k`, plus one for each of the first `size % k` folds. |
| SplitCv.GetSplitIndices | scripts/split_cv.py:10-24 | `ValueError` exactly when `k < 2` or `size < k`. Otherwise there are `k` folds of those sizes, whose concatenation is the shuffled index list. |
| SplitCv.FoldSizesBalanced | scripts/split_cv.py:18-20 | Fold sizes differ by at most one and add up to `size`. |
| SplitCv.FoldsCover | scripts/split_cv.py:16-24 | Every index is in some fold. |
| SplitCv.FoldsDisjoint | scripts/split_cv.py:16-24 | No index is in two folds. |
| SplitCv.Partition | scripts/split_cv.py:28-34 | The loop puts each element, by position, in the selected or the discarded list. |
| SplitCv.PickMember | scripts/split_cv.py:28-34 | An element lands in a part exactly when its position says so. |
| SplitCv.PickOrdered | scripts/split_cv.py:28-34 | Each part keeps the input order. |
| SplitCv.PickPartition | scripts/split_cv.py:28-34 | The two parts together are the input, as a multiset. |
| SplitCv.Trunc | scripts/split_cv.py:37 | `int()` truncates toward zero. |
| SplitCv.Cut | scripts/split_cv.py:38 | The slice index is clamped to the list, and a negative one counts from the end. |
| SplitCv.HoldOutShare | scripts/split_cv.py:36-38 | For a proportion between 0 and 1, the validation part is the floor of that share of the remaining lines. |
| SplitCv.Split | scripts/split_cv.py:27-38 | The test part is the elements at the given positions, in order. Validation and training together are a permutation of the rest, with validation of the hold-out size. All three together are a permutation of the input. |

## Left out

- File and stream I/O, printing, argument parsing and the `__main__` plumbing around the modelled loops. Files are lists of lines, outputs are lists of printed lines or written text, and the shuffled data are parameters.
- `Tree.fromstring` and `str(Tree)` from nltk. Tree lines are parsed by a parameter `parse`, which cannot fail here. A tree is rendered by `Render`, the single-space bracketed form the oracle scanner reads.
- The `WORD_UNIT_PROG` substitution before the Indonesian tree is parsed. `UnitLeaves` stands for the leaves it makes of a word unit.
- `get_dictionary.get_dict`, which is not part of this model. The vocabulary is a given set.
- `random.shuffle`. The shuffled index list and the shuffle of the remaining lines are parameters, constrained only to be permutations.
- SplitCv.HoldOut: the proportion is an exact real. Floating-point rounding of `hold_out * len(discarded)` is not modelled.
- SplitCv.GetSplitIndices: it is a generator, so its `ValueError` is raised at the first request for a fold. The model reports it as the result of the whole call.
- The Unicode whitespace and case mappings of Python 3 `str`. The model uses the ASCII set.
- The corpus iterators (`_get_iterator`, `__iter__`, `islice`), the constructors and the section/path properties. They read files and hand each sentence to `_preprocess_sentence`, which is modelled.
- Preprocess.IdnSentence: the text steps before `Tree.fromstring` (deleting tabs, the first squeeze and the word-unit substitution) are not modelled. It starts from the parsed tree.
- Preprocess.IdnSentenceText: stated for trees without the word `[]`. Joining word units turns that word into an empty word, and squeezing may then change the rendering.
- Preprocess.PennSentence: `remove_empty_top_bracketing` of `Tree.fromstring` is not modelled. It starts from the parsed tree.
- `PennTreebankDataset`, `src/utils.py`, the other scripts, `setup.py` and the C++ parser. They are outside the pipeline modelled here.
- Python 2 `decode('utf-8')` calls. Strings are sequences of characters already.

## Findings

| source | as written | input that shows it | evidently intended | confidence | as-written member | corrected member |
|---|---|---|---|---|---|---|
| scripts/remove_unseen_unk.py:44-46 | On an early end of file the message is printed to `sys.err`. The `sys` module has no such attribute, so the script raises `AttributeError` instead of printing its message and exiting with status 1. The same holds at lines 51-53 and 64-66. | A validation file holding the single line `(S (NN x))` | Print `2: expected a line of word tokens but found EOF instead.` to standard error and stop | not executed | RemoveUnseenUnk.EofMessageLost | RemoveUnseenUnk.RemoveUnseenUnkEofLine |

=== FILE: base.dfy ===
/** Shared vocabulary of the treebank pipeline: failure-carrying results, the
    exceptions the Python code raises, and the string primitives the scripts use
    (`strip`, `split`, `join`, `find`, `startswith`, `lower`).

    Whitespace is the ASCII set Python 2 byte strings use; every script works on
    one-line records, so the other Unicode spaces never appear. */
module Base {

  datatype Option<+T> = None | Some(value: T)

  /** The exceptions the modelled code raises, by their Python names.
      `UnexpectedEof` is the message `remove_unseen_unk.py` means to print
      (1-based line number and what was expected there). */
  datatype Error =
    | IndexError
    | AssertionError
    | AttributeError
    | TypeError
    | ValueError
    | NotImplementedError(line: nat)
    | UnexpectedEof(line: nat, expected: string)

  datatype Result<+T> = Ok(value: T) | Err(error: Error)

  /** A lazily produced sequence (a Python generator): the items it yields
      before it either finishes (`failure == None`) or raises. */
  datatype Stream<+T> = Stream(items: seq<T>, failure: Option<Error>)

  /** `prefix` followed by the successful result `r`; failures pass through. */
  function Then<T>(prefix: seq<T>, r: Result<seq<T>>): (out: Result<seq<T>>)
    ensures out.Ok? <==> r.Ok?
    ensures out.Ok? ==> out.value == prefix + r.value
    ensures out.Err? ==> out.error == r.error
  {
    match r
    case Ok(xs) => Ok(prefix + xs)
    case Err(e) => Err(e)
  }

  lemma {:induction false} ThenThen<T>(a: seq<T>, b: seq<T>, r: Result<seq<T>>)
    ensures Then(a, Then(b, r)) == Then(a + b, r)
  {
    if r.Ok? {
      assert a + (b + r.value) == (a + b) + r.value;
    }
  }

  /** Three results chained one after another. */
  lemma {:induction false} ThenChain<T>(x: Result<seq<T>>, y: Result<seq<T>>, z: Result<seq<T>>, w: Result<seq<T>>,
                     a: seq<T>, b: seq<T>, c: seq<T>)
    requires x == Then(a, y) && y == Then(b, z) && z == Then(c, w)
    ensures x == Then(a + b + c, w)
  {
    ThenThen(b, c, w);
    ThenThen(a, b + c, w);
    assert a + (b + c) == a + b + c;
  }

  /** Python's `str.isspace` on one byte. */
  predicate IsSpace(c: char) {
    c == ' ' || c == '\t' || c == '\n' || c == '\r' || c == '\U{000B}' || c == '\U{000C}'
  }

  predicate NoSpace(s: string) {
    forall i :: 0 <= i < |s| ==> !IsSpace(s[i])
  }

  /** What `str.split()` produces: non-empty and free of whitespace. */
  predicate IsWord(s: string) {
    |s| > 0 && NoSpace(s)
  }

  /** `str.rstrip()`: the longest prefix that does not end in whitespace. */
  function RStrip(s: string): (r: string)
    ensures r <= s
    ensures r == [] || !IsSpace(r[|r| - 1])
    ensures forall i :: |r| <= i < |s| ==> IsSpace(s[i])
  {
    if |s| > 0 && IsSpace(s[|s| - 1]) then RStrip(s[..|s| - 1]) else s
  }

  /** `str.lstrip()`: the longest suffix that does not start with whitespace. */
  function LStrip(s: string): (r: string)
    ensures |r| <= |s| && r == s[|s| - |r|..]
    ensures r == [] || !IsSpace(r[0])
    ensures forall i :: 0 <= i < |s| - |r| ==> IsSpace(s[i])
  {
    if |s| > 0 && IsSpace(s[0]) then LStrip(s[1..]) else s
  }

  /** `str.strip()`. */
  function Strip(s: string): (r: string)
    ensures r == [] || (!IsSpace(r[0]) && !IsSpace(r[|r| - 1]))
  {
    LStrip(RStrip(s))
  }

  /** Every line of a sequence stripped, as the line loops see them. */
  function StripAll(lines: seq<string>): (r: seq<string>)
    ensures |r| == |lines|
    ensures forall k :: 0 <= k < |r| ==> r[k] == Strip(lines[k])
  {
    seq(|lines|, k requires 0 <= k < |lines| => Strip(lines[k]))
  }

  /** Stripping lines one by one commutes with concatenation. */
  lemma {:induction false} StripAllAppend(a: seq<string>, b: seq<string>)
    ensures StripAll(a + b) == StripAll(a) + StripAll(b)
  {
    forall k | 0 <= k < |a + b|
      ensures StripAll(a + b)[k] == (StripAll(a) + StripAll(b))[k]
    {
      if k >= |a| {
        assert (a + b)[k] == b[k - |a|];
      }
    }
  }

  /** A string with no surrounding whitespace is its own strip. */
  lemma {:induction false} StripStripped(s: string)
    requires s == [] || (!IsSpace(s[0]) && !IsSpace(s[|s| - 1]))
    ensures Strip(s) == s
  {
  }

  /** A whitespace-only (or empty) line strips to the empty string. */
  lemma {:induction false} StripBlank(s: string)
    requires forall i :: 0 <= i < |s| ==> IsSpace(s[i])
    ensures Strip(s) == ""
  {
  }

  /** Length of the leading run of non-whitespace characters. */
  function WordLen(s: string): (n: nat)
    ensures n <= |s|
    ensures forall i :: 0 <= i < n ==> !IsSpace(s[i])
    ensures n == |s| || IsSpace(s[n])
  {
    if |s| == 0 || IsSpace(s[0]) then 0 else 1 + WordLen(s[1..])
  }

  /** `str.split()` with no separator: the maximal whitespace-free runs, in order. */
  function Split(s: string): (r: seq<string>)
    ensures forall k :: 0 <= k < |r| ==> IsWord(r[k])
    decreases |s|
  {
    if |s| == 0 then []
    else if IsSpace(s[0]) then Split(s[1..])
    else
      var n := WordLen(s);
      [s[..n]] + Split(s[n..])
  }

  /** `sep.join(xs)`. */
  function Join(sep: string, xs: seq<string>): string {
    if |xs| == 0 then ""
    else if |xs| == 1 then xs[0]
    else xs[0] + sep + Join(sep, xs[1..])
  }

  lemma {:induction false} WordLenOfWord(w: string, rest: string)
    requires NoSpace(w)
    requires rest == [] || IsSpace(rest[0])
    ensures WordLen(w + rest) == |w|
  {
    if |w| > 0 {
      assert (w + rest)[1..] == w[1..] + rest;
      WordLenOfWord(w[1..], rest);
    }
  }

  /** Splitting a space-joined list of words gives the words back. */
  lemma {:induction false} SplitJoin(xs: seq<string>)
    requires forall k :: 0 <= k < |xs| ==> IsWord(xs[k])
    ensures Split(Join(" ", xs)) == xs
  {
    if |xs| == 1 {
      var w := xs[0];
      WordLenOfWord(w, "");
      assert w + "" == w;
      assert w[|w|..] == [];
    } else if |xs| > 1 {
      var w, rest := xs[0], Join(" ", xs[1..]);
      var s := w + " " + rest;
      assert s == w + (" " + rest);
      WordLenOfWord(w, " " + rest);
      assert s[..|w|] == w;
      assert s[|w|..] == " " + rest;
      assert (" " + rest)[1..] == rest;
      SplitJoin(xs[1..]);
      assert xs == [w] + xs[1..];
    }
  }

  /** `s.startswith(p)`. */
  predicate StartsWith(s: string, p: string) {
    |p| <= |s| && s[..|p|] == p
  }

  /** Python 2 `str.lower()` on one byte: ASCII only. */
  function LowerChar(c: char): char {
    if 'A' <= c <= 'Z' then (c as int + 32) as char else c
  }

  /** Python 2 `str.lower()`. */
  function Lower(s: string): (r: string)
    ensures |r| == |s|
    ensures forall i :: 0 <= i < |s| ==> r[i] == LowerChar(s[i])
  {
    seq(|s|, i requires 0 <= i < |s| => LowerChar(s[i]))
  }

  /** The first index at or after `j` holding a character of `cs`, if any. */
  function FindFrom(s: string, j: nat, cs: set<char>): (r: Option<nat>)
    ensures r.Some? ==> j <= r.value < |s| && s[r.value] in cs
    decreases |s| - j
  {
    if j >= |s| then None
    else if s[j] in cs then Some(j)
    else FindFrom(s, j + 1, cs)
  }

  /** The search skips only characters outside `cs`: up to its hit, or to the
      end when there is none. */
  lemma {:induction false} FindFromSkips(s: string, j: nat, cs: set<char>)
    ensures FindFrom(s, j, cs).Some? ==> forall m :: j <= m < FindFrom(s, j, cs).value ==> s[m] !in cs
    ensures FindFrom(s, j, cs).None? ==> forall m :: j <= m < |s| ==> s[m] !in cs
    decreases |s| - j
  {
    if j < |s| && s[j] !in cs {
      FindFromSkips(s, j + 1, cs);
    }
  }

  /** `FindFrom` is determined by where the first hit is. */
  lemma {:induction false} FindFromAt(s: string, j: nat, cs: set<char>, k: nat)
    requires j <= k < |s| && s[k] in cs
    requires forall m :: j <= m < k ==> s[m] !in cs
    ensures FindFrom(s, j, cs) == Some(k)
    decreases k - j
  {
    if j < k {
      FindFromAt(s, j + 1, cs, k);
    }
  }

  /** `s.find(c)` reported as an option instead of -1. */
  function Find(s: string, c: char): Option<nat> {
    FindFrom(s, 0, {c})
  }

  lemma {:induction false} AppendAssoc<T>(a: seq<T>, b: seq<T>, c: seq<T>)
    ensures a + b + c == a + (b + c)
  {
  }

  /** The concatenation of a list of lists. */
  function Flatten<T>(xss: seq<seq<T>>): seq<T> {
    if |xss| == 0 then [] else xss[0] + Flatten(xss[1..])
  }

  lemma {:induction false} FlattenAppend<T>(xss: seq<seq<T>>, yss: seq<seq<T>>)
    ensures Flatten(xss + yss) == Flatten(xss) + Flatten(yss)
  {
    if |xss| == 0 {
      assert xss + yss == yss;
    } else {
      assert (xss + yss)[1..] == xss[1..] + yss;
      FlattenAppend(xss[1..], yss);
    }
  }
}

=== FILE: function_labels.dfy ===
/** Grammatical-function suffixes on treebank labels (`NP-SBJ`, `PP-LOC=2`):
    both treebank readers cut a label at its first separator character unless
    that character opens the label, and rebuild the tree with the cut labels. */
module FunctionLabels {
  import opened Base
  import opened Trees

  /** The label up to its first character from `seps`, when that character is
      not the first one; otherwise the label unchanged (so `-NONE-` survives). */
  function CutLabel(lab: string, seps: set<char>): (r: string)
    ensures r <= lab
    ensures |r| < |lab| <==>
      (0 < |lab| && lab[0] !in seps && exists i :: 0 < i < |lab| && lab[i] in seps)
    ensures |r| < |lab| ==> lab[|r|] in seps && forall i :: 0 <= i < |r| ==> r[i] !in seps
  {
    FindFromSkips(lab, 0, seps);
    match FindFrom(lab, 0, seps)
    case None => lab
    case Some(ix) => if ix > 0 then lab[..ix] else lab
  }

  /** A cut label has nothing left to cut. */
  lemma {:induction false} CutLabelIdempotent(lab: string, seps: set<char>)
    ensures CutLabel(CutLabel(lab, seps), seps) == CutLabel(lab, seps)
  {
    var r := CutLabel(lab, seps);
    if |r| < |lab| {
      assert FindFrom(r, 0, seps).None?;
    }
  }

  /** `tree` with every internal label cut; leaves are kept as they are. */
  function StripLabels(t: Tree, seps: set<char>): Tree
    decreases t, 1
  {
    match t
    case Leaf(_) => t
    case Node(l, cs) => Node(CutLabel(l, seps), StripLabelsChildren(cs, seps))
  }

  function StripLabelsChildren(cs: seq<Tree>, seps: set<char>): (r: seq<Tree>)
    ensures |r| == |cs|
    decreases cs, 0
  {
    if |cs| == 0 then [] else [StripLabels(cs[0], seps)] + StripLabelsChildren(cs[1..], seps)
  }

  /** The same tree up to internal labels: equal leaves, equal branching. */
  predicate SameShape(a: Tree, b: Tree)
    decreases a
  {
    match a
    case Leaf(w) => b == Leaf(w)
    case Node(_, cs) => b.Node? && SameShapeChildren(cs, b.children)
  }

  predicate SameShapeChildren(cs: seq<Tree>, ds: seq<Tree>)
    decreases cs
  {
    |cs| == |ds| && (|cs| == 0 || (SameShape(cs[0], ds[0]) && SameShapeChildren(cs[1..], ds[1..])))
  }

  /** A list of labels, each cut. */
  function CutAll(ls: seq<string>, seps: set<char>): (r: seq<string>)
    ensures |r| == |ls|
    ensures forall k :: 0 <= k < |ls| ==> r[k] == CutLabel(ls[k], seps)
  {
    seq(|ls|, k requires 0 <= k < |ls| => CutLabel(ls[k], seps))
  }

  lemma {:induction false} CutAllAppend(a: seq<string>, b: seq<string>, seps: set<char>)
    ensures CutAll(a + b, seps) == CutAll(a, seps) + CutAll(b, seps)
  {
  }

  /** Stripping keeps the shape and the leaves, and cuts each label in place:
      the pre-order label list of the result is the input's, label by label
      cut. */
  lemma {:induction false} StripLabelsSpec(t: Tree, seps: set<char>)
    ensures SameShape(t, StripLabels(t, seps))
    ensures Labels(StripLabels(t, seps)) == CutAll(Labels(t), seps)
    decreases t, 1
  {
    match t
    case Leaf(_) =>
    case Node(l, cs) =>
      StripLabelsChildrenSpec(cs, seps);
      CutAllAppend([l], LabelsChildren(cs), seps);
  }

  lemma {:induction false} StripLabelsChildrenSpec(cs: seq<Tree>, seps: set<char>)
    ensures SameShapeChildren(cs, StripLabelsChildren(cs, seps))
    ensures LabelsChildren(StripLabelsChildren(cs, seps)) == CutAll(LabelsChildren(cs), seps)
    decreases cs, 0
  {
    if |cs| > 0 {
      var r := StripLabelsChildren(cs, seps);
      assert r[0] == StripLabels(cs[0], seps) && r[1..] == StripLabelsChildren(cs[1..], seps);
      StripLabelsSpec(cs[0], seps);
      StripLabelsChildrenSpec(cs[1..], seps);
      CutAllAppend(Labels(cs[0]), LabelsChildren(cs[1..]), seps);
    }
  }

  /** Same shape means the same leaves in the same order. */
  lemma {:induction false} SameShapeYield(a: Tree, b: Tree)
    requires SameShape(a, b)
    ensures Yield(a) == Yield(b)
    decreases a, 1
  {
    if a.Node? {
      SameShapeYieldChildren(a.children, b.children);
    }
  }

  lemma {:induction false} SameShapeYieldChildren(cs: seq<Tree>, ds: seq<Tree>)
    requires SameShapeChildren(cs, ds)
    ensures YieldChildren(cs) == YieldChildren(ds)
    decreases cs, 0
  {
    if |cs| > 0 {
      SameShapeYield(cs[0], ds[0]);
      SameShapeYieldChildren(cs[1..], ds[1..]);
    }
  }

  /** Stripping twice is stripping once. */
  lemma {:induction false} StripLabelsIdempotent(t: Tree, seps: set<char>)
    ensures StripLabels(StripLabels(t, seps), seps) == StripLabels(t, seps)
    decreases t, 1
  {
    match t
    case Leaf(_) =>
    case Node(l, cs) =>
      CutLabelIdempotent(l, seps);
      StripLabelsChildrenIdempotent(cs, seps);
  }

  lemma {:induction false} StripLabelsChildrenIdempotent(cs: seq<Tree>, seps: set<char>)
    ensures StripLabelsChildren(StripLabelsChildren(cs, seps), seps) == StripLabelsChildren(cs, seps)
    decreases cs, 0
  {
    if |cs| > 0 {
      var r := StripLabelsChildren(cs, seps);
      assert r[0] == StripLabels(cs[0], seps) && r[1..] == StripLabelsChildren(cs[1..], seps);
      StripLabelsIdempotent(cs[0], seps);
      StripLabelsChildrenIdempotent(cs[1..], seps);
    }
  }

  /** A cut label is a prefix of the label, so cutting brings in no whitespace. */
  lemma {:induction false} StripLabelsSpaceless(t: Tree, seps: set<char>)
    requires Spaceless(t)
    ensures Spaceless(StripLabels(t, seps))
    decreases t, 1
  {
    match t
    case Leaf(_) =>
    case Node(l, cs) =>
      var r := CutLabel(l, seps);
      assert forall i :: 0 <= i < |r| ==> r[i] == l[i];
      StripLabelsChildrenSpaceless(cs, seps);
  }

  lemma {:induction false} StripLabelsChildrenSpaceless(cs: seq<Tree>, seps: set<char>)
    requires SpacelessChildren(cs)
    ensures SpacelessChildren(StripLabelsChildren(cs, seps))
    decreases cs, 0
  {
    if |cs| > 0 {
      var r := StripLabelsChildren(cs, seps);
      assert r[0] == StripLabels(cs[0], seps) && r[1..] == StripLabelsChildren(cs[1..], seps);
      StripLabelsSpaceless(cs[0], seps);
      StripLabelsChildrenSpaceless(cs[1..], seps);
    }
  }
}

=== FILE: idn_treebank.dfy ===
/** The tree normalisation of the Indonesian Treebank reader: word units
    written `(kunjungan kerja)` inside a preterminal reach the tree as the
    bracketed leaves `[kunjungan` `kerja]` and are joined back into one leaf
    `kunjungan_kerja`; labels are cut at their first `-`; null elements (the
    trace words of `NullElems` and `(NP *)`) are pruned. */
module IdnTreebank {
  import opened Base
  import opened Trees
  import opened FunctionLabels

  /** `_get_head_label`: the label up to its first `-`, unless it opens the
      label. */
  function HeadLabel(lab: string): (r: string)
    ensures r <= lab
    ensures |r| < |lab| <==> (0 < |lab| && lab[0] != '-' && exists i :: 0 < i < |lab| && lab[i] == '-')
    ensures |r| < |lab| ==> lab[|r|] == '-' && forall i :: 0 <= i < |r| ==> r[i] != '-'
  {
    CutLabel(lab, {'-'})
  }

  /** `_strip_function_labels`: every label replaced by its head label,
      nothing else changed. */
  function StripFunctionLabels(t: Tree): (r: Tree)
    ensures SameShape(t, r) && Yield(r) == Yield(t)
    ensures Labels(r) == CutAll(Labels(t), {'-'})
  {
    StripLabelsSpec(t, {'-'});
    SameShapeYield(t, StripLabels(t, {'-'}));
    StripLabels(t, {'-'})
  }

  // ---------------------------------------------------------------------------
  // _combine_multiword

  /** Python's `s[1:-1]`. */
  function Inner(s: string): (r: string)
    ensures 2 <= |s| ==> s == [s[0]] + r + [s[|s| - 1]]
    ensures |s| < 2 ==> r == ""
  {
    if |s| < 2 then "" else s[1..|s| - 1]
  }

  /** A one-word unit as the bracket pre-pass leaves it: `[rumah]`. */
  predicate IsUnit(w: string) {
    0 < |w| && w[0] == '[' && w[|w| - 1] == ']'
  }

  predicate AllLeaves(cs: seq<Tree>) {
    forall k :: 0 <= k < |cs| ==> cs[k].Leaf?
  }

  function Words(cs: seq<Tree>): (ws: seq<string>)
    requires AllLeaves(cs)
    ensures |ws| == |cs| && forall k :: 0 <= k < |cs| ==> ws[k] == cs[k].word
  {
    seq(|cs|, k requires 0 <= k < |cs| && cs[k].Leaf? => cs[k].word)
  }

  /** `_combine_multiword`. A node with several children, all words, must
      open with `[` and close with `]`; its words are `_`-joined without the
      outer brackets into its one child. A lone `[...]` word loses its
      brackets. Indexing an empty word fails; so does the bracket check. */
  function CombineMultiword(t: Tree): Result<Tree>
    decreases t, 1
  {
    match t
    case Leaf(w) =>
      if |w| == 0 then Err(IndexError) else Ok(if IsUnit(w) then Leaf(Inner(w)) else t)
    case Node(l, cs) =>
      if 1 < |cs| && AllLeaves(cs) then
        var first, last := cs[0].word, cs[|cs| - 1].word;
        if |first| == 0 then Err(IndexError)
        else if first[0] != '[' then Err(AssertionError)
        else if |last| == 0 then Err(IndexError)
        else if last[|last| - 1] != ']' then Err(AssertionError)
        else Ok(Node(l, [Leaf(Inner(Join("_", Words(cs))))]))
      else
        match CombineChildren(cs)
        case Err(e) => Err(e)
        case Ok(ds) => Ok(Node(l, ds))
  }

  /** The children in order, the first failure propagating. */
  function CombineChildren(cs: seq<Tree>): Result<seq<Tree>>
    decreases cs, 0
  {
    if |cs| == 0 then Ok([])
    else
      match CombineMultiword(cs[0])
      case Err(e) => Err(e)
      case Ok(d) =>
        match CombineChildren(cs[1..])
        case Err(e) => Err(e)
        case Ok(ds) => Ok([d] + ds)
  }

  lemma {:induction false} LabelsOfLeaves(cs: seq<Tree>)
    requires AllLeaves(cs)
    ensures LabelsChildren(cs) == []
  {
    if |cs| > 0 {
      LabelsOfLeaves(cs[1..]);
    }
  }

  /** Joining word units touches only words: the internal labels, in
      pre-order, are those of the input. */
  lemma {:induction false} CombineLabels(t: Tree)
    requires CombineMultiword(t).Ok?
    ensures Labels(CombineMultiword(t).value) == Labels(t)
    decreases t, 1
  {
    match t
    case Leaf(_) =>
    case Node(l, cs) =>
      if 1 < |cs| && AllLeaves(cs) {
        var u := Leaf(Inner(Join("_", Words(cs))));
        LabelsOfLeaves(cs);
        LabelsOfLeaves([u]);
      } else {
        CombineChildrenLabels(cs);
      }
  }

  lemma {:induction false} CombineChildrenLabels(cs: seq<Tree>)
    requires CombineChildren(cs).Ok?
    ensures LabelsChildren(CombineChildren(cs).value) == LabelsChildren(cs)
    decreases cs, 0
  {
    if |cs| > 0 {
      var ds := CombineChildren(cs).value;
      CombineLabels(cs[0]);
      CombineChildrenLabels(cs[1..]);
      assert ds[0] == CombineMultiword(cs[0]).value && ds[1..] == CombineChildren(cs[1..]).value;
    }
  }

  /** The words `ws` with `p` in front of the first and `q` after the last. */
  function Wrap(ws: seq<string>, p: string, q: string): (r: seq<string>)
    requires 0 < |ws|
    ensures |r| == |ws|
  {
    seq(|ws|, k requires 0 <= k < |ws| =>
      (if k == 0 then p else "") + ws[k] + (if k == |ws| - 1 then q else ""))
  }

  lemma {:induction false} JoinWrap(ws: seq<string>, p: string, q: string)
    requires 0 < |ws|
    ensures Join("_", Wrap(ws, p, q)) == p + Join("_", ws) + q
  {
    var xs := Wrap(ws, p, q);
    if |ws| == 1 {
      assert xs[0] == p + ws[0] + q;
    } else {
      assert xs[0] == p + ws[0];
      var ys := Wrap(ws[1..], "", q);
      assert xs[1..] == ys by {
        forall k | 0 <= k < |ys| ensures xs[1..][k] == ys[k] {
          assert "" + ws[1..][k] == ws[k + 1];
        }
      }
      JoinWrap(ws[1..], "", q);
      assert "" + Join("_", ws[1..]) == Join("_", ws[1..]);
    }
  }

  /** The leaves the bracket pre-pass and the tree reader make of the word
      unit `(w1 w2 ... wn)`: `[w1`, `w2`, ..., `wn]` (or `[w1]` alone). */
  function UnitLeaves(ws: seq<string>): (cs: seq<Tree>)
    requires 0 < |ws|
    ensures |cs| == |ws| && AllLeaves(cs) && Words(cs) == Wrap(ws, "[", "]")
  {
    var xs := Wrap(ws, "[", "]");
    seq(|ws|, k requires 0 <= k < |ws| => Leaf(xs[k]))
  }

  lemma {:induction false} InnerBracket(s: string)
    ensures Inner("[" + s + "]") == s
  {
  }

  /** A word unit comes back as one leaf, its words joined with `_`: the
      node-level round trip of the bracket pre-pass. */
  lemma {:induction false} CombineUnit(l: string, ws: seq<string>)
    requires 0 < |ws|
    ensures CombineMultiword(Node(l, UnitLeaves(ws))) == Ok(Node(l, [Leaf(Join("_", ws))]))
  {
    if |ws| == 1 {
      CombineOneWord(l, ws[0]);
      assert UnitLeaves(ws) == [Leaf("[" + ws[0] + "]")];
    } else {
      CombineWords(l, ws);
    }
  }

  lemma {:induction false} CombineOneWord(l: string, w: string)
    ensures CombineMultiword(Node(l, [Leaf("[" + w + "]")])) == Ok(Node(l, [Leaf(w)]))
  {
    var u := Leaf("[" + w + "]");
    InnerBracket(w);
    assert CombineMultiword(u) == Ok(Leaf(w));
    assert [u][0] == u && [u][1..] == [];
    assert CombineChildren([u][1..]) == Ok([]);
    assert CombineChildren([u]).value == [Leaf(w)];
  }

  lemma {:induction false} CombineWords(l: string, ws: seq<string>)
    requires 1 < |ws|
    ensures CombineMultiword(Node(l, UnitLeaves(ws))) == Ok(Node(l, [Leaf(Join("_", ws))]))
  {
    var cs := UnitLeaves(ws);
    UnitLeavesEnds(ws);
    assert CombineMultiword(Node(l, cs)) == Ok(Node(l, [Leaf(Inner(Join("_", Words(cs))))]));
    JoinWrap(ws, "[", "]");
    InnerBracket(Join("_", ws));
  }

  lemma {:induction false} UnitLeavesEnds(ws: seq<string>)
    requires 1 < |ws|
    ensures var cs := UnitLeaves(ws); var first, last := cs[0].word, cs[|cs| - 1].word;
      0 < |first| && first[0] == '[' && 0 < |last| && last[|last| - 1] == ']'
  {
    var xs := Wrap(ws, "[", "]");
    assert xs[0] == "[" + ws[0] + "";
    assert xs[|xs| - 1] == "" + ws[|ws| - 1] + "]";
  }

  /** No word is empty or a bracketed unit, and no node has several children
      that are all words. */
  predicate NoUnits(t: Tree)
    decreases t, 1
  {
    match t
    case Leaf(w) => 0 < |w| && !IsUnit(w)
    case Node(_, cs) => !(1 < |cs| && AllLeaves(cs)) && NoUnitsChildren(cs)
  }

  predicate NoUnitsChildren(cs: seq<Tree>)
    decreases cs, 0
  {
    |cs| == 0 || (NoUnits(cs[0]) && NoUnitsChildren(cs[1..]))
  }

  /** A tree without word units is left as it is. */
  lemma {:induction false} CombineFixed(t: Tree)
    requires NoUnits(t)
    ensures CombineMultiword(t) == Ok(t)
    decreases t, 1
  {
    if t.Node? {
      CombineChildrenFixed(t.children);
    }
  }

  lemma {:induction false} CombineChildrenFixed(cs: seq<Tree>)
    requires NoUnitsChildren(cs)
    ensures CombineChildren(cs) == Ok(cs)
    decreases cs, 0
  {
    if |cs| > 0 {
      CombineFixed(cs[0]);
      CombineChildrenFixed(cs[1..]);
      assert cs == [cs[0]] + cs[1..];
    }
  }

  /** A several-word node whose words do not form a bracketed unit: its first
      word is empty or does not open with `[`, or its last word is empty or
      does not close with `]`. */
  predicate BadUnit(cs: seq<Tree>)
    requires 1 < |cs| && AllLeaves(cs)
  {
    var first, last := cs[0].word, cs[|cs| - 1].word;
    |first| == 0 || first[0] != '[' || |last| == 0 || last[|last| - 1] != ']'
  }

  /** Somewhere `_combine_multiword` reaches there is an empty word or a bad
      unit. The words of a several-word node are not visited one by one. */
  predicate CombineBreaks(t: Tree)
    decreases t
  {
    match t
    case Leaf(w) => |w| == 0
    case Node(_, cs) =>
      if 1 < |cs| && AllLeaves(cs) then BadUnit(cs)
      else exists k :: 0 <= k < |cs| && CombineBreaks(cs[k])
  }

  lemma {:induction false} YieldChildrenHas(cs: seq<Tree>, k: nat, w: string)
    requires k < |cs| && w in Yield(cs[k])
    ensures w in YieldChildren(cs)
    decreases |cs|
  {
    if k > 0 {
      YieldChildrenHas(cs[1..], k - 1, w);
    }
  }

  /** The failures: joining word units fails exactly when the combiner
      reaches an empty word or a bad unit. An `IndexError` implies that the
      tree has an empty word; any other failure is an `AssertionError`. */
  lemma {:induction false} CombineFailures(t: Tree)
    ensures CombineMultiword(t).Err? <==> CombineBreaks(t)
    ensures CombineMultiword(t).Err? ==>
      (CombineMultiword(t).error == IndexError && "" in Yield(t)) || CombineMultiword(t).error == AssertionError
    decreases t, 1
  {
    match t
    case Leaf(w) =>
    case Node(l, cs) =>
      if 1 < |cs| && AllLeaves(cs) {
        if CombineMultiword(t) == Err(IndexError) {
          var k := if |cs[0].word| == 0 then 0 else |cs| - 1;
          assert cs[k].word == "" && Yield(cs[k]) == [""];
          YieldChildrenHas(cs, k, "");
        }
      } else {
        CombineChildrenFailures(cs);
      }
  }

  lemma {:induction false} CombineChildrenFailures(cs: seq<Tree>)
    ensures CombineChildren(cs).Err? <==> exists k :: 0 <= k < |cs| && CombineBreaks(cs[k])
    ensures CombineChildren(cs).Err? ==>
      (CombineChildren(cs).error == IndexError && "" in YieldChildren(cs)) || CombineChildren(cs).error == AssertionError
    decreases cs, 0
  {
    if |cs| > 0 {
      CombineFailures(cs[0]);
      CombineChildrenFailures(cs[1..]);
      if exists k :: 0 <= k < |cs| && CombineBreaks(cs[k]) {
        var k :| 0 <= k < |cs| && CombineBreaks(cs[k]);
        if k > 0 {
          assert cs[1..][k - 1] == cs[k];
        }
      }
      if exists k :: 0 <= k < |cs[1..]| && CombineBreaks(cs[1..][k]) {
        var k :| 0 <= k < |cs[1..]| && CombineBreaks(cs[1..][k]);
        assert cs[k + 1] == cs[1..][k];
      }
    }
  }

  /** A several-word node is checked only at its ends: an empty word in the
      middle is joined like any other, and an empty last word fails the
      bracket assertion before any empty word is indexed. */
  lemma {:induction false} CombineExamples()
    ensures CombineMultiword(Node("NN", [Leaf("[a"), Leaf(""), Leaf("b]")])) == Ok(Node("NN", [Leaf("a__b")]))
    ensures CombineMultiword(Node("NN", [Leaf("a"), Leaf("")])) == Err(AssertionError)
  {
    var cs := [Leaf("[a"), Leaf(""), Leaf("b]")];
    assert Words(cs) == ["[a", "", "b]"];
    assert Join("_", ["b]"]) == "b]";
    assert ["[a", "", "b]"][1..] == ["", "b]"] && ["", "b]"][1..] == ["b]"];
    assert Join("_", ["[a", "", "b]"]) == "[a__b]";
    var j := "[a__b]";
    assert |j| == 6;
    forall k | 0 <= k < 4
      ensures j[1..5][k] == "a__b"[k]
    {
    }
    assert j[1..5] == "a__b";
    assert Inner(j) == j[1..5];
  }

  // ---------------------------------------------------------------------------
  // _remove_null_elements

  /** The trace words that mark null elements. */
  const NullElems: seq<string> := ["*T*", "0", "*U*", "*?*", "*NOT*", "*RNR*", "*ICH*", "*EXP*", "*PPA*"]

  predicate IsNullWord(w: string) {
    HeadLabel(w) in NullElems
  }

  /** An `NP` whose only child is the word `*` (or `*-n`). */
  predicate IsNullNp(l: string, cs: seq<Tree>) {
    HeadLabel(l) == "NP" && |cs| == 1 && cs[0].Leaf? && HeadLabel(cs[0].word) == "*"
  }

  /** `_remove_null_elements`: null words and null `NP`s disappear, and so
      does every node left without children; survivors keep their order. */
  function RemoveNullElements(t: Tree): Option<Tree>
    decreases t, 1
  {
    match t
    case Leaf(w) => if IsNullWord(w) then None else Some(t)
    case Node(l, cs) =>
      if IsNullNp(l, cs) then None
      else
        var kept := RemoveNullChildren(cs);
        if |kept| == 0 then None else Some(Node(l, kept))
  }

  function RemoveNullChildren(cs: seq<Tree>): seq<Tree>
    decreases cs, 0
  {
    if |cs| == 0 then []
    else
      (match RemoveNullElements(cs[0]) case None => [] case Some(d) => [d])
      + RemoveNullChildren(cs[1..])
  }

  /** The words that are not null elements and not under a null `NP`. */
  function KeptWords(t: Tree): seq<string>
    decreases t, 1
  {
    match t
    case Leaf(w) => if IsNullWord(w) then [] else [w]
    case Node(l, cs) => if IsNullNp(l, cs) then [] else KeptWordsChildren(cs)
  }

  function KeptWordsChildren(cs: seq<Tree>): seq<string>
    decreases cs, 0
  {
    if |cs| == 0 then [] else KeptWords(cs[0]) + KeptWordsChildren(cs[1..])
  }

  /** A tree comes back exactly when some word survives, and its words are
      the surviving words in their original order. */
  lemma {:induction false} RemoveNullYield(t: Tree)
    ensures RemoveNullElements(t).Some? <==> KeptWords(t) != []
    ensures RemoveNullElements(t).Some? ==> Yield(RemoveNullElements(t).value) == KeptWords(t)
    decreases t, 1
  {
    match t
    case Leaf(_) =>
    case Node(l, cs) =>
      if !IsNullNp(l, cs) {
        RemoveNullChildrenYield(cs);
        var kept := RemoveNullChildren(cs);
        assert KeptWords(t) == KeptWordsChildren(cs);
        if kept != [] {
          assert Yield(Node(l, kept)) == YieldChildren(kept);
        }
      }
  }

  lemma {:induction false} RemoveNullChildrenYield(cs: seq<Tree>)
    ensures YieldChildren(RemoveNullChildren(cs)) == KeptWordsChildren(cs)
    ensures RemoveNullChildren(cs) == [] <==> KeptWordsChildren(cs) == []
    decreases cs, 0
  {
    if |cs| > 0 {
      RemoveNullYield(cs[0]);
      RemoveNullChildrenYield(cs[1..]);
      var rest := RemoveNullChildren(cs[1..]);
      var kept := RemoveNullChildren(cs);
      match RemoveNullElements(cs[0])
      case None =>
        assert kept == rest;
      case Some(d) =>
        assert kept == [d] + rest;
        assert kept[0] == d && kept[1..] == rest;
    }
  }

  /** No null word and no empty node. */
  predicate Clean(t: Tree)
    decreases t, 1
  {
    match t
    case Leaf(w) => !IsNullWord(w)
    case Node(_, cs) => 0 < |cs| && CleanChildren(cs)
  }

  predicate CleanChildren(cs: seq<Tree>)
    decreases cs, 0
  {
    |cs| == 0 || (Clean(cs[0]) && CleanChildren(cs[1..]))
  }

  /** What comes back has no null word and no empty node. */
  lemma {:induction false} RemoveNullClean(t: Tree)
    requires RemoveNullElements(t).Some?
    ensures Clean(RemoveNullElements(t).value)
    decreases t, 1
  {
    if t.Node? {
      RemoveNullChildrenClean(t.children);
    }
  }

  lemma {:induction false} RemoveNullChildrenClean(cs: seq<Tree>)
    ensures CleanChildren(RemoveNullChildren(cs))
    decreases cs, 0
  {
    if |cs| > 0 {
      RemoveNullChildrenClean(cs[1..]);
      var rest := RemoveNullChildren(cs[1..]);
      var kept := RemoveNullChildren(cs);
      match RemoveNullElements(cs[0])
      case None =>
        assert kept == rest;
      case Some(d) =>
        RemoveNullClean(cs[0]);
        assert kept[0] == d && kept[1..] == rest;
    }
  }

  /** Pruning is not idempotent: `(NP * *T*)` loses its trace and becomes
      `(NP *)`, which a second pass removes as a null `NP`. */
  lemma {:induction false} RemoveNullNotIdempotent()
    ensures RemoveNullElements(Node("NP", [Leaf("*"), Leaf("*T*")])) == Some(Node("NP", [Leaf("*")]))
    ensures RemoveNullElements(Node("NP", [Leaf("*")])) == None
  {
    assert HeadLabel("*") == "*";
    assert HeadLabel("*T*") == "*T*";
    assert HeadLabel("NP") == "NP";
    var star, trace := Leaf("*"), Leaf("*T*");
    assert !IsNullWord("*");
    assert RemoveNullElements(star) == Some(star);
    assert RemoveNullElements(trace) == None;
    assert [star, trace][0] == star && [star, trace][1..] == [trace];
    assert [trace][0] == trace && [trace][1..] == [];
    assert RemoveNullChildren([trace]) == [];
    assert RemoveNullChildren([star, trace]) == [star];
    assert !IsNullNp("NP", [star, trace]);
  }

  /** Pruning keeps whole subtrees and the labels above them, so a tree with
      whitespace-free words and labels prunes to one. */
  lemma {:induction false} RemoveNullSpaceless(t: Tree)
    requires Spaceless(t)
    ensures RemoveNullElements(t).Some? ==> Spaceless(RemoveNullElements(t).value)
    decreases t, 1
  {
    match t
    case Leaf(_) =>
    case Node(l, cs) =>
      RemoveNullChildrenSpaceless(cs);
  }

  lemma {:induction false} RemoveNullChildrenSpaceless(cs: seq<Tree>)
    requires SpacelessChildren(cs)
    ensures SpacelessChildren(RemoveNullChildren(cs))
    decreases cs, 0
  {
    if |cs| > 0 {
      RemoveNullChildrenSpaceless(cs[1..]);
      var rest := RemoveNullChildren(cs[1..]);
      var kept := RemoveNullChildren(cs);
      match RemoveNullElements(cs[0])
      case None =>
        assert kept == rest;
      case Some(d) =>
        RemoveNullSpaceless(cs[0]);
        assert kept[0] == d && kept[1..] == rest;
    }
  }

  lemma {:induction false} NoSpaceCat(a: string, b: string)
    requires NoSpace(a) && NoSpace(b)
    ensures NoSpace(a + b)
  {
    forall i | 0 <= i < |a + b|
      ensures !IsSpace((a + b)[i])
    {
      if i >= |a| {
        assert (a + b)[i] == b[i - |a|];
      }
    }
  }

  /** `_`-joining whitespace-free words brings in no whitespace; joining
      non-empty words gives at least one character per word and separator. */
  lemma {:induction false} JoinWordsSpaceless(ws: seq<string>)
    requires 0 < |ws| && forall k :: 0 <= k < |ws| ==> IsWord(ws[k])
    ensures NoSpace(Join("_", ws)) && |Join("_", ws)| >= 2 * |ws| - 1
  {
    if |ws| > 1 {
      var j := Join("_", ws[1..]);
      assert NoSpace(j) && |j| >= 2 * |ws| - 3 by {
        JoinWordsSpaceless(ws[1..]);
      }
      NoSpaceCat(ws[0], "_");
      NoSpaceCat(ws[0] + "_", j);
    }
  }

  /** Joining word units keeps words and labels whitespace-free, provided no
      word is the empty unit `[]`, which would lose its brackets and leave an
      empty word. */
  lemma {:induction false} CombineSpaceless(t: Tree)
    requires Spaceless(t) && "[]" !in Yield(t)
    ensures CombineMultiword(t).Ok? ==> Spaceless(CombineMultiword(t).value)
    decreases t, 1
  {
    match t
    case Leaf(w) =>
      if IsUnit(w) {
        assert |w| == 2 ==> w == "[]";
        var r := Inner(w);
        assert forall i :: 0 <= i < |r| ==> r[i] == w[i + 1];
      }
    case Node(l, cs) =>
      if 1 < |cs| && AllLeaves(cs) {
        var ws := Words(cs);
        forall k | 0 <= k < |ws|
          ensures IsWord(ws[k])
        {
          SpacelessAt(cs, k);
        }
        JoinWordsSpaceless(ws);
        var j := Join("_", ws);
        var r := Inner(j);
        assert forall i :: 0 <= i < |r| ==> r[i] == j[i + 1];
        assert [Leaf(r)][1..] == [];
      } else {
        CombineChildrenSpaceless(cs);
      }
  }

  lemma {:induction false} CombineChildrenSpaceless(cs: seq<Tree>)
    requires SpacelessChildren(cs) && "[]" !in YieldChildren(cs)
    ensures CombineChildren(cs).Ok? ==> SpacelessChildren(CombineChildren(cs).value)
    decreases cs, 0
  {
    if |cs| > 0 && CombineChildren(cs).Ok? {
      CombineSpaceless(cs[0]);
      CombineChildrenSpaceless(cs[1..]);
      var ds := CombineChildren(cs).value;
      assert ds[0] == CombineMultiword(cs[0]).value && ds[1..] == CombineChildren(cs[1..]).value;
    }
  }
}

=== FILE: oracle_codec.dfy ===
/** The oracle file format of `src/oracle.py`: a record is a few preamble
    lines followed by one line per parser action, and records are separated
    by blank lines. `Oracle` (discriminative) has five preamble lines,
    `GenOracle` (generative) has three.

    A file is seen as the list of its lines without their `\n` terminators;
    every line is stripped before use, so the terminator makes no difference. */
module OracleCodec {
  import opened Base

  datatype Oracle = Oracle(parsed: string, postags: string, words: string, lowercased: string,
                           unkified: string, actions: seq<string>)

  datatype GenOracle = GenOracle(parsed: string, words: string, unkified: string, actions: seq<string>)

  /** The lines `str(o)` joins: the preamble fields in order, then the actions. */
  function Fields(o: Oracle): seq<string> {
    [o.parsed, o.postags, o.words, o.lowercased, o.unkified] + o.actions
  }

  function GenFields(o: GenOracle): seq<string> {
    [o.parsed, o.words, o.unkified] + o.actions
  }

  /** `Oracle.__str__`. */
  function Str(o: Oracle): string {
    Join("\n", Fields(o))
  }

  /** `GenOracle.__str__`. */
  function GenStr(o: GenOracle): string {
    Join("\n", GenFields(o))
  }

  // ---------------------------------------------------------------------------
  // Splitting a file into lines

  /** Iterating over a file: the pieces between `\n`s, the last one only when
      the text does not end in `\n`. */
  function FileLines(text: string): seq<string>
    decreases |text|
  {
    if |text| == 0 then []
    else match Find(text, '\n')
      case None => [text]
      case Some(i) => [text[..i]] + FileLines(text[i + 1..])
  }

  predicate NoNewline(x: string) {
    '\n' !in x
  }

  /** A line without a newline, its newline, then more text, read back. */
  lemma {:induction false} FileLinesCons(x: string, tail: string)
    requires NoNewline(x)
    ensures FileLines(x + "\n" + tail) == [x] + FileLines(tail)
  {
    var text := x + "\n" + tail;
    assert forall m :: 0 <= m < |x| ==> text[m] == x[m];
    assert text[|x|] == '\n';
    FindFromAt(text, 0, {'\n'}, |x|);
    assert text[..|x|] == x;
    assert text[|x| + 1..] == tail;
  }

  /** Newline-joined lines, terminated, followed by more text, read back. */
  lemma {:induction false} FileLinesJoin(xs: seq<string>, rest: string)
    requires |xs| > 0 && forall k :: 0 <= k < |xs| ==> NoNewline(xs[k])
    ensures FileLines(Join("\n", xs) + "\n" + rest) == xs + FileLines(rest)
    decreases |xs|
  {
    var x := xs[0];
    if |xs| == 1 {
      FileLinesCons(x, rest);
      assert xs == [x];
    } else {
      var tail := Join("\n", xs[1..]) + "\n" + rest;
      assert FileLines(Join("\n", xs) + "\n" + rest) == [x] + FileLines(tail) by {
        JoinFirstLine(xs, rest, tail);
        FileLinesCons(x, tail);
      }
      assert FileLines(tail) == xs[1..] + FileLines(rest) by {
        assert forall k :: 0 <= k < |xs[1..]| ==> NoNewline(xs[1..][k]);
        FileLinesJoin(xs[1..], rest);
      }
      assert [x] + (xs[1..] + FileLines(rest)) == xs + FileLines(rest) by {
        AppendAssoc([x], xs[1..], FileLines(rest));
        assert [x] + xs[1..] == xs;
      }
    }
  }

  /** Newline-joined lines are the first line, a newline, and the rest joined. */
  lemma {:induction false} JoinFirstLine(xs: seq<string>, rest: string, tail: string)
    requires |xs| > 1 && tail == Join("\n", xs[1..]) + "\n" + rest
    ensures Join("\n", xs) + "\n" + rest == xs[0] + "\n" + tail
  {
    assert Join("\n", xs) == xs[0] + "\n" + Join("\n", xs[1..]);
    AppendAssoc(xs[0] + "\n", Join("\n", xs[1..]), "\n");
    AppendAssoc(xs[0] + "\n", Join("\n", xs[1..]) + "\n", rest);
  }

  /** A blank line at the front reads as one empty line. */
  lemma {:induction false} FileLinesBlank(rest: string)
    ensures FileLines("\n" + rest) == [""] + FileLines(rest)
  {
    var text := "\n" + rest;
    FindFromAt(text, 0, {'\n'}, 0);
    assert text[1..] == rest;
  }

  // ---------------------------------------------------------------------------
  // Decoding: the block state machine of `make_oracle_iter`

  /** What the state machine collects for one record before building it. */
  datatype Block = Block(preamble: seq<string>, actions: seq<string>)

  /** The contents of a block in file order. */
  function Contents(b: Block): seq<string> {
    b.preamble + b.actions
  }

  /** The loop of `oracle_iter` over the stripped lines, from its current state
      on: every blank line closes a block, the first `n` other lines of a block
      are its preamble and the rest its actions; a non-empty buffer at the end
      closes a last block. */
  function BlocksFrom(ls: seq<string>, n: nat, count: nat, buff: seq<string>, acts: seq<string>): seq<Block>
    decreases |ls|
  {
    if |ls| == 0 then (if |buff| > 0 then [Block(buff, acts)] else [])
    else if ls[0] == "" then [Block(buff, acts)] + BlocksFrom(ls[1..], n, 0, [], [])
    else if count < n then BlocksFrom(ls[1..], n, count + 1, buff + [ls[0]], acts)
    else BlocksFrom(ls[1..], n, count + 1, buff, acts + [ls[0]])
  }

  /** The blocks `make_oracle_iter(_, n)` builds records from. */
  function Blocks(lines: seq<string>, n: nat): seq<Block> {
    BlocksFrom(StripAll(lines), n, 0, [], [])
  }

  /** A line as decoding leaves it: non-empty, without surrounding whitespace. */
  predicate IsStripped(x: string) {
    x != "" && !IsSpace(x[0]) && !IsSpace(x[|x| - 1])
  }

  /** A stripped line is blank or has no surrounding whitespace. */
  lemma {:induction false} StripAllStripped(lines: seq<string>)
    ensures forall k :: 0 <= k < |StripAll(lines)| ==> StripAll(lines)[k] == "" || IsStripped(StripAll(lines)[k])
  {
  }

  /** Lines that are blank or already stripped are left alone. */
  lemma {:induction false} StripAllId(lines: seq<string>)
    requires forall k :: 0 <= k < |lines| ==> lines[k] == "" || IsStripped(lines[k])
    ensures StripAll(lines) == lines
  {
    forall k | 0 <= k < |lines| ensures Strip(lines[k]) == lines[k] {
      StripStripped(lines[k]);
    }
  }

  /** The state the loop keeps between lines: `count` counts the block's lines,
      actions start only once the preamble is full. */
  predicate GoodState(n: nat, count: nat, buff: seq<string>, acts: seq<string>) {
    && count == |buff| + |acts|
    && |buff| <= n
    && (|acts| > 0 ==> |buff| == n)
    && (forall k :: 0 <= k < |buff| ==> IsStripped(buff[k]))
    && (forall k :: 0 <= k < |acts| ==> IsStripped(acts[k]))
  }

  /** A block the loop can emit. */
  predicate GoodBlock(n: nat, b: Block) {
    GoodState(n, |b.preamble| + |b.actions|, b.preamble, b.actions)
  }

  lemma {:induction false} BlocksFromGood(ls: seq<string>, n: nat, count: nat, buff: seq<string>, acts: seq<string>)
    requires forall k :: 0 <= k < |ls| ==> ls[k] == "" || IsStripped(ls[k])
    requires GoodState(n, count, buff, acts)
    ensures forall k :: 0 <= k < |BlocksFrom(ls, n, count, buff, acts)| ==>
      GoodBlock(n, BlocksFrom(ls, n, count, buff, acts)[k])
    decreases |ls|
  {
    var r := BlocksFrom(ls, n, count, buff, acts);
    if |ls| == 0 {
      assert r == [] || r == [Block(buff, acts)];
    } else {
      var line, rest := ls[0], ls[1..];
      assert forall k :: 0 <= k < |rest| ==> rest[k] == "" || IsStripped(rest[k]) by {
        forall k | 0 <= k < |rest| ensures rest[k] == "" || IsStripped(rest[k]) {
          assert rest[k] == ls[k + 1];
        }
      }
      if line == "" {
        var tail := BlocksFrom(rest, n, 0, [], []);
        BlocksFromGood(rest, n, 0, [], []);
        assert r == [Block(buff, acts)] + tail;
        forall k | 0 <= k < |r| ensures GoodBlock(n, r[k]) {
          if k > 0 {
            assert r[k] == tail[k - 1];
          }
        }
      } else if count < n {
        BlocksFromGood(rest, n, count + 1, buff + [line], acts);
        assert r == BlocksFrom(rest, n, count + 1, buff + [line], acts);
      } else {
        BlocksFromGood(rest, n, count + 1, buff, acts + [line]);
        assert r == BlocksFrom(rest, n, count + 1, buff, acts + [line]);
      }
    }
  }

  /** Every block the loop emits has at most `n` preamble lines, has actions only
      after a full preamble, and holds only stripped, non-blank lines. */
  lemma {:induction false} BlocksGood(lines: seq<string>, n: nat)
    ensures forall k :: 0 <= k < |Blocks(lines, n)| ==> GoodBlock(n, Blocks(lines, n)[k])
  {
    var ls := StripAll(lines);
    StripAllStripped(lines);
    assert forall k :: 0 <= k < |ls| ==> ls[k] == "" || IsStripped(ls[k]);
    BlocksFromGood(ls, n, 0, [], []);
  }

  /** The non-blank lines among stripped ones, in order. */
  function NonBlank(ls: seq<string>): seq<string> {
    if |ls| == 0 then []
    else if ls[0] == "" then NonBlank(ls[1..])
    else [ls[0]] + NonBlank(ls[1..])
  }

  function AllContents(bs: seq<Block>): seq<string> {
    if |bs| == 0 then [] else Contents(bs[0]) + AllContents(bs[1..])
  }

  lemma {:induction false} AllContentsCons(b: Block, bs: seq<Block>)
    ensures AllContents([b] + bs) == Contents(b) + AllContents(bs)
  {
    assert ([b] + bs)[1..] == bs;
  }

  lemma {:induction false} BlocksFromKeepLines(ls: seq<string>, n: nat, count: nat, buff: seq<string>, acts: seq<string>)
    requires n > 0 && count == |buff| + |acts| && |buff| <= n
    requires |acts| > 0 ==> |buff| == n
    ensures AllContents(BlocksFrom(ls, n, count, buff, acts)) == buff + acts + NonBlank(ls)
    decreases |ls|
  {
    if |ls| == 0 {
      if |buff| > 0 {
        AllContentsCons(Block(buff, acts), []);
      }
      assert buff + acts + [] == buff + acts;
    } else {
      var line, rest := ls[0], ls[1..];
      if line == "" {
        BlocksFromKeepLines(rest, n, 0, [], []);
        AllContentsCons(Block(buff, acts), BlocksFrom(rest, n, 0, [], []));
        assert [] + [] + NonBlank(rest) == NonBlank(rest);
      } else if count < n {
        BlocksFromKeepLines(rest, n, count + 1, buff + [line], acts);
        assert acts == [];
        assert buff + [line] + acts + NonBlank(rest) == buff + acts + ([line] + NonBlank(rest));
      } else {
        BlocksFromKeepLines(rest, n, count + 1, buff, acts + [line]);
        assert buff + (acts + [line]) + NonBlank(rest) == buff + acts + ([line] + NonBlank(rest));
      }
    }
  }

  /** Decoding neither loses nor reorders a non-blank line: the blocks hold
      exactly the stripped non-blank lines, in file order. */
  lemma {:induction false} BlocksKeepLines(lines: seq<string>, n: nat)
    requires n > 0
    ensures AllContents(Blocks(lines, n)) == NonBlank(StripAll(lines))
  {
    BlocksFromKeepLines(StripAll(lines), n, 0, [], []);
    assert [] + [] + NonBlank(StripAll(lines)) == NonBlank(StripAll(lines));
  }

  /** Lines that fit in the preamble all go to it. */
  lemma {:induction false} FeedPreamble(lines: seq<string>, rest: seq<string>, n: nat, buff: seq<string>)
    requires forall k :: 0 <= k < |lines| ==> IsStripped(lines[k])
    requires |buff| + |lines| <= n
    ensures BlocksFrom(lines + rest, n, |buff|, buff, []) == BlocksFrom(rest, n, |buff| + |lines|, buff + lines, [])
    decreases |lines|
  {
    if |lines| == 0 {
      assert lines + rest == rest && buff + lines == buff;
    } else {
      var x, more := lines[0], lines[1..];
      var buff' := buff + [x];
      assert forall k :: 0 <= k < |more| ==> IsStripped(more[k]) by {
        forall k | 0 <= k < |more| ensures IsStripped(more[k]) {
          assert more[k] == lines[k + 1];
        }
      }
      FeedPreamble(more, rest, n, buff');
      assert buff' + more == buff + lines;
      assert |buff'| + |more| == |buff| + |lines|;
      assert (lines + rest)[0] == x && (lines + rest)[1..] == more + rest;
      assert BlocksFrom(lines + rest, n, |buff|, buff, []) == BlocksFrom(more + rest, n, |buff'|, buff', []);
    }
  }

  /** Once the preamble is full, every further line is an action. */
  lemma {:induction false} FeedActions(lines: seq<string>, rest: seq<string>, n: nat, buff: seq<string>, acts: seq<string>)
    requires forall k :: 0 <= k < |lines| ==> IsStripped(lines[k])
    requires |buff| == n
    ensures BlocksFrom(lines + rest, n, n + |acts|, buff, acts) == BlocksFrom(rest, n, n + |acts| + |lines|, buff, acts + lines)
    decreases |lines|
  {
    if |lines| == 0 {
      assert lines + rest == rest && acts + lines == acts;
    } else {
      var x, more := lines[0], lines[1..];
      var acts' := acts + [x];
      assert forall k :: 0 <= k < |more| ==> IsStripped(more[k]) by {
        forall k | 0 <= k < |more| ensures IsStripped(more[k]) {
          assert more[k] == lines[k + 1];
        }
      }
      FeedActions(more, rest, n, buff, acts');
      assert acts' + more == acts + lines;
      assert n + |acts'| + |more| == n + |acts| + |lines|;
      assert (lines + rest)[0] == x && (lines + rest)[1..] == more + rest;
      assert BlocksFrom(lines + rest, n, n + |acts|, buff, acts) == BlocksFrom(more + rest, n, n + |acts'|, buff, acts');
    }
  }

  // ---------------------------------------------------------------------------
  // Building records

  /** `Oracle(*buff, actions=actions)`: a wrong number of fields is a TypeError. */
  function MakeOracle(b: Block): (r: Result<Oracle>)
    ensures r.Ok? <==> |b.preamble| == 5
    ensures r.Ok? ==> Fields(r.value) == Contents(b) && r.value.actions == b.actions
    ensures r.Err? ==> r.error == TypeError
  {
    if |b.preamble| != 5 then Err(TypeError)
    else Ok(Oracle(b.preamble[0], b.preamble[1], b.preamble[2], b.preamble[3], b.preamble[4], b.actions))
  }

  /** `GenOracle(*buff, actions=actions)`. */
  function MakeGenOracle(b: Block): (r: Result<GenOracle>)
    ensures r.Ok? <==> |b.preamble| == 3
    ensures r.Ok? ==> GenFields(r.value) == Contents(b) && r.value.actions == b.actions
    ensures r.Err? ==> r.error == TypeError
  {
    if |b.preamble| != 3 then Err(TypeError)
    else Ok(GenOracle(b.preamble[0], b.preamble[1], b.preamble[2], b.actions))
  }

  /** The records built from the blocks until the first one that fails. */
  function Oracles(bs: seq<Block>): (r: Stream<Oracle>)
    ensures |r.items| <= |bs|
    ensures r.failure.None? <==> forall k :: 0 <= k < |bs| ==> |bs[k].preamble| == 5
    ensures r.failure.None? ==> |r.items| == |bs|
    ensures forall k :: 0 <= k < |r.items| ==> MakeOracle(bs[k]) == Ok(r.items[k])
    ensures r.failure.Some? ==> |r.items| < |bs| && MakeOracle(bs[|r.items|]) == Err(r.failure.value)
  {
    if |bs| == 0 then Stream([], None)
    else match MakeOracle(bs[0])
      case Err(e) => Stream([], Some(e))
      case Ok(o) =>
        var rest := Oracles(bs[1..]);
        Stream([o] + rest.items, rest.failure)
  }

  function GenOracles(bs: seq<Block>): (r: Stream<GenOracle>)
    ensures |r.items| <= |bs|
    ensures r.failure.None? <==> forall k :: 0 <= k < |bs| ==> |bs[k].preamble| == 3
    ensures r.failure.None? ==> |r.items| == |bs|
    ensures forall k :: 0 <= k < |r.items| ==> MakeGenOracle(bs[k]) == Ok(r.items[k])
    ensures r.failure.Some? ==> |r.items| < |bs| && MakeGenOracle(bs[|r.items|]) == Err(r.failure.value)
  {
    if |bs| == 0 then Stream([], None)
    else match MakeGenOracle(bs[0])
      case Err(e) => Stream([], Some(e))
      case Ok(o) =>
        var rest := GenOracles(bs[1..]);
        Stream([o] + rest.items, rest.failure)
  }

  /** `oracle_iter(lines)`. */
  function OracleIter(lines: seq<string>): Stream<Oracle> {
    Oracles(Blocks(lines, 5))
  }

  /** `gen_oracle_iter(lines)`. */
  function GenOracleIter(lines: seq<string>): Stream<GenOracle> {
    GenOracles(Blocks(lines, 3))
  }

  /** Decoded fields and actions are stripped and non-blank. */
  lemma {:induction false} OracleIterStripped(lines: seq<string>)
    ensures forall k :: 0 <= k < |OracleIter(lines).items| ==>
      forall j :: 0 <= j < |Fields(OracleIter(lines).items[k])| ==> IsStripped(Fields(OracleIter(lines).items[k])[j])
  {
    BlocksGood(lines, 5);
  }

  // ---------------------------------------------------------------------------
  // Error cases

  /** A blank first line builds a record from no fields, which fails. */
  lemma {:induction false} EmptyBlockFirst(rest: seq<string>, blank: string)
    requires Strip(blank) == ""
    ensures OracleIter([blank] + rest) == Stream([], Some(TypeError))
    ensures GenOracleIter([blank] + rest) == Stream([], Some(TypeError))
  {
    assert ([blank] + rest)[1..] == rest;
    assert Blocks([blank] + rest, 5)[0] == Block([], []);
    assert Blocks([blank] + rest, 3)[0] == Block([], []);
  }

  /** A file that is one block cut short before its preamble is complete fails. */
  lemma {:induction false} ShortBlockAlone(lines: seq<string>)
    requires 0 < |lines| < 5 && forall k :: 0 <= k < |lines| ==> IsStripped(lines[k])
    ensures OracleIter(lines) == Stream([], Some(TypeError))
  {
    assert Blocks(lines, 5) == [Block(lines, [])] by {
      StripAllId(lines);
      assert lines + [] == lines && [] + lines == lines;
      FeedPreamble(lines, [], 5, []);
    }
    assert MakeOracle(Block(lines, [])) == Err(TypeError);
  }

  // ---------------------------------------------------------------------------
  // Round trip

  /** A block as the file shows it: its lines and a blank line after it. */
  function BlockText(b: Block): string {
    Join("\n", Contents(b)) + "\n\n"
  }

  function BlocksText(bs: seq<Block>): string {
    if |bs| == 0 then "" else BlockText(bs[0]) + BlocksText(bs[1..])
  }

  /** A line the format can carry unchanged. */
  predicate Carried(x: string) {
    IsStripped(x) && NoNewline(x)
  }

  predicate Encodable(n: nat, b: Block) {
    n > 0 && |b.preamble| == n && forall k :: 0 <= k < |Contents(b)| ==> Carried(Contents(b)[k])
  }

  /** Reading a written block and the blank line after it. */
  lemma {:induction false} BlockTextLines(b: Block, rest: string)
    requires |Contents(b)| > 0 && forall k :: 0 <= k < |Contents(b)| ==> NoNewline(Contents(b)[k])
    ensures FileLines(BlockText(b) + rest) == Contents(b) + [""] + FileLines(rest)
  {
    var j := Join("\n", Contents(b));
    assert BlockText(b) + rest == j + "\n" + ("\n" + rest);
    FileLinesJoin(Contents(b), "\n" + rest);
    FileLinesBlank(rest);
  }

  /** A written block followed by its blank line decodes to that block. */
  lemma {:induction false} OneBlock(b: Block, n: nat, rest: seq<string>)
    requires Encodable(n, b)
    ensures BlocksFrom(Contents(b) + [""] + rest, n, 0, [], []) == [b] + BlocksFrom(rest, n, 0, [], [])
  {
    var pre, acts := b.preamble, b.actions;
    var after := [""] + rest;
    assert Contents(b) + [""] + rest == pre + (acts + after);
    assert forall k :: 0 <= k < |pre| ==> IsStripped(pre[k]) by {
      forall k | 0 <= k < |pre| ensures IsStripped(pre[k]) {
        assert pre[k] == Contents(b)[k];
      }
    }
    assert forall k :: 0 <= k < |acts| ==> IsStripped(acts[k]) by {
      forall k | 0 <= k < |acts| ensures IsStripped(acts[k]) {
        assert acts[k] == Contents(b)[|pre| + k];
      }
    }
    assert BlocksFrom(pre + (acts + after), n, 0, [], []) == BlocksFrom(acts + after, n, n, pre, []) by {
      assert [] + pre == pre;
      FeedPreamble(pre, acts + after, n, []);
    }
    assert BlocksFrom(acts + after, n, n, pre, []) == BlocksFrom(after, n, n + |acts|, pre, acts) by {
      assert [] + acts == acts;
      FeedActions(acts, after, n, pre, []);
    }
    assert BlocksFrom(after, n, n + |acts|, pre, acts) == [b] + BlocksFrom(rest, n, 0, [], []) by {
      assert after[0] == "" && after[1..] == rest;
    }
  }

  /** The lines of written blocks: each block's contents and a blank line. */
  function EncodedLines(bs: seq<Block>): seq<string> {
    if |bs| == 0 then [] else Contents(bs[0]) + [""] + EncodedLines(bs[1..])
  }

  lemma {:induction false} TextLines(bs: seq<Block>, n: nat)
    requires forall k :: 0 <= k < |bs| ==> Encodable(n, bs[k])
    ensures FileLines(BlocksText(bs)) == EncodedLines(bs)
  {
    if |bs| == 0 {
      assert FileLines("") == [];
    } else {
      var b := bs[0];
      assert Encodable(n, b);
      BlockTextLines(b, BlocksText(bs[1..]));
      TextLines(bs[1..], n);
    }
  }

  lemma {:induction false} EncodedLinesStripped(bs: seq<Block>, n: nat)
    requires forall k :: 0 <= k < |bs| ==> Encodable(n, bs[k])
    ensures forall k :: 0 <= k < |EncodedLines(bs)| ==> EncodedLines(bs)[k] == "" || IsStripped(EncodedLines(bs)[k])
  {
    if |bs| > 0 {
      var c, tail := Contents(bs[0]) + [""], EncodedLines(bs[1..]);
      assert Encodable(n, bs[0]);
      EncodedLinesStripped(bs[1..], n);
      assert EncodedLines(bs) == c + tail;
      forall k | 0 <= k < |c + tail| ensures (c + tail)[k] == "" || IsStripped((c + tail)[k]) {
        if k >= |c| {
          assert (c + tail)[k] == tail[k - |c|];
        } else if k < |c| - 1 {
          assert (c + tail)[k] == Contents(bs[0])[k];
        }
      }
    }
  }

  lemma {:induction false} BlocksFromEncoded(bs: seq<Block>, n: nat)
    requires forall k :: 0 <= k < |bs| ==> Encodable(n, bs[k])
    ensures BlocksFrom(EncodedLines(bs), n, 0, [], []) == bs
  {
    if |bs| > 0 {
      var b := bs[0];
      assert Encodable(n, b);
      BlocksFromEncoded(bs[1..], n);
      OneBlock(b, n, EncodedLines(bs[1..]));
      assert bs == [b] + bs[1..];
    }
  }

  /** Decoding what was written gives the blocks back. */
  lemma {:induction false} BlocksRoundTrip(bs: seq<Block>, n: nat)
    requires forall k :: 0 <= k < |bs| ==> Encodable(n, bs[k])
    ensures Blocks(FileLines(BlocksText(bs)), n) == bs
  {
    TextLines(bs, n);
    EncodedLinesStripped(bs, n);
    StripAllId(EncodedLines(bs));
    BlocksFromEncoded(bs, n);
  }

  function OracleBlockOf(o: Oracle): Block {
    Block([o.parsed, o.postags, o.words, o.lowercased, o.unkified], o.actions)
  }

  function GenOracleBlockOf(o: GenOracle): Block {
    Block([o.parsed, o.words, o.unkified], o.actions)
  }

  /** The file `print(str(o), end='\n\n')` writes for each record in turn. */
  function WriteOracles(os: seq<Oracle>): string {
    if |os| == 0 then "" else Str(os[0]) + "\n\n" + WriteOracles(os[1..])
  }

  function WriteGenOracles(os: seq<GenOracle>): string {
    if |os| == 0 then "" else GenStr(os[0]) + "\n\n" + WriteGenOracles(os[1..])
  }

  /** A record whose fields and actions are non-empty, stripped, one-line strings. */
  predicate WellFormed(o: Oracle) {
    forall k :: 0 <= k < |Fields(o)| ==> Carried(Fields(o)[k])
  }

  predicate GenWellFormed(o: GenOracle) {
    forall k :: 0 <= k < |GenFields(o)| ==> Carried(GenFields(o)[k])
  }

  lemma {:induction false} WriteOraclesAsBlocks(os: seq<Oracle>)
    ensures WriteOracles(os) == BlocksText(seq(|os|, k requires 0 <= k < |os| => OracleBlockOf(os[k])))
  {
    var bs := seq(|os|, k requires 0 <= k < |os| => OracleBlockOf(os[k]));
    if |os| > 0 {
      WriteOraclesAsBlocks(os[1..]);
      assert bs[1..] == seq(|os| - 1, k requires 0 <= k < |os| - 1 => OracleBlockOf(os[1..][k]));
      assert Contents(bs[0]) == Fields(os[0]);
    }
  }

  lemma {:induction false} WriteGenOraclesAsBlocks(os: seq<GenOracle>)
    ensures WriteGenOracles(os) == BlocksText(seq(|os|, k requires 0 <= k < |os| => GenOracleBlockOf(os[k])))
  {
    var bs := seq(|os|, k requires 0 <= k < |os| => GenOracleBlockOf(os[k]));
    if |os| > 0 {
      WriteGenOraclesAsBlocks(os[1..]);
      assert bs[1..] == seq(|os| - 1, k requires 0 <= k < |os| - 1 => GenOracleBlockOf(os[1..][k]));
      assert Contents(bs[0]) == GenFields(os[0]);
    }
  }

  lemma {:induction false} OraclesOfBlocks(os: seq<Oracle>)
    ensures Oracles(seq(|os|, k requires 0 <= k < |os| => OracleBlockOf(os[k]))) == Stream(os, None)
  {
    var bs := seq(|os|, k requires 0 <= k < |os| => OracleBlockOf(os[k]));
    if |os| > 0 {
      OraclesOfBlocks(os[1..]);
      assert bs[1..] == seq(|os| - 1, k requires 0 <= k < |os| - 1 => OracleBlockOf(os[1..][k]));
      assert os == [os[0]] + os[1..];
    }
  }

  lemma {:induction false} GenOraclesOfBlocks(os: seq<GenOracle>)
    ensures GenOracles(seq(|os|, k requires 0 <= k < |os| => GenOracleBlockOf(os[k]))) == Stream(os, None)
  {
    var bs := seq(|os|, k requires 0 <= k < |os| => GenOracleBlockOf(os[k]));
    if |os| > 0 {
      GenOraclesOfBlocks(os[1..]);
      assert bs[1..] == seq(|os| - 1, k requires 0 <= k < |os| - 1 => GenOracleBlockOf(os[1..][k]));
      assert os == [os[0]] + os[1..];
    }
  }

  /** Writing well-formed oracles and reading the file back with `oracle_iter`
      gives the same oracles, in order, without error. */
  lemma {:induction false} OracleRoundTrip(os: seq<Oracle>)
    requires forall k :: 0 <= k < |os| ==> WellFormed(os[k])
    ensures OracleIter(FileLines(WriteOracles(os))) == Stream(os, None)
  {
    var bs := seq(|os|, k requires 0 <= k < |os| => OracleBlockOf(os[k]));
    WriteOraclesAsBlocks(os);
    assert forall k :: 0 <= k < |bs| ==> Encodable(5, bs[k]) by {
      forall k | 0 <= k < |bs| ensures Encodable(5, bs[k]) {
        assert Contents(bs[k]) == Fields(os[k]);
      }
    }
    BlocksRoundTrip(bs, 5);
    OraclesOfBlocks(os);
  }

  /** The same for generative oracles and `gen_oracle_iter`. */
  lemma {:induction false} GenOracleRoundTrip(os: seq<GenOracle>)
    requires forall k :: 0 <= k < |os| ==> GenWellFormed(os[k])
    ensures GenOracleIter(FileLines(WriteGenOracles(os))) == Stream(os, None)
  {
    var bs := seq(|os|, k requires 0 <= k < |os| => GenOracleBlockOf(os[k]));
    WriteGenOraclesAsBlocks(os);
    assert forall k :: 0 <= k < |bs| ==> Encodable(3, bs[k]) by {
      forall k | 0 <= k < |bs| ensures Encodable(3, bs[k]) {
        assert Contents(bs[k]) == GenFields(os[k]);
      }
    }
    BlocksRoundTrip(bs, 3);
    GenOraclesOfBlocks(os);
  }

  /** A file that is one record without a blank line after it. */
  lemma {:induction false} LastRecordAlone(o: Oracle)
    requires WellFormed(o)
    ensures OracleIter(Fields(o)) == Stream([o], None)
  {
    var b := OracleBlockOf(o);
    LastBlock(o);
    assert MakeOracle(b) == Ok(o);
    assert Oracles([b]) == Stream([o], None);
  }

  // ---------------------------------------------------------------------------
  // Reading on after written records

  /** Written blocks followed by further stripped lines: the blocks come back,
      then whatever the further lines make. */
  lemma {:induction false} BlocksFromAfter(bs: seq<Block>, n: nat, rest: seq<string>)
    requires forall k :: 0 <= k < |bs| ==> Encodable(n, bs[k])
    ensures BlocksFrom(EncodedLines(bs) + rest, n, 0, [], []) == bs + BlocksFrom(rest, n, 0, [], [])
    decreases |bs|
  {
    if |bs| == 0 {
      assert EncodedLines(bs) + rest == rest;
    } else {
      var b := bs[0];
      var tail := EncodedLines(bs[1..]) + rest;
      calc {
        BlocksFrom(EncodedLines(bs) + rest, n, 0, [], []);
        { assert EncodedLines(bs) + rest == Contents(b) + [""] + tail; }
        BlocksFrom(Contents(b) + [""] + tail, n, 0, [], []);
        { assert Encodable(n, b); OneBlock(b, n, tail); }
        [b] + BlocksFrom(tail, n, 0, [], []);
        { BlocksFromAfter(bs[1..], n, rest); }
        [b] + (bs[1..] + BlocksFrom(rest, n, 0, [], []));
        { assert bs == [b] + bs[1..]; }
        bs + BlocksFrom(rest, n, 0, [], []);
      }
    }
  }

  /** Records built from blocks that all have a full preamble, then from more
      blocks: the first records, then the records and failure of the rest. */
  lemma {:induction false} OraclesAfter(bs: seq<Block>, more: seq<Block>)
    requires forall k :: 0 <= k < |bs| ==> |bs[k].preamble| == 5
    ensures Oracles(bs + more) == Stream(Oracles(bs).items + Oracles(more).items, Oracles(more).failure)
    decreases |bs|
  {
    if |bs| == 0 {
      assert bs + more == more;
    } else {
      assert (bs + more)[0] == bs[0] && (bs + more)[1..] == bs[1..] + more;
      assert |bs[0].preamble| == 5;
      OraclesAfter(bs[1..], more);
      var o := MakeOracle(bs[0]).value;
      AppendAssoc([o], Oracles(bs[1..]).items, Oracles(more).items);
    }
  }

  lemma {:induction false} GenOraclesAfter(bs: seq<Block>, more: seq<Block>)
    requires forall k :: 0 <= k < |bs| ==> |bs[k].preamble| == 3
    ensures GenOracles(bs + more) == Stream(GenOracles(bs).items + GenOracles(more).items, GenOracles(more).failure)
    decreases |bs|
  {
    if |bs| == 0 {
      assert bs + more == more;
    } else {
      assert (bs + more)[0] == bs[0] && (bs + more)[1..] == bs[1..] + more;
      assert |bs[0].preamble| == 3;
      GenOraclesAfter(bs[1..], more);
      var o := MakeGenOracle(bs[0]).value;
      AppendAssoc([o], GenOracles(bs[1..]).items, GenOracles(more).items);
    }
  }

  /** The lines of written blocks followed by further lines, stripped. */
  lemma {:induction false} EncodedThenStripped(bs: seq<Block>, n: nat, rest: seq<string>)
    requires forall k :: 0 <= k < |bs| ==> Encodable(n, bs[k])
    ensures FileLines(BlocksText(bs)) == EncodedLines(bs)
    ensures StripAll(EncodedLines(bs) + rest) == EncodedLines(bs) + StripAll(rest)
  {
    TextLines(bs, n);
    EncodedLinesStripped(bs, n);
    StripAllId(EncodedLines(bs));
    StripAllAppend(EncodedLines(bs), rest);
  }

  /** Reading a file of written records followed by further lines: the written
      records come back first, then whatever the further lines decode to, and
      the further lines decide whether and how the reading fails. */
  lemma {:induction false} OracleIterAfter(os: seq<Oracle>, rest: seq<string>)
    requires forall k :: 0 <= k < |os| ==> WellFormed(os[k])
    ensures OracleIter(FileLines(WriteOracles(os)) + rest) ==
      Stream(os + OracleIter(rest).items, OracleIter(rest).failure)
  {
    var bs := seq(|os|, k requires 0 <= k < |os| => OracleBlockOf(os[k]));
    WriteOraclesAsBlocks(os);
    assert forall k :: 0 <= k < |bs| ==> Encodable(5, bs[k]) by {
      forall k | 0 <= k < |bs| ensures Encodable(5, bs[k]) {
        assert Contents(bs[k]) == Fields(os[k]);
      }
    }
    EncodedThenStripped(bs, 5, rest);
    BlocksFromAfter(bs, 5, StripAll(rest));
    assert forall k :: 0 <= k < |bs| ==> |bs[k].preamble| == 5;
    OraclesAfter(bs, Blocks(rest, 5));
    OraclesOfBlocks(os);
  }

  lemma {:induction false} GenOracleIterAfter(os: seq<GenOracle>, rest: seq<string>)
    requires forall k :: 0 <= k < |os| ==> GenWellFormed(os[k])
    ensures GenOracleIter(FileLines(WriteGenOracles(os)) + rest) ==
      Stream(os + GenOracleIter(rest).items, GenOracleIter(rest).failure)
  {
    var bs := seq(|os|, k requires 0 <= k < |os| => GenOracleBlockOf(os[k]));
    WriteGenOraclesAsBlocks(os);
    assert forall k :: 0 <= k < |bs| ==> Encodable(3, bs[k]) by {
      forall k | 0 <= k < |bs| ensures Encodable(3, bs[k]) {
        assert Contents(bs[k]) == GenFields(os[k]);
      }
    }
    EncodedThenStripped(bs, 3, rest);
    BlocksFromAfter(bs, 3, StripAll(rest));
    assert forall k :: 0 <= k < |bs| ==> |bs[k].preamble| == 3;
    GenOraclesAfter(bs, Blocks(rest, 3));
    GenOraclesOfBlocks(os);
  }

  /** A blank line where a record should start, whether first in the file or
      right after the blank line that closed a record (two blank lines in a
      row), builds a record from no fields: the records before it are read,
      then the reading fails with `TypeError`. */
  lemma {:induction false} EmptyBlockFails(os: seq<Oracle>, gos: seq<GenOracle>, blank: string, rest: seq<string>)
    requires forall k :: 0 <= k < |os| ==> WellFormed(os[k])
    requires forall k :: 0 <= k < |gos| ==> GenWellFormed(gos[k])
    requires Strip(blank) == ""
    ensures OracleIter(FileLines(WriteOracles(os)) + [blank] + rest) == Stream(os, Some(TypeError))
    ensures GenOracleIter(FileLines(WriteGenOracles(gos)) + [blank] + rest) == Stream(gos, Some(TypeError))
  {
    EmptyBlockFirst(rest, blank);
    AppendAssoc(FileLines(WriteOracles(os)), [blank], rest);
    OracleIterAfter(os, [blank] + rest);
    assert os + [] == os;
    AppendAssoc(FileLines(WriteGenOracles(gos)), [blank], rest);
    GenOracleIterAfter(gos, [blank] + rest);
    assert gos + [] == gos;
  }

  /** A final block cut short before its five preamble lines are complete,
      after any number of written records: those records are read, then the
      reading fails with `TypeError`. */
  lemma {:induction false} ShortBlockFails(os: seq<Oracle>, lines: seq<string>)
    requires forall k :: 0 <= k < |os| ==> WellFormed(os[k])
    requires 0 < |lines| < 5 && forall k :: 0 <= k < |lines| ==> IsStripped(lines[k])
    ensures OracleIter(FileLines(WriteOracles(os)) + lines) == Stream(os, Some(TypeError))
  {
    ShortBlockAlone(lines);
    OracleIterAfter(os, lines);
    assert os + [] == os;
  }

  /** A final record without the blank line after it, after any number of
      written records, is still read: the buffer left at the end of input is
      closed as a block, and the reading does not fail. */
  lemma {:induction false} LastRecordWithoutBlank(os: seq<Oracle>, o: Oracle)
    requires forall k :: 0 <= k < |os| ==> WellFormed(os[k])
    requires WellFormed(o)
    ensures OracleIter(FileLines(WriteOracles(os)) + Fields(o)) == Stream(os + [o], None)
  {
    LastRecordAlone(o);
    OracleIterAfter(os, Fields(o));
  }

  lemma {:induction false} LastBlock(o: Oracle)
    requires WellFormed(o)
    ensures Blocks(Fields(o), 5) == [OracleBlockOf(o)]
  {
    var b := OracleBlockOf(o);
    FieldsStripped(o);
    StripAllId(Fields(o));
    assert Fields(o) == b.preamble + b.actions;
    UnclosedBlock(b.preamble, b.actions, 5);
  }

  /** A full preamble and its actions at the end of input make one block. */
  lemma {:induction false} UnclosedBlock(pre: seq<string>, acts: seq<string>, n: nat)
    requires 0 < |pre| == n
    requires forall k :: 0 <= k < |pre| ==> IsStripped(pre[k])
    requires forall k :: 0 <= k < |acts| ==> IsStripped(acts[k])
    ensures BlocksFrom(pre + acts, n, 0, [], []) == [Block(pre, acts)]
  {
    assert BlocksFrom(pre + acts, n, 0, [], []) == BlocksFrom(acts, n, n, pre, []) by {
      FeedPreamble(pre, acts, n, []);
      assert [] + pre == pre;
    }
    assert BlocksFrom(acts, n, n, pre, []) == [Block(pre, acts)] by {
      FeedActions(acts, [], n, pre, []);
      assert acts + [] == acts && [] + acts == acts;
      assert BlocksFrom([], n, n + |acts|, pre, acts) == [Block(pre, acts)];
    }
  }

  lemma {:induction false} FieldsStripped(o: Oracle)
    requires WellFormed(o)
    ensures forall k :: 0 <= k < |Fields(o)| ==> Fields(o)[k] == "" || IsStripped(Fields(o)[k])
    ensures var pre := OracleBlockOf(o).preamble; forall k :: 0 <= k < |pre| ==> IsStripped(pre[k])
    ensures forall k :: 0 <= k < |o.actions| ==> IsStripped(o.actions[k])
  {
    var pre := OracleBlockOf(o).preamble;
    forall k | 0 <= k < |o.actions| ensures IsStripped(o.actions[k]) {
      assert o.actions[k] == Fields(o)[5 + k];
    }
    forall k | 0 <= k < |pre| ensures IsStripped(pre[k]) {
      assert pre[k] == Fields(o)[k];
    }
  }
}

=== FILE: oracle_main.dfy ===
/** The output loop of `main()` in `src/get_oracle_id.py`. For every dev line
    it prints an oracle block: the tree behind `# `, the tag, token, lowercase
    and unkified lines, one line per action and a blank line. The module also
    shows how that output reads back through `oracle_iter`.

    Printed output is the list of lines printed, without their newlines. Lines
    printed before an exception stay printed, so a failing line leaves part
    of its block behind. */
module OracleMain {
  import opened Base
  import opened Trees
  import opened OracleScan
  import opened OracleScanProofs
  import opened OracleCodec

  /** The check that `main()` makes before anything is printed for a line:
      as many `(` as `)`. */
  predicate Balanced(line: string) {
    multiset(line)['('] == multiset(line)[')']
  }

  /** The actions as `main()` prints them, one per line. */
  function ActionLines(acts: seq<Action>): (r: seq<string>)
    ensures |r| == |acts|
  {
    seq(|acts|, k requires 0 <= k < |acts| => ActionText(acts[k]))
  }

  /** What `main()` prints after a line's `# ` header, given what the two
      scanners returned for the line: the four preamble lines and then the
      actions and a blank line, stopping at the first scanner that fails. */
  function PrintBlock(header: string, scanned: Result<Preamble>, acts: Result<seq<Action>>,
                      wordsDict: set<string>): Stream<string>
  {
    match scanned
    case Err(e) => Stream([header], Some(e))
    case Ok(p) =>
      var pre := [header, PreambleLine(p.tags), PreambleLine(p.tokens), PreambleLine(p.lowercase),
                  PreambleLine(Unkify(p.tokens, wordsDict))];
      match acts
      case Err(e) => Stream(pre, Some(e))
      case Ok(steps) => Stream(pre + ActionLines(steps) + [""], None)
  }

  lemma {:induction false} BlockShape(pre: seq<string>, lines: seq<string>)
    requires |pre| == 5
    ensures var s := pre + lines + [""];
      |s| == |lines| + 6 && s[|lines| + 5] == "" && forall k :: 0 <= k < |lines| ==> s[k + 5] == lines[k]
  {
  }

  lemma {:induction false} PrintBlockLayout(header: string, scanned: Result<Preamble>, acts: Result<seq<Action>>,
                                            wordsDict: set<string>)
    ensures var r := PrintBlock(header, scanned, acts, wordsDict);
      && (r.failure.None? <==> scanned.Ok? && acts.Ok?)
      && |r.items| > 0 && r.items[0] == header
      && (scanned.Err? ==> |r.items| == 1 && r.failure == Some(scanned.error))
      && (scanned.Ok? ==>
            var p := scanned.value;
            |r.items| >= 5 && r.items[1] == PreambleLine(p.tags) && r.items[2] == PreambleLine(p.tokens) &&
            r.items[3] == PreambleLine(p.lowercase) && r.items[4] == PreambleLine(Unkify(p.tokens, wordsDict)))
      && (scanned.Ok? && acts.Err? ==> |r.items| == 5 && r.failure == Some(acts.error))
      && (r.failure.None? ==>
            var steps := acts.value;
            |r.items| == |steps| + 6 && r.items[|steps| + 5] == "" &&
            forall k :: 0 <= k < |steps| ==> r.items[k + 5] == ActionText(steps[k]))
  {
    if scanned.Ok? {
      var p := scanned.value;
      var pre := [header, PreambleLine(p.tags), PreambleLine(p.tokens), PreambleLine(p.lowercase),
                  PreambleLine(Unkify(p.tokens, wordsDict))];
      if acts.Ok? {
        var lines := ActionLines(acts.value);
        assert PrintBlock(header, scanned, acts, wordsDict).items == pre + lines + [""];
        BlockShape(pre, lines);
        assert (pre + lines + [""])[..5] == pre;
      } else {
        assert PrintBlock(header, scanned, acts, wordsDict).items == pre;
      }
    }
  }

  /** What `main()` prints for the `lineNo`-th dev line, and the exception
      that stops it there, if any. An unbalanced line prints nothing. A line
      whose terminals cannot be read prints only its `# ` line. A line whose
      actions cannot be read prints its five preamble lines. */
  function OracleBlock(line: string, lineNo: nat, wordsDict: set<string>): (r: Stream<string>)
    ensures !Balanced(line) ==> r == Stream([], Some(NotImplementedError(lineNo)))
    ensures r.failure.None? <==>
      Balanced(line) && GetTagsTokensLowercase(line).Ok? && GetActions(line).Ok?
    ensures Balanced(line) ==> |r.items| > 0 && r.items[0] == "# " + RStrip(line)
  {
    if !Balanced(line) then Stream([], Some(NotImplementedError(lineNo)))
    else
      PrintBlockLayout("# " + RStrip(line), GetTagsTokensLowercase(line), GetActions(line), wordsDict);
      PrintBlock("# " + RStrip(line), GetTagsTokensLowercase(line), GetActions(line), wordsDict)
  }

  /** The lines of a block: the `# ` line alone when the terminals cannot be
      read; then the four preamble lines, alone when the actions cannot be
      read. */
  lemma {:induction false} OracleBlockLayout(line: string, lineNo: nat, wordsDict: set<string>)
    ensures var r := OracleBlock(line, lineNo, wordsDict);
      Balanced(line) && GetTagsTokensLowercase(line).Err? ==>
        |r.items| == 1 && r.failure == Some(GetTagsTokensLowercase(line).error)
    ensures var r := OracleBlock(line, lineNo, wordsDict);
      Balanced(line) && GetTagsTokensLowercase(line).Ok? ==>
        var p := GetTagsTokensLowercase(line).value;
        |r.items| >= 5 && r.items[1] == PreambleLine(p.tags) && r.items[2] == PreambleLine(p.tokens) &&
        r.items[3] == PreambleLine(p.lowercase) && r.items[4] == PreambleLine(Unkify(p.tokens, wordsDict))
    ensures var r := OracleBlock(line, lineNo, wordsDict);
      Balanced(line) && GetTagsTokensLowercase(line).Ok? && GetActions(line).Err? ==>
        |r.items| == 5 && r.failure == Some(GetActions(line).error)
  {
    PrintBlockLayout("# " + RStrip(line), GetTagsTokensLowercase(line), GetActions(line), wordsDict);
  }

  /** A block that goes through ends with one line per action and a blank line. */
  lemma {:induction false} OracleBlockActions(line: string, lineNo: nat, wordsDict: set<string>)
    ensures var r := OracleBlock(line, lineNo, wordsDict);
      r.failure.None? ==>
        var acts := GetActions(line).value;
        |r.items| == |acts| + 6 && r.items[|acts| + 5] == "" &&
        forall k :: 0 <= k < |acts| ==> r.items[k + 5] == ActionText(acts[k])
  {
    PrintBlockLayout("# " + RStrip(line), GetTagsTokensLowercase(line), GetActions(line), wordsDict);
  }

  /** The `for line in dev_lines` loop, with `lineNo` lines already counted:
      the blocks in order, up to and including the first one that fails. */
  function OracleOutputFrom(lines: seq<string>, lineNo: nat, wordsDict: set<string>): (r: Stream<string>)
    ensures |lines| > 0 ==> OracleBlock(lines[0], lineNo + 1, wordsDict).items <= r.items
    ensures |lines| > 0 && OracleBlock(lines[0], lineNo + 1, wordsDict).failure.Some? ==>
      r == OracleBlock(lines[0], lineNo + 1, wordsDict)
    decreases |lines|
  {
    if |lines| == 0 then Stream([], None)
    else
      var b := OracleBlock(lines[0], lineNo + 1, wordsDict);
      if b.failure.Some? then b
      else
        var rest := OracleOutputFrom(lines[1..], lineNo + 1, wordsDict);
        Stream(b.items + rest.items, rest.failure)
  }

  /** Everything `main()` prints for the dev file, `line_ctr` starting at 1. */
  function OracleOutput(devLines: seq<string>, wordsDict: set<string>): Stream<string> {
    OracleOutputFrom(devLines, 0, wordsDict)
  }

  /** The blocks printed for each of `lines`, `lineNo` lines already counted. */
  function LineBlocks(lines: seq<string>, lineNo: nat, wordsDict: set<string>): (bs: seq<Stream<string>>)
    ensures |bs| == |lines|
  {
    seq(|lines|, k requires 0 <= k < |lines| => OracleBlock(lines[k], lineNo + k + 1, wordsDict))
  }

  /** Blocks printed one after another, up to and including the first that fails. */
  function Chain(bs: seq<Stream<string>>): Stream<string> {
    if |bs| == 0 then Stream([], None)
    else if bs[0].failure.Some? then bs[0]
    else
      var rest := Chain(bs[1..]);
      Stream(bs[0].items + rest.items, rest.failure)
  }

  lemma {:induction false} ChainFailure(bs: seq<Stream<string>>)
    ensures Chain(bs).failure.Some? <==> exists k :: 0 <= k < |bs| && bs[k].failure.Some?
  {
    if |bs| > 0 && bs[0].failure.None? {
      ChainFailure(bs[1..]);
      if exists k :: 0 <= k < |bs| && bs[k].failure.Some? {
        var k :| 0 <= k < |bs| && bs[k].failure.Some?;
        assert bs[1..][k - 1] == bs[k];
      }
    }
  }

  lemma {:induction false} ChainFirstFailure(bs: seq<Stream<string>>)
    requires Chain(bs).failure.Some?
    ensures exists k ::
              && 0 <= k < |bs|
              && Chain(bs).failure == bs[k].failure
              && forall j :: 0 <= j < k ==> bs[j].failure.None?
  {
    if bs[0].failure.None? {
      ChainFirstFailure(bs[1..]);
      var k :| 0 <= k < |bs| - 1 && Chain(bs[1..]).failure == bs[1..][k].failure &&
        forall j :: 0 <= j < k ==> bs[1..][j].failure.None?;
      forall j | 0 <= j < k + 1 ensures bs[j].failure.None? {
        if j > 0 {
          assert bs[j] == bs[1..][j - 1];
        }
      }
      assert Chain(bs).failure == bs[k + 1].failure;
    }
  }

  lemma {:induction false} LineBlocksTail(lines: seq<string>, lineNo: nat, wordsDict: set<string>)
    requires |lines| > 0
    ensures LineBlocks(lines, lineNo, wordsDict)[0] == OracleBlock(lines[0], lineNo + 1, wordsDict)
    ensures LineBlocks(lines[1..], lineNo + 1, wordsDict) == LineBlocks(lines, lineNo, wordsDict)[1..]
  {
    var bs := LineBlocks(lines, lineNo, wordsDict);
    forall k | 0 <= k < |lines| - 1 ensures LineBlocks(lines[1..], lineNo + 1, wordsDict)[k] == bs[1..][k] {
      assert lines[1..][k] == lines[k + 1];
    }
  }

  /** The loop prints each line's block in turn, stopping after the first that fails. */
  lemma {:induction false} OutputIsChain(lines: seq<string>, lineNo: nat, wordsDict: set<string>)
    ensures OracleOutputFrom(lines, lineNo, wordsDict) == Chain(LineBlocks(lines, lineNo, wordsDict))
    decreases |lines|
  {
    if |lines| > 0 {
      LineBlocksTail(lines, lineNo, wordsDict);
      OutputIsChain(lines[1..], lineNo + 1, wordsDict);
    }
  }

  /** The loop fails exactly when some line's block fails. */
  lemma {:induction false} OutputFailure(lines: seq<string>, lineNo: nat, wordsDict: set<string>)
    ensures OracleOutputFrom(lines, lineNo, wordsDict).failure.Some? <==>
      exists k :: 0 <= k < |lines| && LineBlocks(lines, lineNo, wordsDict)[k].failure.Some?
  {
    OutputIsChain(lines, lineNo, wordsDict);
    ChainFailure(LineBlocks(lines, lineNo, wordsDict));
  }

  /** When the loop fails, it fails with the exception of the first failing
      line, counted from 1, and every earlier line's block went through. */
  lemma {:induction false} OutputFirstFailure(lines: seq<string>, lineNo: nat, wordsDict: set<string>)
    requires OracleOutputFrom(lines, lineNo, wordsDict).failure.Some?
    ensures exists k ::
              && 0 <= k < |lines|
              && OracleOutputFrom(lines, lineNo, wordsDict).failure == LineBlocks(lines, lineNo, wordsDict)[k].failure
              && forall j :: 0 <= j < k ==> LineBlocks(lines, lineNo, wordsDict)[j].failure.None?
  {
    OutputIsChain(lines, lineNo, wordsDict);
    ChainFirstFailure(LineBlocks(lines, lineNo, wordsDict));
  }

  // ---------------------------------------------------------------------------
  // Reading the output back

  /** The record that the oracle file holds for a tree: its rendering behind
      `# `; the space-joined tags, words, lowercased words and unkified words
      of its preterminals; and the texts of its pre-order walk. */
  function TreeOracle(t: Tree, wordsDict: set<string>): Oracle {
    var p := PreambleOf(TerminalPairs(t));
    Oracle("# " + Render(t), Join(" ", p.tags), Join(" ", p.tokens), Join(" ", p.lowercase),
           Join(" ", Unkify(p.tokens, wordsDict)), ActionLines(PreOrder(t)))
  }

  /** The pre-order walk opens as many phrases as it closes. */
  lemma {:induction false} PreOrderPairs(t: Tree)
    ensures CountNT(PreOrder(t)) == CountReduce(PreOrder(t))
    decreases t, 1
  {
    match t
    case Leaf(_) =>
    case Node(l, cs) =>
      if !IsPreterminal(t) {
        PreOrderChildrenPairs(cs);
        CountsAppend([NT(l)], PreOrderChildren(cs));
        CountsAppend([NT(l)] + PreOrderChildren(cs), [Reduce]);
      }
  }

  lemma {:induction false} PreOrderChildrenPairs(cs: seq<Tree>)
    ensures CountNT(PreOrderChildren(cs)) == CountReduce(PreOrderChildren(cs))
    decreases cs, 0
  {
    if |cs| > 0 {
      PreOrderPairs(cs[0]);
      PreOrderChildrenPairs(cs[1..]);
      CountsAppend(PreOrder(cs[0]), PreOrderChildren(cs[1..]));
    }
  }

  /** A phrase has at least one preterminal. */
  lemma {:induction false} PhraseHasTerminal(t: Tree)
    requires IsPhrase(t)
    ensures |TerminalPairs(t)| > 0
    decreases t
  {
    var cs := t.children;
    assert !IsPreterminal(t);
    assert TerminalPairs(t) == TerminalPairs(cs[0]) + TerminalPairsChildren(cs[1..]);
    if !IsTerminal(cs[0]) {
      PhraseHasTerminal(cs[0]);
    }
  }

  /** The labels that the pre-order walk of a canonical tree opens are tokens. */
  predicate TokenLabels(acts: seq<Action>) {
    forall a :: a in acts && a.NT? ==> IsToken(a.nt)
  }

  lemma {:induction false} PreOrderTokens(t: Tree)
    requires IsCanonical(t)
    ensures TokenLabels(PreOrder(t))
    decreases t, 1
  {
    if !IsPreterminal(t) {
      PreOrderChildrenTokens(t.children);
    }
  }

  lemma {:induction false} PreOrderChildrenTokens(cs: seq<Tree>)
    requires forall k :: 0 <= k < |cs| ==> IsCanonical(cs[k])
    ensures TokenLabels(PreOrderChildren(cs))
    decreases cs, 0
  {
    if |cs| > 0 {
      PreOrderTokens(cs[0]);
      PreOrderChildrenTokens(cs[1..]);
    }
  }

  /** A canonical tree renders on one line. */
  lemma {:induction false} RenderOneLine(t: Tree)
    requires IsCanonical(t)
    ensures NoNewline(Render(t))
    decreases t, 1
  {
    var cs := t.children;
    if IsTerminal(t) {
      assert RenderChildren(cs) == " " + cs[0].word + RenderChildren(cs[1..]);
      assert RenderChildren(cs[1..]) == "";
    } else {
      RenderChildrenOneLine(cs);
    }
  }

  lemma {:induction false} RenderChildrenOneLine(cs: seq<Tree>)
    requires forall k :: 0 <= k < |cs| ==> IsCanonical(cs[k])
    ensures NoNewline(RenderChildren(cs))
    decreases cs, 0
  {
    if |cs| > 0 {
      RenderOneLine(cs[0]);
      RenderChildrenOneLine(cs[1..]);
    }
  }

  /** A word holds no newline. */
  lemma {:induction false} WordOneLine(w: string)
    requires IsWord(w)
    ensures NoNewline(w)
  {
  }

  /** Space-joined words make a line without surrounding whitespace. */
  lemma {:induction false} JoinCarried(xs: seq<string>)
    requires |xs| > 0 && forall k :: 0 <= k < |xs| ==> IsWord(xs[k])
    ensures Carried(Join(" ", xs))
    decreases |xs|
  {
    var w := xs[0];
    assert IsWord(w);
    WordOneLine(w);
    if |xs| > 1 {
      var rest := Join(" ", xs[1..]);
      JoinCarried(xs[1..]);
      assert Join(" ", xs) == w + " " + rest;
      assert (w + " " + rest)[0] == w[0];
      assert (w + " " + rest)[|w| + 1 + |rest| - 1] == rest[|rest| - 1];
    }
  }

  /** However `main()` prefixes it, a line of space-joined words strips back
      to the join. */
  lemma {:induction false} JoinedWords(xs: seq<string>)
    requires |xs| > 0 && forall k :: 0 <= k < |xs| ==> IsWord(xs[k])
    ensures Carried(Join(" ", xs))
    ensures Strip(PreambleLine(xs)) == Join(" ", xs)
  {
    var j := Join(" ", xs);
    JoinCarried(xs);
    StripStripped(j);
    if xs[0] == "#" {
      SpaceThenStripped(j);
    }
  }

  lemma {:induction false} SpaceThenStripped(j: string)
    requires IsStripped(j)
    ensures Strip(" " + j) == j
  {
    var s := " " + j;
    assert s[|s| - 1] == j[|j| - 1];
    assert RStrip(s) == s;
    assert s[1..] == j;
    assert LStrip(s) == LStrip(j);
  }

  /** Lowercasing keeps a word a word. */
  lemma {:induction false} LowerWord(w: string)
    requires IsWord(w)
    ensures IsWord(Lower(w))
  {
    forall i | 0 <= i < |w| ensures !IsSpace(Lower(w)[i]) {
      assert !IsSpace(w[i]);
    }
  }

  /** Unkifying words gives words. */
  lemma {:induction false} UnkifyWords(ws: seq<string>, wordsDict: set<string>)
    requires forall k :: 0 <= k < |ws| ==> IsWord(ws[k])
    ensures forall k :: 0 <= k < |ws| ==> IsWord(Unkify(ws, wordsDict)[k])
  {
    forall k | 0 <= k < |ws| ensures IsWord(Unkify(ws, wordsDict)[k]) {
      assert RStrip(ws[k]) == ws[k];
    }
  }

  /** The scanners right-strip the line first, so trailing whitespace (the
      newline `readlines` keeps, say) changes nothing. */
  lemma {:induction false} ScannersIgnoreTrailing(line: string)
    ensures GetActions(line) == GetActions(RStrip(line))
    ensures GetTagsTokensLowercase(line) == GetTagsTokensLowercase(RStrip(line))
  {
    assert RStrip(RStrip(line)) == RStrip(line);
  }

  /** What the scanners and the balance check see on a line holding a phrase. */
  lemma {:induction false} ScannedTree(line: string, t: Tree)
    requires IsPhrase(t) && RStrip(line) == Render(t)
    ensures Balanced(line)
    ensures GetActions(line) == Ok(PreOrder(t))
    ensures GetTagsTokensLowercase(line) == Ok(PreambleOf(TerminalPairs(t)))
  {
    ScannersIgnoreTrailing(line);
    GetActionsOfTree(t);
    GetTagsOfTree(t);
    ActionCounts(Render(t));
    PreOrderPairs(t);
    RStripKeepsBrackets(line);
  }

  /** The `# ` line of a phrase is carried unchanged. */
  lemma {:induction false} HeaderCarried(t: Tree)
    requires IsPhrase(t)
    ensures Carried("# " + Render(t))
  {
    var r := Render(t);
    var h := "# " + r;
    RenderOneLine(t);
    assert r == "(" + t.name + RenderChildren(t.children) + ")";
    assert r[|r| - 1] == ')';
    assert h[0] == '#' && h[|h| - 1] == r[|r| - 1];
  }

  /** The four lists of a phrase's preamble are non-empty lists of words. */
  lemma {:induction false} PreambleWords(t: Tree, wordsDict: set<string>)
    requires IsPhrase(t)
    ensures var p := PreambleOf(TerminalPairs(t));
      && |p.tags| > 0 && |p.tokens| > 0 && |p.lowercase| > 0 && |Unkify(p.tokens, wordsDict)| > 0
      && (forall k :: 0 <= k < |p.tags| ==> IsWord(p.tags[k]))
      && (forall k :: 0 <= k < |p.tokens| ==> IsWord(p.tokens[k]))
      && (forall k :: 0 <= k < |p.lowercase| ==> IsWord(p.lowercase[k]))
      && (forall k :: 0 <= k < |p.tokens| ==> IsWord(Unkify(p.tokens, wordsDict)[k]))
  {
    var ps := TerminalPairs(t);
    var p := PreambleOf(ps);
    PhraseHasTerminal(t);
    TerminalPairsAreWords(t);
    assert forall k :: 0 <= k < |ps| ==> IsWord(p.tags[k]) && IsWord(p.tokens[k]) by {
      forall k | 0 <= k < |ps| ensures IsWord(p.tags[k]) && IsWord(p.tokens[k]) {
        assert IsToken(ps[k].0) && IsToken(ps[k].1);
      }
    }
    forall k | 0 <= k < |ps| ensures IsWord(p.lowercase[k]) {
      LowerWord(p.tokens[k]);
    }
    UnkifyWords(p.tokens, wordsDict);
  }

  /** The preamble of a phrase's record: five lines `main()` prints, which
      strip to the record's five fields. */
  lemma {:induction false} PreambleLines(t: Tree, wordsDict: set<string>)
    requires IsPhrase(t)
    ensures var p := PreambleOf(TerminalPairs(t));
      var o := TreeOracle(t, wordsDict);
      && Carried(o.parsed) && Carried(o.postags) && Carried(o.words) && Carried(o.lowercased) && Carried(o.unkified)
      && Strip(PreambleLine(p.tags)) == o.postags && Strip(PreambleLine(p.tokens)) == o.words
      && Strip(PreambleLine(p.lowercase)) == o.lowercased
      && Strip(PreambleLine(Unkify(p.tokens, wordsDict))) == o.unkified
  {
    var p := PreambleOf(TerminalPairs(t));
    HeaderCarried(t);
    PreambleWords(t, wordsDict);
    JoinedWords(p.tags);
    JoinedWords(p.tokens);
    JoinedWords(p.lowercase);
    JoinedWords(Unkify(p.tokens, wordsDict));
  }

  /** The action lines of a phrase's record are carried unchanged. */
  lemma {:induction false} ActionLinesCarried(t: Tree)
    requires IsPhrase(t)
    ensures forall k :: 0 <= k < |PreOrder(t)| ==> Carried(ActionLines(PreOrder(t))[k])
  {
    var acts := PreOrder(t);
    PreOrderTokens(t);
    forall k | 0 <= k < |acts| ensures Carried(ActionLines(acts)[k]) {
      assert acts[k] in acts;
      if acts[k].NT? {
        var l := acts[k].nt;
        assert IsToken(l);
        var s := "NT(" + l + ")";
        assert '\n' !in l by {
          assert forall i :: 0 <= i < |l| ==> !IsSpace(l[i]);
        }
        assert s[0] == 'N' && s[|s| - 1] == ')';
      }
    }
  }

  /** A phrase's record can be written and read back unchanged. */
  lemma {:induction false} TreeOracleWellFormed(t: Tree, wordsDict: set<string>)
    requires IsPhrase(t)
    ensures WellFormed(TreeOracle(t, wordsDict))
  {
    var o := TreeOracle(t, wordsDict);
    PreambleLines(t, wordsDict);
    ActionLinesCarried(t);
    assert o.actions == ActionLines(PreOrder(t));
    WellFormedOf(o);
  }

  /** A record whose preamble fields and action lines are all carried unchanged. */
  lemma {:induction false} WellFormedOf(o: Oracle)
    requires Carried(o.parsed) && Carried(o.postags) && Carried(o.words) && Carried(o.lowercased) && Carried(o.unkified)
    requires forall k :: 0 <= k < |o.actions| ==> Carried(o.actions[k])
    ensures WellFormed(o)
  {
    forall k | 0 <= k < |Fields(o)| ensures Carried(Fields(o)[k]) {
      if k >= 5 {
        assert Fields(o)[k] == o.actions[k - 5];
      }
    }
  }

  /** Five printed lines that strip to a well-formed record's preamble, its
      actions and a blank line strip to the record's fields and a blank line. */
  lemma {:induction false} StripBlock(o: Oracle, pre: seq<string>)
    requires WellFormed(o)
    requires |pre| == 5 && StripAll(pre) == [o.parsed, o.postags, o.words, o.lowercased, o.unkified]
    ensures StripAll(pre + o.actions + [""]) == Fields(o) + [""]
  {
    assert StripAll(o.actions) == o.actions by {
      FieldsStripped(o);
      StripAllId(o.actions);
    }
    assert StripAll(pre + o.actions + [""]) == StripAll(pre) + StripAll(o.actions) + StripAll([""]) by {
      StripAllAppend(pre, o.actions);
      StripAllAppend(pre + o.actions, [""]);
    }
    assert StripAll([""]) == [""];
  }

  lemma {:induction false} StripFive(xs: seq<string>)
    requires |xs| == 5
    ensures StripAll(xs) == [Strip(xs[0]), Strip(xs[1]), Strip(xs[2]), Strip(xs[3]), Strip(xs[4])]
  {
  }

  /** On a line holding a phrase, the block `main()` prints goes through, and
      its stripped lines are the fields of the tree's record and a blank line. */
  lemma {:induction false} BlockLines(line: string, t: Tree, lineNo: nat, wordsDict: set<string>)
    requires IsPhrase(t) && RStrip(line) == Render(t)
    ensures OracleBlock(line, lineNo, wordsDict).failure.None?
    ensures WellFormed(TreeOracle(t, wordsDict))
    ensures StripAll(OracleBlock(line, lineNo, wordsDict).items) == Fields(TreeOracle(t, wordsDict)) + [""]
  {
    var o := TreeOracle(t, wordsDict);
    var p := PreambleOf(TerminalPairs(t));
    ScannedTree(line, t);
    PreambleLines(t, wordsDict);
    TreeOracleWellFormed(t, wordsDict);
    var pre := ["# " + RStrip(line), PreambleLine(p.tags), PreambleLine(p.tokens), PreambleLine(p.lowercase),
                PreambleLine(Unkify(p.tokens, wordsDict))];
    assert OracleBlock(line, lineNo, wordsDict).items == pre + o.actions + [""];
    StripStripped(o.parsed);
    StripFive(pre);
    StripBlock(o, pre);
  }

  /** The records of a list of trees, in order. */
  function TreeOracles(ts: seq<Tree>, wordsDict: set<string>): (os: seq<Oracle>)
    ensures |os| == |ts|
  {
    seq(|ts|, k requires 0 <= k < |ts| => TreeOracle(ts[k], wordsDict))
  }

  lemma {:induction false} TreeOraclesTail(ts: seq<Tree>, wordsDict: set<string>)
    requires |ts| > 0
    ensures TreeOracles(ts[1..], wordsDict) == TreeOracles(ts, wordsDict)[1..]
  {
    var os := TreeOracles(ts, wordsDict);
    forall k | 0 <= k < |ts| - 1 ensures TreeOracles(ts[1..], wordsDict)[k] == os[1..][k] {
      assert ts[1..][k] == ts[k + 1];
    }
  }

  /** The stripped lines of a file holding records: each record's fields and
      a blank line. */
  function RecordLines(os: seq<Oracle>): seq<string> {
    if |os| == 0 then [] else Fields(os[0]) + [""] + RecordLines(os[1..])
  }

  lemma {:induction false} RecordLinesEncoded(os: seq<Oracle>)
    ensures RecordLines(os) == EncodedLines(seq(|os|, k requires 0 <= k < |os| => OracleBlockOf(os[k])))
  {
    var bs := seq(|os|, k requires 0 <= k < |os| => OracleBlockOf(os[k]));
    if |os| > 0 {
      RecordLinesEncoded(os[1..]);
      assert bs[1..] == seq(|os| - 1, k requires 0 <= k < |os| - 1 => OracleBlockOf(os[1..][k]));
      assert Contents(bs[0]) == Fields(os[0]);
    }
  }

  /** Lines that strip to well-formed records and a blank line after each
      read back through `oracle_iter` as those records, without error. */
  lemma {:induction false} ReadRecords(lines: seq<string>, os: seq<Oracle>)
    requires forall k :: 0 <= k < |os| ==> WellFormed(os[k])
    requires StripAll(lines) == RecordLines(os)
    ensures OracleIter(lines) == Stream(os, None)
  {
    var bs := seq(|os|, k requires 0 <= k < |os| => OracleBlockOf(os[k]));
    forall k | 0 <= k < |bs| ensures Encodable(5, bs[k]) {
      assert Contents(bs[k]) == Fields(os[k]);
    }
    RecordLinesEncoded(os);
    BlocksFromEncoded(bs, 5);
    OraclesOfBlocks(os);
  }

  /** Lines that strip to one well-formed record and a blank line. */
  lemma {:induction false} ReadRecord(lines: seq<string>, o: Oracle)
    requires WellFormed(o)
    requires StripAll(lines) == Fields(o) + [""]
    ensures OracleIter(lines) == Stream([o], None)
  {
    assert RecordLines([o]) == Fields(o) + [""] by {
      assert [o][1..] == [];
    }
    ReadRecords(lines, [o]);
  }

  /** The block printed for a phrase reads back through `oracle_iter` as one
      record: the tree, its tags, words, lowercased and unkified words, and
      the texts of its pre-order walk as the actions. */
  lemma {:induction false} BlockOfTree(line: string, t: Tree, lineNo: nat, wordsDict: set<string>)
    requires IsPhrase(t) && RStrip(line) == Render(t)
    ensures OracleBlock(line, lineNo, wordsDict).failure.None?
    ensures OracleIter(OracleBlock(line, lineNo, wordsDict).items) == Stream([TreeOracle(t, wordsDict)], None)
    ensures OracleIter(OracleBlock(line, lineNo, wordsDict).items).items[0].actions == ActionLines(PreOrder(t))
  {
    BlockLines(line, t, lineNo, wordsDict);
    ReadRecord(OracleBlock(line, lineNo, wordsDict).items, TreeOracle(t, wordsDict));
  }

  /** A block stripping to the first record, then lines stripping to the rest. */
  lemma {:induction false} StripRecords(b: seq<string>, rest: seq<string>, os: seq<Oracle>)
    requires |os| > 0
    requires StripAll(b) == Fields(os[0]) + [""] && StripAll(rest) == RecordLines(os[1..])
    ensures StripAll(b + rest) == RecordLines(os)
  {
    StripAllAppend(b, rest);
  }

  /** The lines printed for a dev file of phrases, `lineNo` lines already
      counted, strip to the trees' records with a blank line after each. */
  lemma {:induction false} OutputLines(lines: seq<string>, ts: seq<Tree>, lineNo: nat, wordsDict: set<string>)
    requires |lines| == |ts|
    requires forall k :: 0 <= k < |ts| ==> IsPhrase(ts[k]) && RStrip(lines[k]) == Render(ts[k])
    ensures OracleOutputFrom(lines, lineNo, wordsDict).failure.None?
    ensures StripAll(OracleOutputFrom(lines, lineNo, wordsDict).items) == RecordLines(TreeOracles(ts, wordsDict))
    decreases |lines|
  {
    if |lines| > 0 {
      var os := TreeOracles(ts, wordsDict);
      var first := OracleBlock(lines[0], lineNo + 1, wordsDict);
      var rest := OracleOutputFrom(lines[1..], lineNo + 1, wordsDict);
      assert first.failure.None? && StripAll(first.items) == Fields(os[0]) + [""] by {
        BlockLines(lines[0], ts[0], lineNo + 1, wordsDict);
      }
      assert rest.failure.None? && StripAll(rest.items) == RecordLines(os[1..]) by {
        forall k | 0 <= k < |ts| - 1
          ensures IsPhrase(ts[1..][k]) && RStrip(lines[1..][k]) == Render(ts[1..][k])
        {
          assert ts[1..][k] == ts[k + 1] && lines[1..][k] == lines[k + 1];
        }
        OutputLines(lines[1..], ts[1..], lineNo + 1, wordsDict);
        TreeOraclesTail(ts, wordsDict);
      }
      assert OracleOutputFrom(lines, lineNo, wordsDict) == Stream(first.items + rest.items, None);
      StripRecords(first.items, rest.items, os);
    }
  }

  /** Everything `main()` prints for a dev file of phrases, one per line, reads
      back through `oracle_iter` as the trees' records, in order, without
      error. */
  lemma {:induction false} OutputOfTrees(lines: seq<string>, ts: seq<Tree>, wordsDict: set<string>)
    requires |lines| == |ts|
    requires forall k :: 0 <= k < |ts| ==> IsPhrase(ts[k]) && RStrip(lines[k]) == Render(ts[k])
    ensures OracleOutput(lines, wordsDict).failure.None?
    ensures OracleIter(OracleOutput(lines, wordsDict).items) == Stream(TreeOracles(ts, wordsDict), None)
  {
    var os := TreeOracles(ts, wordsDict);
    OutputLines(lines, ts, 0, wordsDict);
    forall k | 0 <= k < |os| ensures WellFormed(os[k]) {
      TreeOracleWellFormed(ts[k], wordsDict);
    }
    ReadRecords(OracleOutput(lines, wordsDict).items, os);
  }
}

=== FILE: oracle_scan.dfy ===
/** The oracle generator of `src/get_oracle_id.py`: a single left-to-right scan
    over a one-line bracketed tree that emits the shift-reduce transitions
    `NT(label)`, `SHIFT`, `REDUCE`, companion scans that pull out the POS tags,
    words and lowercase words of the terminals `(TAG word)`, and `unkify`.

    The scanners work on indices and never build a tree. Every Python
    `IndexError` (running off the end of the line) and failed `assert` is an
    `Err` here, so each function is total. */
module OracleScan {
  import opened Base
  import opened Trees

  datatype Action = NT(nt: string) | Shift | Reduce

  /** How an action is written in an oracle file. */
  function ActionText(a: Action): string {
    match a
    case NT(l) => "NT(" + l + ")"
    case Shift => "SHIFT"
    case Reduce => "REDUCE"
  }

  const Brackets: set<char> := {'(', ')'}

  // ---------------------------------------------------------------------------
  // unkify

  /** One position of `unkify`: the right-stripped token if it is a known word. */
  function UnkifyToken(token: string, wordsDict: set<string>): string {
    var w := RStrip(token);
    if |w| == 0 || w !in wordsDict then "UNK" else w
  }

  /** `unkify(tokens, words_dict)`. */
  function Unkify(tokens: seq<string>, wordsDict: set<string>): (r: seq<string>)
    ensures |r| == |tokens|
    ensures forall i :: 0 <= i < |tokens| && RStrip(tokens[i]) != "" && RStrip(tokens[i]) in wordsDict ==>
      r[i] == RStrip(tokens[i])
    ensures forall i :: 0 <= i < |tokens| && (RStrip(tokens[i]) == "" || RStrip(tokens[i]) !in wordsDict) ==>
      r[i] == "UNK"
    ensures forall i :: 0 <= i < |r| ==> r[i] == "UNK" || r[i] in wordsDict
  {
    seq(|tokens|, i requires 0 <= i < |tokens| => UnkifyToken(tokens[i], wordsDict))
  }

  // ---------------------------------------------------------------------------
  // Bracket look-ahead helpers

  /** `is_next_open_bracket(line, i)`: is the first bracket after `i` an opening one? */
  function IsNextOpenBracket(s: string, i: nat): Result<bool> {
    match FindFrom(s, i + 1, Brackets)
    case None => Err(IndexError)
    case Some(k) => Ok(s[k] == '(')
  }

  /** `is_next_open_bracket` raises exactly when no bracket follows `i`, and
      otherwise tells whether the first bracket after `i` is `(`. */
  lemma {:induction false} IsNextOpenBracketSpec(s: string, i: nat)
    ensures IsNextOpenBracket(s, i).Err? <==> forall m :: i < m < |s| ==> s[m] !in Brackets
    ensures IsNextOpenBracket(s, i).Err? ==> IsNextOpenBracket(s, i).error == IndexError
    ensures IsNextOpenBracket(s, i).Ok? ==> exists k :: (i < k < |s| && s[k] in Brackets &&
      (forall m :: i < m < k ==> s[m] !in Brackets) && (IsNextOpenBracket(s, i).value <==> s[k] == '('))
  {
    FindFromSkips(s, i + 1, Brackets);
    if IsNextOpenBracket(s, i).Err? {
      forall m | i < m < |s|
        ensures s[m] !in Brackets
      {
      }
    } else {
      var k := FindFrom(s, i + 1, Brackets).value;
      assert i < k < |s| && s[k] in Brackets;
    }
  }

  /** `get_between_brackets(line, i)`: the text after `i` up to the next `)`
      (or the end), which must not contain `(`. */
  function GetBetweenBrackets(s: string, i: nat): Result<string> {
    if i + 1 > |s| then Ok("")
    else match FindFrom(s, i + 1, Brackets)
      case None => Ok(s[i + 1..])
      case Some(k) => if s[k] == ')' then Ok(s[i + 1..k]) else Err(AssertionError)
  }

  /** What `get_between_brackets` returns: bracket-free text that sits right
      after `i` and runs to a `)` or the end; it fails only on a `(` that comes
      before any `)`. */
  lemma {:induction false} GetBetweenBracketsSpec(s: string, i: nat)
    requires i < |s|
    ensures var r := GetBetweenBrackets(s, i);
      r.Ok? ==> (i + 1 + |r.value| <= |s| && s[i + 1..i + 1 + |r.value|] == r.value &&
        (i + 1 + |r.value| == |s| || s[i + 1 + |r.value|] == ')') &&
        forall m :: 0 <= m < |r.value| ==> r.value[m] !in Brackets)
    ensures var r := GetBetweenBrackets(s, i);
      r.Err? ==> (r.error == AssertionError &&
        exists k :: i < k < |s| && s[k] == '(' && forall m :: i < m < k ==> s[m] != ')')
  {
    FindFromSkips(s, i + 1, Brackets);
    match FindFrom(s, i + 1, Brackets)
    case None =>
    case Some(k) =>
      if s[k] == '(' {
        assert i < k < |s| && s[k] == '(' && forall m :: i < m < k ==> s[m] != ')';
      }
  }

  /** `get_nonterminal(line, i)`: the label after the `(` at `i`, up to the next
      space; a bracket before that space is an assertion failure. */
  function GetNonterminal(s: string, i: nat): (r: Result<string>)
    ensures r.Ok? ==> i < |s| && s[i] == '(' && i + 1 + |r.value| <= |s|
    ensures r.Ok? ==> (s[i + 1..i + 1 + |r.value|] == r.value &&
      (i + 1 + |r.value| == |s| || s[i + 1 + |r.value|] == ' '))
    ensures r.Ok? ==> forall m :: 0 <= m < |r.value| ==> r.value[m] !in Brackets && r.value[m] != ' '
    ensures i >= |s| ==> r == Err(IndexError)
    ensures i < |s| && s[i] != '(' ==> r == Err(AssertionError)
  {
    if i >= |s| then Err(IndexError)
    else if s[i] != '(' then Err(AssertionError)
    else
      FindFromSkips(s, i + 1, {' ', '(', ')'});
      match FindFrom(s, i + 1, {' ', '(', ')'})
      case None => Ok(s[i + 1..])
      case Some(k) => if s[k] == ' ' then Ok(s[i + 1..k]) else Err(AssertionError)
  }

  // ---------------------------------------------------------------------------
  // get_actions

  /** What one pass of the `get_actions` loop body does: the action it appends
      and where the index rests next (`None` when it breaks at the final `)`). */
  datatype Move = Move(action: Action, next: Option<nat>)

  /** One pass of the `while i <= max_idx` body of `get_actions` at index `i`.
      The index only ever moves forward and only ever rests on a bracket; the
      loop breaks only at a `)` that is the last character, so the closing
      `assert i == max_idx` cannot fail once the loop is entered. */
  function StepAt(s: string, i: nat): (r: Result<Move>)
    requires i < |s|
    ensures r.Ok? ==> s[i] in Brackets
    ensures r.Ok? && r.value.next.Some? ==> i < r.value.next.value < |s| && s[r.value.next.value] in Brackets
    ensures r.Ok? && r.value.next.None? ==> r.value.action == Reduce && i == |s| - 1
    ensures r.Ok? ==> (r.value.action == Reduce <==> s[i] == ')')
    ensures r.Ok? ==> (r.value.action == Shift <==> s[i] == '(' && IsNextOpenBracket(s, i) == Ok(false))
  {
    if s[i] !in Brackets then Err(AssertionError)
    else if s[i] == '(' then
      match IsNextOpenBracket(s, i)
      case Err(e) => Err(e)
      case Ok(true) =>
        (match GetNonterminal(s, i)
         case Err(e) => Err(e)
         case Ok(l) =>
           match FindFrom(s, i + 1, {'('})
           case None => Err(IndexError)
           case Some(j) => Ok(Move(NT(l), Some(j))))
      case Ok(false) =>
        match FindFrom(s, i, {')'})
        case None => Err(IndexError)
        case Some(c) =>
          match FindFrom(s, c + 1, Brackets)
          case None => Err(IndexError)
          case Some(j) => Ok(Move(Shift, Some(j)))
    else if i == |s| - 1 then Ok(Move(Reduce, None))
    else
      match FindFrom(s, i + 1, Brackets)
      case None => Err(IndexError)
      case Some(j) => Ok(Move(Reduce, Some(j)))
  }

  /** The actions the `get_actions` loop appends from index `i` on, or the
      exception that ends it. */
  function ActionsFrom(s: string, i: nat): Result<seq<Action>>
    requires i < |s|
    decreases |s| - i
  {
    match StepAt(s, i)
    case Err(e) => Err(e)
    case Ok(Move(a, None)) => Ok([a])
    case Ok(Move(a, Some(j))) => Then([a], ActionsFrom(s, j))
  }

  /** `get_actions(line)`. An empty (or all-blank) line skips the loop and
      fails the final `assert i == max_idx`. */
  function GetActions(line: string): Result<seq<Action>> {
    var s := RStrip(line);
    if |s| == 0 then Err(AssertionError) else ActionsFrom(s, 0)
  }

  /** One of the inner `while line_strip[i] not in …: i += 1` loops of
      `get_actions`, started at `start`: where it stops, or `None` when it would
      run off the end (the `IndexError`). */
  method SkipTo(s: string, start: nat, cs: set<char>) returns (r: Option<nat>)
    ensures r == FindFrom(s, start, cs)
  {
    var i := start;
    while i < |s| && s[i] !in cs
      invariant start <= i
      invariant FindFrom(s, i, cs) == FindFrom(s, start, cs)
      decreases |s| - i
    {
      i := i + 1;
    }
    if i < |s| {
      r := Some(i);
    } else {
      r := None;
    }
  }

  /** One pass of the `get_actions` loop body with its inner loops written
      out; it computes the move `StepAt` describes. */
  method Step(s: string, i: nat) returns (m: Result<Move>)
    requires i < |s|
    ensures m == StepAt(s, i)
  {
    if s[i] !in Brackets {
      return Err(AssertionError);
    }
    if s[i] == '(' {
      var open := IsNextOpenBracket(s, i);
      if open.Err? {
        return Err(open.error);
      }
      if open.value {
        var nt := GetNonterminal(s, i);
        if nt.Err? {
          return Err(nt.error);
        }
        var j := SkipTo(s, i + 1, {'('});
        if j.None? {
          return Err(IndexError);
        }
        return Ok(Move(NT(nt.value), j));
      } else {
        var c := SkipTo(s, i, {')'});
        if c.None? {
          return Err(IndexError);
        }
        var j := SkipTo(s, c.value + 1, Brackets);
        if j.None? {
          return Err(IndexError);
        }
        return Ok(Move(Shift, j));
      }
    } else if i == |s| - 1 {
      return Ok(Move(Reduce, None));
    } else {
      var j := SkipTo(s, i + 1, Brackets);
      if j.None? {
        return Err(IndexError);
      }
      return Ok(Move(Reduce, j));
    }
  }

  /** `get_actions` as the imperative loop it is: a growing action list and an
      index that moves from bracket to bracket until the final `)`. It returns
      exactly what the recursive reading `GetActions` does. */
  method GetActionsLoop(line: string) returns (r: Result<seq<Action>>)
    ensures r == GetActions(line)
  {
    var s := RStrip(line);
    if |s| == 0 {
      return Err(AssertionError);
    }
    var acts: seq<Action> := [];
    var i: nat := 0;
    if ActionsFrom(s, 0).Ok? {
      assert [] + ActionsFrom(s, 0).value == ActionsFrom(s, 0).value;
    }
    while true
      invariant i < |s|
      invariant Then(acts, ActionsFrom(s, i)) == ActionsFrom(s, 0)
      decreases |s| - i
    {
      var m := Step(s, i);
      match m
      case Err(e) =>
        return Err(e);
      case Ok(Move(a, None)) =>
        return Ok(acts + [a]);
      case Ok(Move(a, Some(j))) =>
        ThenThen(acts, [a], ActionsFrom(s, j));
        acts, i := acts + [a], j;
    }
  }

  // ---------------------------------------------------------------------------
  // get_tags_tokens_lowercase

  /** The `output` list of `get_tags_tokens_lowercase` collected from index `i`
      on: the inside of every `(` whose next bracket is `)`. */
  function TerminalsFrom(s: string, i: nat): Result<seq<string>>
    decreases |s| - i
  {
    if i >= |s| then Ok([])
    else if s[i] == '(' then
      match IsNextOpenBracket(s, i)
      case Err(e) => Err(e)
      case Ok(true) => TerminalsFrom(s, i + 1)
      case Ok(false) =>
        match GetBetweenBrackets(s, i)
        case Err(e) => Err(e)
        case Ok(w) => Then([w], TerminalsFrom(s, i + 1))
    else TerminalsFrom(s, i + 1)
  }

  /** The three lists `get_tags_tokens_lowercase` returns. */
  datatype Preamble = Preamble(tags: seq<string>, tokens: seq<string>, lowercase: seq<string>)

  /** Splits every terminal `TAG word` into its two parts; any other number of
      parts is an assertion failure. */
  function SplitTerminals(ts: seq<string>): (r: Result<Preamble>)
    ensures r.Ok? ==> |r.value.tags| == |ts| && |r.value.tokens| == |ts| && |r.value.lowercase| == |ts|
    ensures r.Ok? ==> forall k :: 0 <= k < |ts| ==>
      Split(ts[k]) == [r.value.tags[k], r.value.tokens[k]] && r.value.lowercase[k] == Lower(r.value.tokens[k])
    ensures r.Ok? ==> forall k :: 0 <= k < |ts| ==> IsWord(r.value.tags[k]) && IsWord(r.value.tokens[k])
    ensures r.Err? <==> exists k :: 0 <= k < |ts| && |Split(ts[k])| != 2
  {
    if |ts| == 0 then Ok(Preamble([], [], []))
    else
      var parts := Split(ts[0]);
      match SplitTerminals(ts[1..])
      case Err(e) => if |parts| != 2 then Err(AssertionError) else Err(e)
      case Ok(p) =>
        if |parts| != 2 then Err(AssertionError)
        else Ok(Preamble([parts[0]] + p.tags, [parts[1]] + p.tokens, [Lower(parts[1])] + p.lowercase))
  }

  /** `get_tags_tokens_lowercase(line)`: one (tag, token, lowercase token) per terminal. */
  function GetTagsTokensLowercase(line: string): (r: Result<Preamble>)
    ensures r.Ok? ==> |r.value.tags| == |r.value.tokens| == |r.value.lowercase|
    ensures r.Ok? ==> forall k :: 0 <= k < |r.value.tokens| ==>
      IsWord(r.value.tags[k]) && IsWord(r.value.tokens[k]) && r.value.lowercase[k] == Lower(r.value.tokens[k])
  {
    var s := RStrip(line);
    if |s| > 0 && s[0] != '(' then Err(AssertionError)
    else match TerminalsFrom(s, 0)
      case Err(e) => Err(e)
      case Ok(ts) => SplitTerminals(ts)
  }

  // ---------------------------------------------------------------------------
  // The per-line output of main()

  /** One preamble line of an oracle block: the space-join, with one leading
      space when the first element is `#`. */
  function PreambleLine(xs: seq<string>): (r: string)
    ensures r == Join(" ", xs) || r == " " + Join(" ", xs)
    ensures r != Join(" ", xs) <==> |xs| > 0 && xs[0] == "#"
  {
    (if |xs| > 0 && xs[0] == "#" then " " else "") + Join(" ", xs)
  }
}

=== FILE: oracle_scan_proofs.dfy ===
/** What the `get_oracle_id.py` scanners guarantee.

    On ANY line: the scanner visits every bracket once, so #NT + #SHIFT equals
    the number of `(`, #SHIFT + #REDUCE the number of `)`, and #SHIFT equals
    the number of terminals the tag scanner finds (both call a `(` terminal
    exactly when `is_next_open_bracket` is false).

    On a canonical tree rendered on one line: the actions are the pre-order
    walk of the tree and the tags/tokens are its preterminals, in order. */
module OracleScanProofs {
  import opened Base
  import opened Trees
  import opened OracleScan

  // ---------------------------------------------------------------------------
  // Counting actions

  function CountNT(acts: seq<Action>): nat {
    if |acts| == 0 then 0 else (if acts[0].NT? then 1 else 0) + CountNT(acts[1..])
  }

  function CountShift(acts: seq<Action>): nat {
    if |acts| == 0 then 0 else (if acts[0].Shift? then 1 else 0) + CountShift(acts[1..])
  }

  function CountReduce(acts: seq<Action>): nat {
    if |acts| == 0 then 0 else (if acts[0].Reduce? then 1 else 0) + CountReduce(acts[1..])
  }

  lemma {:induction false} CountsAppend(a: seq<Action>, b: seq<Action>)
    ensures CountNT(a + b) == CountNT(a) + CountNT(b)
    ensures CountShift(a + b) == CountShift(a) + CountShift(b)
    ensures CountReduce(a + b) == CountReduce(a) + CountReduce(b)
  {
    if |a| == 0 {
      assert a + b == b;
    } else {
      assert (a + b)[1..] == a[1..] + b;
      CountsAppend(a[1..], b);
    }
  }

  /** The number of `(` in `s` at or after `i` whose next bracket is `)`: the
      terminals, as both scanners classify them. */
  function TerminalOpens(s: string, i: nat): nat
    decreases |s| - i
  {
    if i >= |s| then 0
    else (if s[i] == '(' && IsNextOpenBracket(s, i) == Ok(false) then 1 else 0) + TerminalOpens(s, i + 1)
  }

  lemma {:induction false} TerminalOpensSkip(s: string, a: nat, b: nat)
    requires a <= b <= |s|
    requires forall m :: a <= m < b ==> s[m] != '('
    ensures TerminalOpens(s, a) == TerminalOpens(s, b)
    decreases b - a
  {
    if a < b {
      TerminalOpensSkip(s, a + 1, b);
    }
  }

  /** Bracket counts of a stretch whose only bracket is its first character. */
  lemma {:induction false} CountsOfStep(s: string, i: nat, j: nat)
    requires i < j <= |s|
    requires forall m :: i < m < j ==> s[m] !in Brackets
    ensures multiset(s[i..j])['('] == (if s[i] == '(' then 1 else 0)
    ensures multiset(s[i..j])[')'] == (if s[i] == ')' then 1 else 0)
  {
    assert s[i..j] == [s[i]] + s[i + 1..j];
    assert '(' !in s[i + 1..j] && ')' !in s[i + 1..j];
  }

  /** Where one loop pass leaves the index (the end of the line when it breaks). */
  function StepEnd(s: string, i: nat): nat
    requires i < |s| && StepAt(s, i).Ok?
  {
    match StepAt(s, i).value.next
    case Some(j) => j
    case None => |s|
  }

  /** One loop pass consumes exactly the brackets it accounts for: one `(` for
      NT, one `(` and its `)` for SHIFT, one `)` for REDUCE, and no other `(`. */
  lemma {:induction false} StepCounts(s: string, i: nat)
    requires i < |s| && StepAt(s, i).Ok?
    ensures var a, j := StepAt(s, i).value.action, StepEnd(s, i);
      && i < j <= |s|
      && multiset(s[i..j])['('] == (if a.Reduce? then 0 else 1)
      && multiset(s[i..j])[')'] == (if a.NT? then 0 else 1)
  {
    var j := StepEnd(s, i);
    FindFromSkips(s, i + 1, Brackets);
    if s[i] == '(' {
      var k := FindFrom(s, i + 1, Brackets).value;
      if s[k] == '(' {
        FindFromAt(s, i + 1, {'('}, k);
        CountsOfStep(s, i, k);
      } else {
        FindFromAt(s, i, {')'}, k);
        FindFromSkips(s, k + 1, Brackets);
        CountsOfStep(s, i, k);
        CountsOfStep(s, k, j);
        assert s[i..j] == s[i..k] + s[k..j];
      }
    } else if i == |s| - 1 {
      assert s[i..j] == [s[i]];
    } else {
      CountsOfStep(s, i, j);
    }
  }

  /** ... and no `(` after its first character. */
  lemma {:induction false} StepNoOpen(s: string, i: nat)
    requires i < |s| && StepAt(s, i).Ok?
    ensures forall x :: i < x < StepEnd(s, i) ==> s[x] != '('
  {
    var j := StepEnd(s, i);
    FindFromSkips(s, i + 1, Brackets);
    if s[i] == '(' {
      var k := FindFrom(s, i + 1, Brackets).value;
      if s[k] == '(' {
        FindFromAt(s, i + 1, {'('}, k);
      } else {
        FindFromSkips(s, k + 1, Brackets);
        FindFromAt(s, i, {')'}, k);
      }
    }
  }

  /** Whenever the scan from `i` succeeds, its actions account for every bracket
      of `s[i..]` and its SHIFTs are exactly the terminal `(`s; it ends in REDUCE. */
  lemma {:induction false} ActionsFromCounts(s: string, i: nat)
    requires i < |s| && ActionsFrom(s, i).Ok?
    ensures var acts := ActionsFrom(s, i).value;
      && CountNT(acts) + CountShift(acts) == multiset(s[i..])['(']
      && CountShift(acts) + CountReduce(acts) == multiset(s[i..])[')']
      && CountShift(acts) == TerminalOpens(s, i)
      && |acts| > 0 && acts[|acts| - 1] == Reduce
  {
    ActionsFromBrackets(s, i);
    ActionsFromShifts(s, i);
  }

  lemma {:induction false} ActionsFromBrackets(s: string, i: nat)
    requires i < |s| && ActionsFrom(s, i).Ok?
    ensures var acts := ActionsFrom(s, i).value;
      && CountNT(acts) + CountShift(acts) == multiset(s[i..])['(']
      && CountShift(acts) + CountReduce(acts) == multiset(s[i..])[')']
    decreases |s| - i
  {
    var acts := ActionsFrom(s, i).value;
    var m := StepAt(s, i).value;
    var j := StepEnd(s, i);
    StepCounts(s, i);
    if m.next.Some? {
      var rest := ActionsFrom(s, j).value;
      assert acts == [m.action] + rest;
      assert CountNT(rest) + CountShift(rest) == multiset(s[j..])['(']
          && CountShift(rest) + CountReduce(rest) == multiset(s[j..])[')'] by {
        ActionsFromBrackets(s, j);
      }
      CountsAppend([m.action], rest);
      MultisetSplit(s, i, j);
    } else {
      assert acts == [Reduce];
      assert s[i..] == s[i..j];
    }
  }

  lemma {:induction false} MultisetSplit<T>(s: seq<T>, i: nat, j: nat)
    requires i <= j <= |s|
    ensures multiset(s[i..]) == multiset(s[i..j]) + multiset(s[j..])
  {
    assert s[i..] == s[i..j] + s[j..];
  }

  lemma {:induction false} ActionsFromShifts(s: string, i: nat)
    requires i < |s| && ActionsFrom(s, i).Ok?
    ensures var acts := ActionsFrom(s, i).value;
      && CountShift(acts) == TerminalOpens(s, i)
      && |acts| > 0 && acts[|acts| - 1] == Reduce
    decreases |s| - i
  {
    var acts := ActionsFrom(s, i).value;
    var m := StepAt(s, i).value;
    var j := StepEnd(s, i);
    StepNoOpen(s, i);
    TerminalOpensSkip(s, i + 1, j);
    if m.next.Some? {
      ActionsFromShifts(s, j);
      var rest := ActionsFrom(s, j).value;
      assert acts == [m.action] + rest;
      CountsAppend([m.action], rest);
      assert TerminalOpens(s, i) == (if m.action.Shift? then 1 else 0) + TerminalOpens(s, j);
    } else {
      assert acts == [Reduce];
    }
  }

  /** The tag scanner finds exactly the terminal `(`s. */
  lemma {:induction false} TerminalsFromCount(s: string, i: nat)
    requires TerminalsFrom(s, i).Ok?
    ensures |TerminalsFrom(s, i).value| == TerminalOpens(s, i)
    decreases |s| - i
  {
    if i < |s| {
      TerminalsFromCount(s, i + 1);
    }
  }

  /** Right-stripping removes no bracket. */
  lemma {:induction false} RStripKeepsBrackets(line: string)
    ensures multiset(RStrip(line))['('] == multiset(line)['(']
    ensures multiset(RStrip(line))[')'] == multiset(line)[')']
  {
    var s := RStrip(line);
    assert line == s + line[|s|..];
    assert '(' !in line[|s|..] && ')' !in line[|s|..];
  }

  /** On any line `get_actions` accepts: #NT + #SHIFT is the number of `(`,
      #SHIFT + #REDUCE the number of `)`, and the last action is REDUCE. So the
      caller's balance check is what makes #NT equal #REDUCE. */
  lemma {:induction false} ActionCounts(line: string)
    requires GetActions(line).Ok?
    ensures var acts := GetActions(line).value;
      && CountNT(acts) + CountShift(acts) == multiset(line)['(']
      && CountShift(acts) + CountReduce(acts) == multiset(line)[')']
      && |acts| > 0 && acts[|acts| - 1] == Reduce
    ensures multiset(line)['('] == multiset(line)[')'] ==>
      CountNT(GetActions(line).value) == CountReduce(GetActions(line).value)
  {
    var s := RStrip(line);
    ActionsFromCounts(s, 0);
    assert s[0..] == s;
    RStripKeepsBrackets(line);
  }

  /** On any line both scanners accept, the number of SHIFTs equals the number
      of terminals, hence of tags, tokens and lowercase tokens. */
  lemma {:induction false} ShiftsMatchTerminals(line: string)
    requires GetActions(line).Ok? && GetTagsTokensLowercase(line).Ok?
    ensures CountShift(GetActions(line).value) == |GetTagsTokensLowercase(line).value.tokens|
  {
    var s := RStrip(line);
    ActionsFromCounts(s, 0);
    TerminalsFromCount(s, 0);
  }

  // ---------------------------------------------------------------------------
  // Canonical trees

  /** A label, tag or word of a canonical tree: no whitespace, no bracket. */
  predicate IsToken(w: string) {
    |w| > 0 && forall i :: 0 <= i < |w| ==> !IsSpace(w[i]) && w[i] !in Brackets
  }

  /** `(TAG word)`. */
  predicate IsTerminal(t: Tree) {
    IsPreterminal(t) && IsToken(t.name) && IsToken(t.children[0].word)
  }

  /** An internal node whose children are all terminals or phrases. */
  predicate IsPhrase(t: Tree)
    decreases t
  {
    t.Node? && IsToken(t.name) && |t.children| > 0 &&
    forall k :: 0 <= k < |t.children| ==> IsTerminal(t.children[k]) || IsPhrase(t.children[k])
  }

  predicate IsCanonical(t: Tree) {
    IsTerminal(t) || IsPhrase(t)
  }

  /** The pre-order walk: NT on entering an internal node, SHIFT per
      preterminal, REDUCE on leaving an internal node. */
  function PreOrder(t: Tree): seq<Action>
    decreases t
  {
    match t
    case Leaf(_) => []
    case Node(l, cs) => if IsPreterminal(t) then [Shift] else [NT(l)] + PreOrderChildren(cs) + [Reduce]
  }

  function PreOrderChildren(cs: seq<Tree>): seq<Action>
    decreases cs
  {
    if |cs| == 0 then [] else PreOrder(cs[0]) + PreOrderChildren(cs[1..])
  }

  /** The (tag, word) pair of every preterminal, left to right. */
  function TerminalPairs(t: Tree): seq<(string, string)>
    decreases t
  {
    match t
    case Leaf(_) => []
    case Node(l, cs) => if IsPreterminal(t) then [(l, cs[0].word)] else TerminalPairsChildren(cs)
  }

  function TerminalPairsChildren(cs: seq<Tree>): seq<(string, string)>
    decreases cs
  {
    if |cs| == 0 then [] else TerminalPairs(cs[0]) + TerminalPairsChildren(cs[1..])
  }

  /** How each terminal reads between its brackets: `TAG word`. */
  function Texts(ps: seq<(string, string)>): (r: seq<string>)
    ensures |r| == |ps|
  {
    seq(|ps|, i requires 0 <= i < |ps| => ps[i].0 + " " + ps[i].1)
  }

  lemma {:induction false} TextsAppend(a: seq<(string, string)>, b: seq<(string, string)>)
    ensures Texts(a + b) == Texts(a) + Texts(b)
  {
  }

  /** The preamble lists a sequence of preterminals gives. */
  function PreambleOf(ps: seq<(string, string)>): Preamble {
    Preamble(seq(|ps|, i requires 0 <= i < |ps| => ps[i].0),
             seq(|ps|, i requires 0 <= i < |ps| => ps[i].1),
             seq(|ps|, i requires 0 <= i < |ps| => Lower(ps[i].1)))
  }

  // ---------------------------------------------------------------------------
  // Positions in a string

  /** `r` occurs in `s` at index `k`. */
  predicate At(s: string, k: nat, r: string) {
    k + |r| <= |s| && s[k..k + |r|] == r
  }

  lemma {:induction false} AtConcat(s: string, k: nat, a: string, b: string)
    requires At(s, k, a + b)
    ensures At(s, k, a) && At(s, k + |a|, b)
  {
    assert s[k..k + |a|] == (a + b)[..|a|];
    assert s[k + |a|..k + |a| + |b|] == (a + b)[|a|..];
  }

  lemma {:induction false} AtChar(s: string, k: nat, r: string, x: nat)
    requires At(s, k, r) && x < |r|
    ensures s[k + x] == r[x]
  {
    assert s[k..k + |r|][x] == s[k + x];
  }

  lemma {:induction false} RenderNodeStartsOpen(t: Tree)
    requires t.Node?
    ensures |Render(t)| > 0 && Render(t)[0] == '('
  {
  }

  /** The pieces of a rendered node and where they sit in `s`. */
  lemma {:induction false} AtNode(s: string, k: nat, t: Tree)
    requires t.Node? && At(s, k, Render(t))
    ensures |Render(t)| == |t.name| + |RenderChildren(t.children)| + 2
    ensures s[k] == '(' && s[k + |Render(t)| - 1] == ')'
    ensures At(s, k + 1, t.name)
    ensures At(s, k + 1 + |t.name|, RenderChildren(t.children))
  {
    var l, rc := t.name, RenderChildren(t.children);
    assert Render(t) == "(" + l + rc + ")";
    AtBracketed(s, k, l, rc);
  }

  /** A bracketed label and body. */
  lemma {:induction false} AtBracketed(s: string, k: nat, l: string, rc: string)
    requires At(s, k, "(" + l + rc + ")")
    ensures |"(" + l + rc + ")"| == |l| + |rc| + 2
    ensures s[k] == '(' && s[k + 1 + |l| + |rc|] == ')'
    ensures At(s, k + 1, l) && At(s, k + 1 + |l|, rc)
  {
    AtConcat(s, k, "(" + l + rc, ")");
    AtConcat(s, k, "(" + l, rc);
    AtConcat(s, k, "(", l);
    AtChar(s, k, "(", 0);
    AtChar(s, k + 1 + |l| + |rc|, ")", 0);
  }

  /** The pieces of rendered children: a space, the first child, the rest. */
  lemma {:induction false} AtChildren(s: string, p: nat, cs: seq<Tree>)
    requires |cs| > 0 && At(s, p, RenderChildren(cs))
    ensures |RenderChildren(cs)| == 1 + |Render(cs[0])| + |RenderChildren(cs[1..])|
    ensures s[p] == ' '
    ensures At(s, p + 1, Render(cs[0]))
    ensures At(s, p + 1 + |Render(cs[0])|, RenderChildren(cs[1..]))
  {
    AtSpaceParts(s, p, RenderChildren(cs), Render(cs[0]), RenderChildren(cs[1..]));
  }

  /** A space and two pieces one after another. */
  lemma {:induction false} AtSpacePieces(s: string, p: nat, b: string, c: string)
    requires At(s, p, " " + b + c)
    ensures s[p] == ' ' && At(s, p + 1, b) && At(s, p + 1 + |b|, c)
  {
    AtPieces(s, p, " ", b, c);
  }

  /** The same, for a string already known to be a space and two pieces. */
  lemma {:induction false} AtSpaceParts(s: string, p: nat, x: string, b: string, c: string)
    requires x == " " + b + c && At(s, p, x)
    ensures |x| == 1 + |b| + |c|
    ensures s[p] == ' ' && At(s, p + 1, b) && At(s, p + 1 + |b|, c)
  {
    AtSpacePieces(s, p, b, c);
  }

  /** Three pieces one after another. */
  lemma {:induction false} AtPieces(s: string, p: nat, a: string, b: string, c: string)
    requires At(s, p, a + b + c)
    ensures At(s, p, a) && At(s, p + |a|, b) && At(s, p + |a| + |b|, c)
    ensures |a| > 0 ==> s[p] == a[0]
  {
    AtConcat(s, p, a + b, c);
    AtConcat(s, p, a, b);
    if |a| > 0 {
      AtChar(s, p, a, 0);
    }
  }

  /** Inside a rendered canonical tree, between its first and last character,
      a token sits where no bracket is. */
  lemma {:induction false} TokenHasNoBracket(s: string, k: nat, w: string)
    requires At(s, k, w) && IsToken(w)
    ensures forall m :: k <= m < k + |w| ==> s[m] !in Brackets && s[m] != ' '
  {
    forall m | k <= m < k + |w|
      ensures s[m] !in Brackets && s[m] != ' '
    {
      AtChar(s, k, w, m - k);
    }
  }

  /** A terminal `(TAG word)` at `k`: where its parts are. */
  lemma {:induction false} AtTerminal(s: string, k: nat, t: Tree)
    requires IsTerminal(t) && At(s, k, Render(t))
    ensures var e := k + |Render(t)| - 1;
      && e == k + |t.name| + |t.children[0].word| + 2
      && s[k] == '(' && s[e] == ')'
      && (forall m :: k < m < e ==> s[m] !in Brackets)
      && s[k + 1..e] == t.name + " " + t.children[0].word
  {
    var l, w := t.name, t.children[0].word;
    var e := k + |Render(t)| - 1;
    TerminalPieces(s, k, t);
    assert forall m :: k < m < e ==> s[m] !in Brackets by {
      TokenHasNoBracket(s, k + 1, l);
      TokenHasNoBracket(s, k + 2 + |l|, w);
    }
    AtSpaced(s, k + 1, l, w);
  }

  lemma {:induction false} TerminalPieces(s: string, k: nat, t: Tree)
    requires IsTerminal(t) && At(s, k, Render(t))
    ensures var l, w, e := t.name, t.children[0].word, k + |Render(t)| - 1;
      && e == k + |l| + |w| + 2 && s[k] == '(' && s[e] == ')'
      && At(s, k + 1, l) && s[k + 1 + |l|] == ' ' && At(s, k + 2 + |l|, w)
  {
    var l, w := t.name, t.children[0].word;
    AtNode(s, k, t);
    assert RenderChildren(t.children) == " " + w + "";
    AtSpacePieces(s, k + 1 + |l|, w, "");
  }

  /** Two pieces with one space between them. */
  lemma {:induction false} AtSpaced(s: string, a: nat, x: string, y: string)
    requires At(s, a, x) && a + |x| < |s| && s[a + |x|] == ' ' && At(s, a + |x| + 1, y)
    ensures At(s, a, x + " " + y)
  {
    assert s[a..a + |x| + 1 + |y|] == s[a..a + |x|] + s[a + |x|..a + |x| + 1] + s[a + |x| + 1..a + |x| + 1 + |y|];
  }

  /** A phrase `(LABEL child ...)` at `k`: the label runs to a space and the
      first child's `(` follows it. */
  lemma {:induction false} AtPhrase(s: string, k: nat, t: Tree)
    requires IsPhrase(t) && At(s, k, Render(t))
    ensures var p := k + 1 + |t.name|;
      && s[p] == ' ' && s[p + 1] == '('
      && (forall m :: k < m < p ==> s[m] !in Brackets && s[m] != ' ')
  {
    var l, cs := t.name, t.children;
    var p := k + 1 + |l|;
    assert At(s, k + 1, l) && At(s, p, RenderChildren(cs)) by {
      AtNode(s, k, t);
    }
    assert s[p] == ' ' && At(s, p + 1, Render(cs[0])) by {
      AtChildren(s, p, cs);
    }
    assert s[p + 1] == '(' by {
      assert cs[0].Node? by {
        assert IsTerminal(cs[0]) || IsPhrase(cs[0]);
      }
      RenderNodeStartsOpen(cs[0]);
      AtChar(s, p + 1, Render(cs[0]), 0);
    }
    TokenHasNoBracket(s, k + 1, l);
  }

  /** The scanner opens a phrase with NT(label) and moves to its first child. */
  lemma {:induction false} PhraseStep(s: string, k: nat, t: Tree)
    requires IsPhrase(t) && At(s, k, Render(t))
    ensures StepAt(s, k) == Ok(Move(NT(t.name), Some(k + 2 + |t.name|)))
  {
    var l := t.name;
    var p := k + 1 + |l|;
    assert s[k] == '(' && s[k + 1..p] == l by {
      AtNode(s, k, t);
    }
    AtPhrase(s, k, t);
    NtStepAt(s, k, p);
  }

  /** The scanner at a `(` followed by a bracket-free label, a space and
      another `(` emits NT of that label and moves to the second `(`. */
  lemma {:induction false} NtStepAt(s: string, k: nat, p: nat)
    requires k < p && p + 1 < |s| && s[k] == '(' && s[p] == ' ' && s[p + 1] == '('
    requires forall m :: k < m < p ==> s[m] !in Brackets && s[m] != ' '
    ensures StepAt(s, k) == Ok(Move(NT(s[k + 1..p]), Some(p + 1)))
  {
    FindFromAt(s, k + 1, Brackets, p + 1);
    FindFromAt(s, k + 1, {' ', '(', ')'}, p);
    FindFromAt(s, k + 1, {'('}, p + 1);
    assert IsNextOpenBracket(s, k) == Ok(true);
    assert GetNonterminal(s, k) == Ok(s[k + 1..p]);
  }

  /** The scan of a phrase starts with its NT and goes on at the first child. */
  lemma {:induction false} PhraseOpens(s: string, k: nat, t: Tree)
    requires IsPhrase(t) && At(s, k, Render(t))
    ensures k + 2 + |t.name| < |s|
    ensures ActionsFrom(s, k) == Then([NT(t.name)], ActionsFrom(s, k + 2 + |t.name|))
  {
    PhraseStep(s, k, t);
    StepThen(s, k, NT(t.name), k + 2 + |t.name|);
  }

  /** One step of the scan followed by the rest of it. */
  lemma {:induction false} StepThen(s: string, i: nat, a: Action, j: nat)
    requires i < |s| && StepAt(s, i) == Ok(Move(a, Some(j)))
    ensures ActionsFrom(s, i) == Then([a], ActionsFrom(s, j))
  {
  }

  /** The scanner shifts a terminal and moves to the next bracket after it. */
  lemma {:induction false} TerminalStep(s: string, k: nat, t: Tree)
    requires IsTerminal(t) && At(s, k, Render(t))
    ensures ActionsFrom(s, k) == Then([Shift], After(s, k + |Render(t)| - 1, true))
  {
    AtTerminal(s, k, t);
    ShiftStepAt(s, k, k + |Render(t)| - 1);
  }

  /** The scanner at a `(` whose next bracket is the `)` at `e` shifts and
      moves to the next bracket after `e`. */
  lemma {:induction false} ShiftStepAt(s: string, k: nat, e: nat)
    requires k < e < |s| && s[k] == '(' && s[e] == ')'
    requires forall m :: k < m < e ==> s[m] !in Brackets
    ensures ActionsFrom(s, k) == Then([Shift], After(s, e, true))
  {
    FindFromAt(s, k + 1, Brackets, e);
    FindFromAt(s, k, {')'}, e);
    assert IsNextOpenBracket(s, k) == Ok(false);
    match FindFrom(s, e + 1, Brackets)
    case None =>
      assert StepAt(s, k) == Err(IndexError);
    case Some(j) =>
      assert StepAt(s, k) == Ok(Move(Shift, Some(j)));
  }

  // ---------------------------------------------------------------------------
  // get_actions on a rendered tree

  /** What the scan does after finishing a subtree whose last character is at
      `e`: stop if that `)` closed a phrase at the end of the line, otherwise
      move to the next bracket. */
  function After(s: string, e: nat, shifted: bool): Result<seq<Action>> {
    if !shifted && e + 1 == |s| then Ok([])
    else match FindFrom(s, e + 1, Brackets)
      case None => Err(IndexError)
      case Some(j) => ActionsFrom(s, j)
  }

  lemma {:induction false} ReduceStep(s: string, e: nat)
    requires e < |s| && s[e] == ')'
    ensures ActionsFrom(s, e) == Then([Reduce], After(s, e, false))
  {
    if e + 1 < |s| {
      match FindFrom(s, e + 1, Brackets)
      case None =>
        assert StepAt(s, e) == Err(IndexError);
      case Some(j) =>
        assert StepAt(s, e) == Ok(Move(Reduce, Some(j)));
    } else {
      assert StepAt(s, e) == Ok(Move(Reduce, None));
      assert [Reduce] + [] == [Reduce];
    }
  }

  /** Scanning a canonical subtree that starts at `k` and ends at `e` emits
      its pre-order walk, then carries on after it. */
  lemma {:induction false} ScanTree(s: string, k: nat, t: Tree, e: nat)
    requires IsCanonical(t) && At(s, k, Render(t)) && e + 1 == k + |Render(t)|
    ensures ActionsFrom(s, k) == Then(PreOrder(t), After(s, e, IsTerminal(t)))
    decreases t, 1
  {
    if IsTerminal(t) {
      TerminalStep(s, k, t);
    } else {
      ScanPhrase(s, k, t, e);
    }
  }

  lemma {:induction false} ScanPhrase(s: string, k: nat, t: Tree, e: nat)
    requires IsPhrase(t) && At(s, k, Render(t)) && e + 1 == k + |Render(t)|
    ensures ActionsFrom(s, k) == Then(PreOrder(t), After(s, e, false))
    decreases t, 0
  {
    var l, cs := t.name, t.children;
    var q := k + 2 + |l|;
    PhraseLayout(s, k, t, e);
    var open, first, close, rest := ActionsFrom(s, k), ActionsFrom(s, q), ActionsFrom(s, e), After(s, e, false);
    assert open == Then([NT(l)], first) by {
      PhraseOpens(s, k, t);
    }
    assert first == Then(PreOrderChildren(cs), close) by {
      ScanChildren(s, q, cs, e);
    }
    assert close == Then([Reduce], rest) by {
      ReduceStep(s, e);
    }
    ThenChain(open, first, close, rest, [NT(l)], PreOrderChildren(cs), [Reduce]);
  }

  /** A rendered phrase at `k` ending at `e`: its children sit between the
      label and the closing bracket, and its walk wraps theirs. */
  lemma {:induction false} PhraseLayout(s: string, k: nat, t: Tree, e: nat)
    requires IsPhrase(t) && At(s, k, Render(t)) && e + 1 == k + |Render(t)|
    ensures var q := k + 2 + |t.name|;
      && At(s, q - 1, RenderChildren(t.children))
      && e == q - 1 + |RenderChildren(t.children)| && e < |s| && s[e] == ')'
      && (forall j :: 0 <= j < |t.children| ==> IsCanonical(t.children[j]))
      && PreOrder(t) == [NT(t.name)] + PreOrderChildren(t.children) + [Reduce]
  {
    AtNode(s, k, t);
    assert !IsPreterminal(t) by {
      assert IsTerminal(t.children[0]) || IsPhrase(t.children[0]);
    }
  }

  /** Where the first rendered child ends and where the scan goes next. */
  lemma {:induction false} ChildrenLayout(s: string, p: nat, cs: seq<Tree>)
    requires |cs| > 0 && At(s, p, RenderChildren(cs))
    requires forall k :: 0 <= k < |cs| ==> cs[k].Node?
    requires p + |RenderChildren(cs)| < |s| && s[p + |RenderChildren(cs)|] == ')'
    ensures At(s, p + 1, Render(cs[0]))
    ensures var e0 := p + |Render(cs[0])|;
      && e0 + 1 < |s|
      && (|cs| == 1 ==> e0 + 1 == p + |RenderChildren(cs)| && FindFrom(s, e0 + 1, Brackets) == Some(e0 + 1))
      && (|cs| > 1 ==> At(s, e0 + 1, RenderChildren(cs[1..])) &&
                       e0 + 1 + |RenderChildren(cs[1..])| == p + |RenderChildren(cs)| &&
                       FindFrom(s, e0 + 1, Brackets) == Some(e0 + 2))
  {
    var r0, rc, rest := Render(cs[0]), RenderChildren(cs), RenderChildren(cs[1..]);
    AtChildren(s, p, cs);
    if |cs| == 1 {
      assert rest == "" by { assert cs[1..] == []; }
      LastChildCloses(s, p, r0, rc);
    } else {
      ChildrenStartOpen(cs[1..]);
      NextChildOpens(s, p + |r0| + 1, rest);
    }
  }

  /** Rendered children of nodes begin with a space and a `(`. */
  lemma {:induction false} ChildrenStartOpen(cs: seq<Tree>)
    requires |cs| > 0 && forall k :: 0 <= k < |cs| ==> cs[k].Node?
    ensures |RenderChildren(cs)| > 1
    ensures RenderChildren(cs)[0] == ' ' && RenderChildren(cs)[1] == '('
  {
    RenderNodeStartsOpen(cs[0]);
    assert RenderChildren(cs) == " " + Render(cs[0]) + RenderChildren(cs[1..]);
  }

  /** After the last child comes the phrase's `)`, the next bracket. */
  lemma {:induction false} LastChildCloses(s: string, p: nat, r0: string, rc: string)
    requires |rc| == 1 + |r0| && p + |rc| < |s| && s[p + |rc|] == ')'
    ensures p + |r0| + 1 == p + |rc|
    ensures FindFrom(s, p + |r0| + 1, Brackets) == Some(p + |r0| + 1)
  {
    FindFromAt(s, p + |rc|, Brackets, p + |rc|);
  }

  /** Where the next child's space and `(` sit, the next bracket is that `(`. */
  lemma {:induction false} NextChildOpens(s: string, j: nat, rest: string)
    requires At(s, j, rest) && |rest| > 1 && rest[0] == ' ' && rest[1] == '('
    ensures j + 1 < |s|
    ensures FindFrom(s, j, Brackets) == Some(j + 1)
  {
    AtChar(s, j, rest, 0);
    AtChar(s, j, rest, 1);
    FindFromAt(s, j, Brackets, j + 1);
  }

  /** After a subtree that is followed by more of the line, the scan resumes
      at the next bracket. */
  lemma {:induction false} AfterNext(s: string, e: nat, shifted: bool, j: nat)
    requires e + 1 < |s| && FindFrom(s, e + 1, Brackets) == Some(j)
    ensures After(s, e, shifted) == ActionsFrom(s, j)
  {
  }

  /** Scanning the rendered children of a phrase (each after a space), from
      the first child's `(` at `q`, emits their walks in order and arrives at
      the phrase's `)` at `close`. */
  lemma {:induction false} ScanChildren(s: string, q: nat, cs: seq<Tree>, close: nat)
    requires |cs| > 0 && forall k :: 0 <= k < |cs| ==> IsCanonical(cs[k])
    requires q > 0 && At(s, q - 1, RenderChildren(cs))
    requires close == q - 1 + |RenderChildren(cs)| && close < |s| && s[close] == ')'
    ensures ActionsFrom(s, q) == Then(PreOrderChildren(cs), ActionsFrom(s, close))
    decreases cs, 0
  {
    // The layout facts come first, so that they are settled before any
    // scanner term enters the context.
    var c, tail := cs[0], cs[1..];
    var p := q - 1;
    var e0 := p + |Render(c)|;
    assert forall k :: 0 <= k < |cs| ==> cs[k].Node?;
    ChildrenLayout(s, p, cs);
    assert IsCanonical(c) && At(s, q, Render(c)) && e0 + 1 == q + |Render(c)|;
    assert PreOrderChildren(cs) == PreOrder(c) + PreOrderChildren(tail);
    if |cs| == 1 {
      assert PreOrderChildren(tail) == [];
      assert PreOrder(c) + [] == PreOrder(c);
      assert e0 + 1 == close && FindFrom(s, e0 + 1, Brackets) == Some(close);
      AfterNext(s, e0, IsTerminal(c), close);
      ScanTree(s, q, c, e0);
    } else {
      var q' := e0 + 2;
      assert forall k :: 0 <= k < |tail| ==> IsCanonical(tail[k]) by {
        forall k | 0 <= k < |tail| ensures IsCanonical(tail[k]) {
          assert tail[k] == cs[k + 1];
        }
      }
      assert At(s, q' - 1, RenderChildren(tail)) && close == q' - 1 + |RenderChildren(tail)|;
      assert e0 + 1 < |s| && FindFrom(s, e0 + 1, Brackets) == Some(q');
      ScanChildren(s, q', tail, close);
      AfterNext(s, e0, IsTerminal(c), q');
      ScanTree(s, q, c, e0);
      ThenThen(PreOrder(c), PreOrderChildren(tail), ActionsFrom(s, close));
    }
  }

  /** `get_actions` on a canonical tree is its pre-order walk. For example
      `(S (NP (DT the) (NN dog)) (VP (VBZ runs)))` gives NT(S) NT(NP) SHIFT
      SHIFT REDUCE NT(VP) SHIFT REDUCE REDUCE. */
  lemma {:induction false} GetActionsOfTree(t: Tree)
    requires IsPhrase(t)
    ensures GetActions(Render(t)) == Ok(PreOrder(t))
  {
    var s := Render(t);
    assert At(s, 0, s);
    AtNode(s, 0, t);
    assert RStrip(s) == s;
    assert After(s, |s| - 1, false) == Ok([]);
    ScanTree(s, 0, t, |s| - 1);
    assert PreOrder(t) + [] == PreOrder(t);
  }

  // ---------------------------------------------------------------------------
  // get_tags_tokens_lowercase on a rendered tree

  lemma {:induction false} TerminalsSkip(s: string, a: nat, b: nat)
    requires a <= b <= |s|
    requires forall m :: a <= m < b ==> s[m] != '('
    ensures TerminalsFrom(s, a) == TerminalsFrom(s, b)
    decreases b - a
  {
    if a < b {
      TerminalsSkip(s, a + 1, b);
    }
  }

  /** The tag scanner over a canonical subtree that spans `k` up to `n`
      collects `TAG word` for each of its preterminals. */
  lemma {:induction false} TermsTree(s: string, k: nat, t: Tree, n: nat)
    requires IsCanonical(t) && At(s, k, Render(t)) && n == k + |Render(t)|
    ensures TerminalsFrom(s, k) == Then(Texts(TerminalPairs(t)), TerminalsFrom(s, n))
    decreases t, 1
  {
    if IsTerminal(t) {
      TermsTerminal(s, k, t, n);
    } else {
      TermsPhrase(s, k, t, n);
    }
  }

  lemma {:induction false} TermsTerminal(s: string, k: nat, t: Tree, n: nat)
    requires IsCanonical(t) && IsTerminal(t) && At(s, k, Render(t)) && n == k + |Render(t)|
    ensures TerminalsFrom(s, k) == Then(Texts(TerminalPairs(t)), TerminalsFrom(s, n))
  {
    var text := t.name + " " + t.children[0].word;
    assert Texts(TerminalPairs(t)) == [text] by {
      assert TerminalPairs(t) == [(t.name, t.children[0].word)];
    }
    AtTerminal(s, k, t);
    TermStepAt(s, k, n - 1);
  }

  /** The tag scanner at a `(` whose next bracket is the `)` at `e` collects
      the text between them and goes on after `e`. */
  lemma {:induction false} TermStepAt(s: string, k: nat, e: nat)
    requires k < e < |s| && s[k] == '(' && s[e] == ')'
    requires forall m :: k < m < e ==> s[m] !in Brackets
    ensures TerminalsFrom(s, k) == Then([s[k + 1..e]], TerminalsFrom(s, e + 1))
  {
    assert IsNextOpenBracket(s, k) == Ok(false) by {
      FindFromAt(s, k + 1, Brackets, e);
    }
    assert GetBetweenBrackets(s, k) == Ok(s[k + 1..e]) by {
      FindFromAt(s, k + 1, Brackets, e);
    }
    TerminalsSkip(s, k + 1, e + 1);
  }

  lemma {:induction false} TermsPhrase(s: string, k: nat, t: Tree, n: nat)
    requires IsCanonical(t) && !IsTerminal(t) && At(s, k, Render(t)) && n == k + |Render(t)|
    ensures TerminalsFrom(s, k) == Then(Texts(TerminalPairs(t)), TerminalsFrom(s, n))
    decreases t, 0
  {
    var e := n - 1;
    var l, cs := t.name, t.children;
    var p := k + 1 + |l|;
    assert p + |RenderChildren(cs)| == e && At(s, p, RenderChildren(cs)) && s[e] == ')' by {
      AtNode(s, k, t);
    }
    assert TerminalPairs(t) == TerminalPairsChildren(cs) by {
      assert IsPhrase(t) && (IsTerminal(cs[0]) || IsPhrase(cs[0]));
    }
    PhraseTermsStart(s, k, t);
    assert TerminalsFrom(s, e) == TerminalsFrom(s, n) by {
      TerminalsSkip(s, e, n);
    }
    assert TerminalsFrom(s, p) == Then(Texts(TerminalPairsChildren(cs)), TerminalsFrom(s, e)) by {
      TermsChildren(s, p, cs, e);
    }
  }

  /** The tag scanner passes over a phrase's `(` and label. */
  lemma {:induction false} PhraseTermsStart(s: string, k: nat, t: Tree)
    requires IsPhrase(t) && At(s, k, Render(t))
    ensures TerminalsFrom(s, k) == TerminalsFrom(s, k + 1 + |t.name|)
  {
    var p := k + 1 + |t.name|;
    AtPhrase(s, k, t);
    assert IsNextOpenBracket(s, k) == Ok(true) by {
      FindFromAt(s, k + 1, Brackets, p + 1);
    }
    assert TerminalsFrom(s, k) == TerminalsFrom(s, k + 1);
    TerminalsSkip(s, k + 1, p);
  }

  lemma {:induction false} TermsChildren(s: string, p: nat, cs: seq<Tree>, n: nat)
    requires forall k :: 0 <= k < |cs| ==> IsCanonical(cs[k])
    requires At(s, p, RenderChildren(cs)) && n == p + |RenderChildren(cs)|
    ensures TerminalsFrom(s, p) == Then(Texts(TerminalPairsChildren(cs)), TerminalsFrom(s, n))
    decreases cs, 0
  {
    if |cs| == 0 {
      assert Texts(TerminalPairsChildren(cs)) == [];
      var r := TerminalsFrom(s, p);
      if r.Ok? {
        assert [] + r.value == r.value;
      }
    } else {
      var c, tail := cs[0], cs[1..];
      var m := p + 1 + |Render(c)|;
      assert At(s, p + 1, Render(c)) && s[p] == ' ' && At(s, m, RenderChildren(tail)) && n == m + |RenderChildren(tail)| by {
        AtChildren(s, p, cs);
      }
      assert forall k :: 0 <= k < |tail| ==> IsCanonical(tail[k]) by {
        forall k | 0 <= k < |tail| ensures IsCanonical(tail[k]) {
          assert tail[k] == cs[k + 1];
        }
      }
      assert TerminalsFrom(s, p) == TerminalsFrom(s, p + 1) by {
        TerminalsSkip(s, p, p + 1);
      }
      assert TerminalsFrom(s, p + 1) == Then(Texts(TerminalPairs(c)), TerminalsFrom(s, m)) by {
        assert IsCanonical(c);
        TermsTree(s, p + 1, c, m);
      }
      assert TerminalsFrom(s, m) == Then(Texts(TerminalPairsChildren(tail)), TerminalsFrom(s, n)) by {
        TermsChildren(s, m, tail, n);
      }
      assert Texts(TerminalPairsChildren(cs)) == Texts(TerminalPairs(c)) + Texts(TerminalPairsChildren(tail)) by {
        assert TerminalPairsChildren(cs) == TerminalPairs(c) + TerminalPairsChildren(tail);
        TextsAppend(TerminalPairs(c), TerminalPairsChildren(tail));
      }
      ThenThen(Texts(TerminalPairs(c)), Texts(TerminalPairsChildren(tail)), TerminalsFrom(s, n));
    }
  }

  /** A terminal line splits back into its tag and its word. */
  lemma {:induction false} SplitPair(tag: string, word: string)
    requires IsWord(tag) && IsWord(word)
    ensures Split(tag + " " + word) == [tag, word]
  {
    assert Join(" ", [tag, word]) == tag + " " + word by {
      assert [tag, word][1..] == [word];
    }
    SplitJoin([tag, word]);
  }

  lemma {:induction false} SplitTexts(ps: seq<(string, string)>)
    requires forall k :: 0 <= k < |ps| ==> IsWord(ps[k].0) && IsWord(ps[k].1)
    ensures SplitTerminals(Texts(ps)) == Ok(PreambleOf(ps))
  {
    var ts := Texts(ps);
    forall k | 0 <= k < |ts| ensures Split(ts[k]) == [ps[k].0, ps[k].1] {
      SplitPair(ps[k].0, ps[k].1);
    }
    var r := SplitTerminals(ts);
    assert r.Ok?;
    var p := PreambleOf(ps);
    assert r.value.tags == p.tags;
    assert r.value.tokens == p.tokens;
    assert r.value.lowercase == p.lowercase;
  }

  lemma {:induction false} TerminalPairsAreWords(t: Tree)
    requires IsCanonical(t)
    ensures forall k :: 0 <= k < |TerminalPairs(t)| ==>
      IsToken(TerminalPairs(t)[k].0) && IsToken(TerminalPairs(t)[k].1)
    decreases t, 1
  {
    if !IsTerminal(t) {
      TerminalPairsChildrenAreWords(t.children);
    }
  }

  lemma {:induction false} TerminalPairsChildrenAreWords(cs: seq<Tree>)
    requires forall k :: 0 <= k < |cs| ==> IsCanonical(cs[k])
    ensures forall k :: 0 <= k < |TerminalPairsChildren(cs)| ==>
      IsToken(TerminalPairsChildren(cs)[k].0) && IsToken(TerminalPairsChildren(cs)[k].1)
    decreases cs, 0
  {
    if |cs| > 0 {
      TerminalPairsAreWords(cs[0]);
      TerminalPairsChildrenAreWords(cs[1..]);
    }
  }

  /** `get_tags_tokens_lowercase` on a canonical tree lists the tag and the
      word of each preterminal, left to right, with the word lowercased. */
  lemma {:induction false} GetTagsOfTree(t: Tree)
    requires IsPhrase(t)
    ensures GetTagsTokensLowercase(Render(t)) == Ok(PreambleOf(TerminalPairs(t)))
  {
    var s := Render(t);
    assert At(s, 0, s);
    AtNode(s, 0, t);
    assert RStrip(s) == s;
    TermsTree(s, 0, t, |s|);
    assert TerminalsFrom(s, |s|) == Ok([]);
    assert Texts(TerminalPairs(t)) + [] == Texts(TerminalPairs(t));
    TerminalPairsAreWords(t);
    SplitTexts(TerminalPairs(t));
  }
}

=== FILE: penn_treebank.dfy ===
/** The tree normalisation of the Penn Treebank reader: function labels are
    cut at the first `-`, `=` or `|`, and null elements (preterminals tagged
    `-NONE-`) are pruned together with every node they leave empty. */
module PennTreebank {
  import opened Base
  import opened Trees
  import opened FunctionLabels

  const NullTag: string := "-NONE-"

  /** The characters that start a grammatical-function suffix. */
  const Separators: set<char> := {'-', '=', '|'}

  /** `_strip_function_labels`: every label cut, nothing else changed. */
  function StripFunctionLabels(t: Tree): (r: Tree)
    ensures SameShape(t, r) && Yield(r) == Yield(t)
    ensures Labels(r) == CutAll(Labels(t), Separators)
  {
    StripLabelsSpec(t, Separators);
    SameShapeYield(t, StripLabels(t, Separators));
    StripLabels(t, Separators)
  }

  /** The null tag is never cut: its separator is its first character. */
  lemma {:induction false} NullTagKept()
    ensures CutLabel(NullTag, Separators) == NullTag
  {
    assert NullTag[0] == '-';
  }

  // ---------------------------------------------------------------------------
  // _remove_null_elements

  /** `_remove_null_elements`. A preterminal is kept unless tagged `-NONE-`;
      any other node keeps the surviving results of its children, in order, and
      disappears when none survive. A bare word reached as a child that is not
      a preterminal's only child is itself walked as a tree: an empty word has
      nothing to walk, any other word fails because a string has no label. */
  function RemoveNullElements(t: Tree): Result<Option<Tree>>
    decreases t, 1
  {
    match t
    case Leaf(w) => if w == "" then Ok(None) else Err(AttributeError)
    case Node(l, cs) =>
      if |cs| == 1 && cs[0].Leaf? then Ok(if l == NullTag then None else Some(t))
      else
        match RemoveNullChildren(cs)
        case Err(e) => Err(e)
        case Ok(kept) => Ok(if |kept| == 0 then None else Some(Node(l, kept)))
  }

  /** The children loop: each child in order, the first failure propagating. */
  function RemoveNullChildren(cs: seq<Tree>): Result<seq<Tree>>
    decreases cs, 0
  {
    if |cs| == 0 then Ok([])
    else
      match RemoveNullElements(cs[0])
      case Err(e) => Err(e)
      case Ok(o) =>
        match RemoveNullChildren(cs[1..])
        case Err(e) => Err(e)
        case Ok(rest) => Ok((if o.Some? then [o.value] else []) + rest)
  }

  /** A non-empty word that the walk reaches as a tree of its own. */
  predicate HasStrayWord(t: Tree)
    decreases t, 1
  {
    match t
    case Leaf(w) => w != ""
    case Node(_, cs) => !(|cs| == 1 && cs[0].Leaf?) && StrayInChildren(cs)
  }

  predicate StrayInChildren(cs: seq<Tree>)
    decreases cs, 0
  {
    |cs| > 0 && (HasStrayWord(cs[0]) || StrayInChildren(cs[1..]))
  }

  /** The walk fails exactly on trees with a stray word, and then with the
      missing-attribute error. */
  lemma {:induction false} RemoveNullFails(t: Tree)
    ensures RemoveNullElements(t).Err? <==> HasStrayWord(t)
    ensures RemoveNullElements(t).Err? ==> RemoveNullElements(t).error == AttributeError
    decreases t, 1
  {
    if t.Node? && !(|t.children| == 1 && t.children[0].Leaf?) {
      RemoveNullChildrenFails(t.children);
    }
  }

  lemma {:induction false} RemoveNullChildrenFails(cs: seq<Tree>)
    ensures RemoveNullChildren(cs).Err? <==> StrayInChildren(cs)
    ensures RemoveNullChildren(cs).Err? ==> RemoveNullChildren(cs).error == AttributeError
    decreases cs, 0
  {
    if |cs| > 0 {
      RemoveNullFails(cs[0]);
      RemoveNullChildrenFails(cs[1..]);
    }
  }

  /** The words of the preterminals not tagged `-NONE-`, left to right. */
  function KeptWords(t: Tree): seq<string>
    decreases t, 1
  {
    match t
    case Leaf(_) => []
    case Node(l, cs) =>
      if |cs| == 1 && cs[0].Leaf? then (if l == NullTag then [] else [cs[0].word])
      else KeptWordsChildren(cs)
  }

  function KeptWordsChildren(cs: seq<Tree>): seq<string>
    decreases cs, 0
  {
    if |cs| == 0 then [] else KeptWords(cs[0]) + KeptWordsChildren(cs[1..])
  }

  /** What survives: a tree comes back exactly when some preterminal is not a
      null element, and its words are the surviving preterminals' words in
      their original order. */
  lemma {:induction false} RemoveNullYield(t: Tree)
    requires RemoveNullElements(t).Ok?
    ensures RemoveNullElements(t).value.Some? <==> KeptWords(t) != []
    ensures RemoveNullElements(t).value.Some? ==> Yield(RemoveNullElements(t).value.value) == KeptWords(t)
    decreases t, 1
  {
    match t
    case Leaf(_) =>
    case Node(l, cs) =>
      if !(|cs| == 1 && cs[0].Leaf?) {
        RemoveNullChildrenYield(cs);
        var kept := RemoveNullChildren(cs).value;
        assert KeptWords(t) == KeptWordsChildren(cs);
        if kept != [] {
          assert RemoveNullElements(t) == Ok(Some(Node(l, kept)));
          assert Yield(Node(l, kept)) == YieldChildren(kept);
        }
      } else {
        assert YieldChildren(cs) == Yield(cs[0]) + YieldChildren(cs[1..]);
      }
  }

  lemma {:induction false} RemoveNullChildrenYield(cs: seq<Tree>)
    requires RemoveNullChildren(cs).Ok?
    ensures YieldChildren(RemoveNullChildren(cs).value) == KeptWordsChildren(cs)
    ensures RemoveNullChildren(cs).value == [] <==> KeptWordsChildren(cs) == []
    decreases cs, 0
  {
    if |cs| > 0 {
      RemoveNullYield(cs[0]);
      RemoveNullChildrenYield(cs[1..]);
      var o := RemoveNullElements(cs[0]).value;
      var rest := RemoveNullChildren(cs[1..]).value;
      var kept := RemoveNullChildren(cs).value;
      if o.Some? {
        assert kept == [o.value] + rest;
        assert kept[0] == o.value && kept[1..] == rest;
      } else {
        assert kept == rest;
      }
    }
  }

  /** A tree the pruning leaves as it is: preterminals not tagged `-NONE-`,
      and above them nodes whose children are all such trees. */
  predicate Pruned(t: Tree)
    decreases t, 1
  {
    match t
    case Leaf(_) => false
    case Node(l, cs) =>
      if |cs| == 1 && cs[0].Leaf? then l != NullTag else PrunedChildren(cs) && |cs| > 0
  }

  predicate PrunedChildren(cs: seq<Tree>)
    decreases cs, 0
  {
    |cs| == 0 || (Pruned(cs[0]) && PrunedChildren(cs[1..]))
  }

  /** Whatever the pruning returns is pruned: no `-NONE-` preterminal and no
      empty node is left. */
  lemma {:induction false} RemoveNullPruned(t: Tree)
    requires RemoveNullElements(t).Ok? && RemoveNullElements(t).value.Some?
    ensures Pruned(RemoveNullElements(t).value.value)
    decreases t, 1
  {
    match t
    case Leaf(_) =>
    case Node(l, cs) =>
      if !(|cs| == 1 && cs[0].Leaf?) {
        RemoveNullChildrenPruned(cs);
        var kept := RemoveNullChildren(cs).value;
        assert !(|kept| == 1 && kept[0].Leaf?) by {
          if |kept| == 1 {
            assert PrunedChildren(kept);
          }
        }
      }
  }

  lemma {:induction false} RemoveNullChildrenPruned(cs: seq<Tree>)
    requires RemoveNullChildren(cs).Ok?
    ensures PrunedChildren(RemoveNullChildren(cs).value)
    decreases cs, 0
  {
    if |cs| > 0 {
      var o := RemoveNullElements(cs[0]).value;
      var rest := RemoveNullChildren(cs[1..]).value;
      var kept := RemoveNullChildren(cs).value;
      RemoveNullChildrenPruned(cs[1..]);
      if o.Some? {
        RemoveNullPruned(cs[0]);
        assert kept[0] == o.value && kept[1..] == rest;
      } else {
        assert kept == rest;
      }
    }
  }

  /** A pruned tree comes back unchanged. */
  lemma {:induction false} PrunedFixed(t: Tree)
    requires Pruned(t)
    ensures RemoveNullElements(t) == Ok(Some(t))
    decreases t, 1
  {
    match t
    case Node(l, cs) =>
      if !(|cs| == 1 && cs[0].Leaf?) {
        PrunedChildrenFixed(cs);
      }
  }

  lemma {:induction false} PrunedChildrenFixed(cs: seq<Tree>)
    requires PrunedChildren(cs)
    ensures RemoveNullChildren(cs) == Ok(cs)
    decreases cs, 0
  {
    if |cs| > 0 {
      PrunedFixed(cs[0]);
      PrunedChildrenFixed(cs[1..]);
      assert cs == [cs[0]] + cs[1..];
    }
  }

  /** Pruning twice is pruning once. */
  lemma {:induction false} RemoveNullIdempotent(t: Tree)
    requires RemoveNullElements(t).Ok? && RemoveNullElements(t).value.Some?
    ensures RemoveNullElements(RemoveNullElements(t).value.value) == RemoveNullElements(t)
  {
    RemoveNullPruned(t);
    PrunedFixed(RemoveNullElements(t).value.value);
  }

  /** `(VP (VB left) (NP-SBJ (-NONE- *)))` loses its null subject. */
  lemma {:induction false} RemoveNullExample()
    ensures RemoveNullElements(
              Node("VP", [Node("VB", [Leaf("left")]),
                          Node("NP-SBJ", [Node(NullTag, [Leaf("*")])])]))
         == Ok(Some(Node("VP", [Node("VB", [Leaf("left")])])))
  {
    var vb := Node("VB", [Leaf("left")]);
    var nul := Node(NullTag, [Leaf("*")]);
    var np := Node("NP-SBJ", [nul]);
    assert RemoveNullElements(nul) == Ok(None);
    assert [nul][0] == nul && [nul][1..] == [];
    assert RemoveNullChildren([]) == Ok([]);
    assert RemoveNullChildren([nul]).value == [];
    assert RemoveNullElements(np) == Ok(None);
    assert [vb, np][0] == vb && [vb, np][1..] == [np];
    assert RemoveNullElements(vb) == Ok(Some(vb));
    assert [np][0] == np && [np][1..] == [];
    assert RemoveNullChildren([np]).value == [];
    assert RemoveNullChildren([vb, np]).value == [vb];
  }

  /** Pruning keeps whole subtrees and the labels above them, so a tree with
      whitespace-free words and labels prunes to one. */
  lemma {:induction false} RemoveNullSpaceless(t: Tree)
    requires Spaceless(t)
    ensures RemoveNullElements(t).Ok? && RemoveNullElements(t).value.Some? ==>
      Spaceless(RemoveNullElements(t).value.value)
    decreases t, 1
  {
    match t
    case Leaf(_) =>
    case Node(l, cs) =>
      if !(|cs| == 1 && cs[0].Leaf?) {
        RemoveNullChildrenSpaceless(cs);
      }
  }

  lemma {:induction false} RemoveNullChildrenSpaceless(cs: seq<Tree>)
    requires SpacelessChildren(cs)
    ensures RemoveNullChildren(cs).Ok? ==> SpacelessChildren(RemoveNullChildren(cs).value)
    decreases cs, 0
  {
    if |cs| > 0 && RemoveNullChildren(cs).Ok? {
      RemoveNullSpaceless(cs[0]);
      RemoveNullChildrenSpaceless(cs[1..]);
      var rest := RemoveNullChildren(cs[1..]).value;
      var kept := RemoveNullChildren(cs).value;
      match RemoveNullElements(cs[0]).value
      case None =>
        assert kept == rest;
      case Some(d) =>
        assert kept[0] == d && kept[1..] == rest;
    }
  }
}

=== FILE: preprocess.dfy ===
/** `_preprocess_sentence` of the two treebank readers: the tree passes
    composed, and the one-line text written for what they return. When null
    pruning leaves nothing, the passes return Python's `None`, and the text
    written is `str(None)`, the word `None`. */
module Preprocess {
  import opened Base
  import opened Trees
  import TreebankText
  import PennTreebank
  import IdnTreebank
  import opened FunctionLabels

  /** `str(x)` of what the passes return: the rendering of a tree, or `None`. */
  function Printed(x: Option<Tree>): string {
    match x
    case None => "None"
    case Some(t) => Render(t)
  }

  /** The tree passes of the Penn Treebank `_preprocess_sentence`, on the tree
      `Tree.fromstring` parsed: prune null elements, then cut function labels
      (`None` passes through, being no `Tree`). */
  function PennTree(t: Tree): Result<Option<Tree>> {
    match PennTreebank.RemoveNullElements(t)
    case Err(e) => Err(e)
    case Ok(pruned) =>
      Ok(if pruned.Some? then Some(PennTreebank.StripFunctionLabels(pruned.value)) else None)
  }

  /** The Penn Treebank `_preprocess_sentence`: the tree passes, then the
      squeezed text of what they return. */
  function PennSentence(t: Tree): Result<string> {
    match PennTree(t)
    case Err(e) => Err(e)
    case Ok(x) => Ok(TreebankText.SqueezeLine(Printed(x)))
  }

  /** The tree passes of the Indonesian Treebank `_preprocess_sentence`, on
      the tree `Tree.fromstring` parsed inside `_to_tree`: join word units,
      cut function labels, prune null elements. */
  function IdnTree(t: Tree): Result<Option<Tree>> {
    match IdnTreebank.CombineMultiword(t)
    case Err(e) => Err(e)
    case Ok(c) => Ok(IdnTreebank.RemoveNullElements(IdnTreebank.StripFunctionLabels(c)))
  }

  /** The Indonesian Treebank `_preprocess_sentence`: the tree passes, then
      the squeezed text of what they return. */
  function IdnSentence(t: Tree): Result<string> {
    match IdnTree(t)
    case Err(e) => Err(e)
    case Ok(x) => Ok(TreebankText.SqueezeLine(Printed(x)))
  }

  // ---------------------------------------------------------------------------
  // Squeezed texts

  lemma {:induction false} SqueezeNone()
    ensures TreebankText.SqueezeLine("None") == "None"
  {
    SqueezeRendered(Leaf("None"));
  }

  /** Stripping keeps a leading `(`. */
  lemma {:induction false} StripOpen(s: string)
    requires |s| > 0 && s[0] == '('
    ensures |Strip(s)| > 0 && Strip(s)[0] == '('
  {
    var r := RStrip(s);
    assert !IsSpace(s[0]);
    assert |r| > 0 && r[0] == '(';
    var l := LStrip(r);
    assert |r| - |l| == 0;
    assert l == r;
  }

  /** The squeezed text of a bracketed tree keeps its `(`, so it is never
      the word `None`. */
  lemma {:induction false} SqueezedTree(t: Tree)
    requires t.Node?
    ensures '(' in TreebankText.SqueezeLine(Render(t))
    ensures TreebankText.SqueezeLine(Render(t)) != "None"
  {
    var s := Render(t);
    assert s[0] == '(';
    StripOpen(s);
    var n := TreebankText.RemoveChar(Strip(s), '\n');
    assert n[0] == '(';
    var r := TreebankText.SqueezeLine(s);
    assert TreebankText.RemoveChar(r, ' ') == TreebankText.RemoveChar(n, ' ');
    assert '(' in TreebankText.RemoveChar(r, ' ');
  }

  /** A non-empty one-line text with no surrounding whitespace and no run of
      spaces: what squeezing leaves alone. */
  predicate Tidy(s: string) {
    && 0 < |s| && !IsSpace(s[0]) && !IsSpace(s[|s| - 1])
    && TreebankText.NoDoubleSpace(s) && '\n' !in s
  }

  lemma {:induction false} TidyCat(a: string, b: string)
    requires Tidy(a) && Tidy(b)
    ensures Tidy(a + b)
  {
    var s := a + b;
    forall i | 0 <= i < |s| - 1
      ensures !(s[i] == ' ' && s[i + 1] == ' ')
    {
      if i + 1 < |a| {
        assert s[i] == a[i] && s[i + 1] == a[i + 1];
      } else if i + 1 == |a| {
        assert s[i] == a[|a| - 1];
      } else {
        assert s[i] == b[i - |a|] && s[i + 1] == b[i - |a| + 1];
      }
    }
  }

  lemma {:induction false} TidySpace(a: string, b: string)
    requires Tidy(a) && Tidy(b)
    ensures Tidy(a + " " + b)
  {
    var s := a + " " + b;
    forall i | 0 <= i < |s| - 1
      ensures !(s[i] == ' ' && s[i + 1] == ' ')
    {
      if i + 1 < |a| {
        assert s[i] == a[i] && s[i + 1] == a[i + 1];
      } else if i + 1 == |a| {
        assert s[i] == a[|a| - 1];
      } else if i == |a| {
        assert s[i + 1] == b[0];
      } else {
        assert s[i] == b[i - |a| - 1] && s[i + 1] == b[i - |a|];
      }
    }
    assert '\n' !in a + " ";
  }

  /** The rendering of a tree with whitespace-free words and labels is tidy. */
  lemma {:induction false} RenderTidy(t: Tree)
    requires Spaceless(t)
    ensures Tidy(Render(t))
    decreases t, 1
  {
    match t
    case Leaf(w) =>
      assert forall i :: 0 <= i < |w| ==> !IsSpace(w[i]);
    case Node(l, cs) =>
      var p := "(" + l;
      assert Tidy(p) by {
        assert forall i :: 0 < i < |p| ==> p[i] == l[i - 1];
      }
      ChildrenTidy(p, cs);
      assert Tidy(")");
      TidyCat(p + RenderChildren(cs), ")");
  }

  /** A tidy text followed by the renderings of such children, each after one
      space, stays tidy. */
  lemma {:induction false} ChildrenTidy(p: string, cs: seq<Tree>)
    requires Tidy(p) && SpacelessChildren(cs)
    ensures Tidy(p + RenderChildren(cs))
    decreases cs, 0
  {
    if |cs| == 0 {
      assert p + RenderChildren(cs) == p;
    } else {
      var q, r := Render(cs[0]), RenderChildren(cs[1..]);
      assert Tidy(p + " " + q) by {
        RenderTidy(cs[0]);
        TidySpace(p, q);
      }
      assert Tidy(p + " " + q + r) by {
        ChildrenTidy(p + " " + q, cs[1..]);
      }
      assert p + RenderChildren(cs) == p + " " + q + r by {
        assert RenderChildren(cs) == " " + q + r;
      }
    }
  }

  /** Squeezing the rendering of a tree with whitespace-free words and labels
      gives that rendering back. */
  lemma {:induction false} SqueezeRendered(t: Tree)
    requires Spaceless(t)
    ensures TreebankText.SqueezeLine(Render(t)) == Render(t)
  {
    var s := Render(t);
    RenderTidy(t);
    StripStripped(s);
    TreebankText.RemoveAbsent(s, '\n');
    TreebankText.CollapseFixed(s);
  }

  // ---------------------------------------------------------------------------
  // What the readers yield

  /** The squeezed text of a pass result that is a bracketed tree or `None`
      is the word `None` exactly for `None`, and otherwise holds `(`. */
  lemma {:induction false} PrintedOutcome(x: Option<Tree>)
    requires x.Some? ==> x.value.Node?
    ensures TreebankText.SqueezeLine(Printed(x)) == "None" <==> x.None?
    ensures x.Some? ==> '(' in TreebankText.SqueezeLine(Printed(x))
  {
    if x.Some? {
      SqueezedTree(x.value);
    } else {
      SqueezeNone();
    }
  }

  /** The Penn Treebank reader fails exactly on a tree with a stray word. It
      yields the sentence `None` exactly when every preterminal is a null
      element; otherwise it yields a bracketed text. */
  lemma {:induction false} PennSentenceOutcome(t: Tree)
    requires t.Node?
    ensures PennSentence(t).Err? <==> PennTreebank.HasStrayWord(t)
    ensures PennSentence(t) == Ok("None") <==> !PennTreebank.HasStrayWord(t) && PennTreebank.KeptWords(t) == []
    ensures PennSentence(t).Ok? && PennSentence(t).value != "None" ==> '(' in PennSentence(t).value
  {
    PennTreebank.RemoveNullFails(t);
    if PennTree(t).Ok? {
      var x := PennTree(t).value;
      assert x.None? <==> PennTreebank.KeptWords(t) == [] by {
        PennTreebank.RemoveNullYield(t);
      }
      assert x.Some? ==> x.value.Node?;
      PrintedOutcome(x);
    }
  }

  /** The Indonesian Treebank reader fails exactly when joining word units
      breaks. It yields the sentence `None` exactly when no word survives
      the pruning of the joined, label-cut tree; otherwise it yields a
      bracketed text. */
  lemma {:induction false} IdnSentenceOutcome(t: Tree)
    requires t.Node?
    ensures IdnSentence(t).Err? <==> IdnTreebank.CombineBreaks(t)
    ensures IdnSentence(t) == Ok("None") <==>
      && IdnTreebank.CombineMultiword(t).Ok?
      && IdnTreebank.KeptWords(IdnTreebank.StripFunctionLabels(IdnTreebank.CombineMultiword(t).value)) == []
    ensures IdnSentence(t).Ok? && IdnSentence(t).value != "None" ==> '(' in IdnSentence(t).value
  {
    IdnTreebank.CombineFailures(t);
    if IdnTree(t).Ok? {
      var cut := IdnTreebank.StripFunctionLabels(IdnTreebank.CombineMultiword(t).value);
      var x := IdnTree(t).value;
      assert x.None? <==> IdnTreebank.KeptWords(cut) == [] by {
        IdnTreebank.RemoveNullYield(cut);
      }
      assert cut.Node?;
      assert x.Some? ==> x.value.Node?;
      PrintedOutcome(x);
    }
  }

  /** Squeezing the printed result of passes that keep words and labels
      whitespace-free changes nothing. */
  lemma {:induction false} SqueezePrinted(x: Option<Tree>)
    requires x.Some? ==> Spaceless(x.value)
    ensures TreebankText.SqueezeLine(Printed(x)) == Printed(x)
  {
    if x.Some? {
      SqueezeRendered(x.value);
    } else {
      SqueezeNone();
    }
  }

  /** On a tree whose words and labels hold no whitespace, the Penn Treebank
      reader yields exactly the one-line rendering of the pruned, label-cut
      tree, or `None` when pruning leaves nothing. */
  lemma {:induction false} PennSentenceText(t: Tree)
    requires Spaceless(t)
    ensures PennSentence(t).Err? <==> PennTree(t).Err?
    ensures PennTree(t).Ok? ==> PennSentence(t) == Ok(Printed(PennTree(t).value))
  {
    PennTreebank.RemoveNullSpaceless(t);
    if PennTree(t).Ok? {
      var pruned := PennTreebank.RemoveNullElements(t).value;
      if pruned.Some? {
        StripLabelsSpaceless(pruned.value, PennTreebank.Separators);
      }
      SqueezePrinted(PennTree(t).value);
    }
  }

  /** The same for the Indonesian Treebank reader, on a tree with no empty
      word unit `[]`: it yields exactly the rendering of the joined,
      label-cut, pruned tree, or `None`. */
  lemma {:induction false} IdnSentenceText(t: Tree)
    requires Spaceless(t) && "[]" !in Yield(t)
    ensures IdnSentence(t).Err? <==> IdnTree(t).Err?
    ensures IdnTree(t).Ok? ==> IdnSentence(t) == Ok(Printed(IdnTree(t).value))
  {
    IdnTreebank.CombineSpaceless(t);
    if IdnTree(t).Ok? {
      var c := IdnTreebank.CombineMultiword(t).value;
      StripLabelsSpaceless(c, {'-'});
      IdnTreebank.RemoveNullSpaceless(IdnTreebank.StripFunctionLabels(c));
      SqueezePrinted(IdnTree(t).value);
    }
  }
}

=== FILE: remove_unk_nt.dfy ===
/** `remove_unk_nt.py`: a validation tree line is kept, stripped, when every
    label in its tree, part-of-speech tags included, occurs in some training
    tree. Parsing a line (`Tree.fromstring`) is a parameter `parse`. */
module RemoveUnkNt {
  import opened Base
  import opened Trees
  import opened Selection
  import opened RemoveUnseen

  function LabelSet(t: Tree): set<string> {
    set l | l in Labels(t)
  }

  /** The training label set: every label of every training tree. */
  function TrainLabels(train: seq<Tree>): set<string> {
    UnionOf(train, LabelSet)
  }

  /** `all(label in nt_labels for label in get_nt_labels(tree))`. */
  predicate AllKnown(t: Tree, nts: set<string>) {
    forall k :: 0 <= k < |Labels(t)| ==> Labels(t)[k] in nts
  }

  /** The validation loop: the lines printed. */
  function RemoveUnkNt(nts: set<string>, parse: string -> Tree, lines: seq<string>): (r: seq<string>)
    ensures |r| <= |lines|
  {
    Filter(StripAll(lines), line => AllKnown(parse(line), nts))
  }

  /** A line is printed exactly when it is a stripped validation line whose
      tree has only known labels. */
  lemma {:induction false} RemoveUnkNtKeeps(nts: set<string>, parse: string -> Tree, lines: seq<string>, x: string)
    ensures x in RemoveUnkNt(nts, parse, lines) <==>
      (exists k :: 0 <= k < |lines| && Strip(lines[k]) == x) && AllKnown(parse(x), nts)
  {
    var ls := StripAll(lines);
    FilterMember(ls, line => AllKnown(parse(line), nts), x);
    if x in ls {
      var k :| 0 <= k < |ls| && ls[k] == x;
      assert Strip(lines[k]) == x;
    }
    if exists k :: 0 <= k < |lines| && Strip(lines[k]) == x {
      var k :| 0 <= k < |lines| && Strip(lines[k]) == x;
      assert ls[k] == x;
    }
  }

  /** The printed lines keep the order of the validation file. */
  lemma {:induction false} RemoveUnkNtOrdered(nts: set<string>, parse: string -> Tree, lines: seq<string>)
    ensures Subsequence(RemoveUnkNt(nts, parse, lines), StripAll(lines))
  {
    FilterSubsequence(StripAll(lines), line => AllKnown(parse(line), nts));
  }

  /** Every training tree passes against the training label set. */
  lemma {:induction false} TrainingTreesPass(train: seq<Tree>, k: nat)
    requires k < |train|
    ensures AllKnown(train[k], TrainLabels(train))
  {
    assert LabelSet(train[k]) <= TrainLabels(train);
    forall j | 0 <= j < |Labels(train[k])| ensures Labels(train[k])[j] in TrainLabels(train) {
      assert Labels(train[k])[j] in LabelSet(train[k]);
    }
  }

  /** A label in the training set comes from some training tree. */
  lemma {:induction false} TrainLabelsFromTrees(train: seq<Tree>, l: string)
    requires l in TrainLabels(train)
    ensures exists k :: 0 <= k < |train| && l in Labels(train[k])
  {
    UnionOfMember(train, LabelSet, l);
  }

  /** The nonterminals `remove_unseen.py` collects are among the labels
      collected here. */
  lemma {:induction false} NtLabelsAreLabels(t: Tree, l: string)
    requires l in NtLabels(t)
    ensures l in Labels(t)
    decreases t, 1
  {
    match t
    case Node(m, cs) =>
      if l != m {
        NtLabelsChildrenAreLabels(cs, l);
      }
  }

  lemma {:induction false} NtLabelsChildrenAreLabels(cs: seq<Tree>, l: string)
    requires l in NtLabelsChildren(cs)
    ensures l in LabelsChildren(cs)
    decreases cs, 0
  {
    if l in NtLabels(cs[0]) {
      NtLabelsAreLabels(cs[0], l);
    } else {
      NtLabelsChildrenAreLabels(cs[1..], l);
    }
  }

  /** So a tree this filter keeps also passes the nonterminal test of
      `remove_unseen.py` against the same set. */
  lemma {:induction false} KeptHereKeptThere(t: Tree, nts: set<string>)
    requires AllKnown(t, nts)
    ensures NtLabels(t) <= nts
  {
    forall l | l in NtLabels(t) ensures l in nts {
      NtLabelsAreLabels(t, l);
    }
  }

  /** The converse fails: tags count here. `(S (NN dog))` against `{S}`
      passes the nonterminal test of `remove_unseen.py` but not this one. */
  lemma {:induction false} TagsCountHere()
    ensures NtLabels(Node("S", [Node("NN", [Leaf("dog")])])) <= {"S"}
    ensures !AllKnown(Node("S", [Node("NN", [Leaf("dog")])]), {"S"})
  {
    NtLabelsSkipTags();
    var nn := Node("NN", [Leaf("dog")]);
    var t := Node("S", [nn]);
    assert [nn][0] == nn && [nn][1..] == [];
    assert Labels(t) == ["S", "NN"];
    assert Labels(t)[1] !in {"S"};
  }
}

=== FILE: remove_unseen.dfy ===
/** `remove_unseen.py`: a test example (tree line, discriminative oracle,
    generative oracle) is kept only when its tree uses no nonterminal and its
    two oracles use no UNK token that the training data lacks. The three test
    files are read in step, and the kept examples written in step.

    Parsing a tree line (`Tree.fromstring`) is a parameter `parse`. */
module RemoveUnseen {
  import opened Base
  import opened Trees
  import opened OracleScan
  import opened OracleScanProofs
  import opened OracleCodec
  import opened Selection

  /** `get_nt_labels`: the labels of the internal nodes that are not
      preterminals; a leaf and a preterminal contribute nothing. */
  function NtLabels(t: Tree): set<string>
    decreases t, 1
  {
    match t
    case Leaf(_) => {}
    case Node(l, cs) => if |cs| == 1 && cs[0].Leaf? then {} else {l} + NtLabelsChildren(cs)
  }

  function NtLabelsChildren(cs: seq<Tree>): set<string>
    decreases cs, 0
  {
    if |cs| == 0 then {} else NtLabels(cs[0]) + NtLabelsChildren(cs[1..])
  }

  /** The collected labels are exactly the labels the pre-order walk opens
      with an NT action, so part-of-speech tags are never among them. */
  lemma {:induction false} NtLabelsOpened(t: Tree, l: string)
    ensures l in NtLabels(t) <==> NT(l) in PreOrder(t)
    decreases t, 1
  {
    match t
    case Leaf(_) =>
    case Node(m, cs) =>
      if !IsPreterminal(t) {
        NtLabelsChildrenOpened(cs, l);
        assert NT(l) in [NT(m)] + PreOrderChildren(cs) + [Reduce] <==>
               l == m || NT(l) in PreOrderChildren(cs);
      }
  }

  lemma {:induction false} NtLabelsChildrenOpened(cs: seq<Tree>, l: string)
    ensures l in NtLabelsChildren(cs) <==> NT(l) in PreOrderChildren(cs)
    decreases cs, 0
  {
    if |cs| > 0 {
      NtLabelsOpened(cs[0], l);
      NtLabelsChildrenOpened(cs[1..], l);
    }
  }

  /** On a tree the oracle extractor accepts, the collected labels are the
      labels of the NT actions of the tree's oracle. */
  lemma {:induction false} NtLabelsOfOracle(t: Tree, l: string)
    requires IsPhrase(t)
    ensures GetActions(Render(t)).Ok?
    ensures l in NtLabels(t) <==> NT(l) in GetActions(Render(t)).value
  {
    GetActionsOfTree(t);
    NtLabelsOpened(t, l);
  }

  /** `(S (NN dog))` contributes `S` but not the tag `NN`. */
  lemma {:induction false} NtLabelsSkipTags()
    ensures NtLabels(Node("S", [Node("NN", [Leaf("dog")])])) == {"S"}
  {
    var nn := Node("NN", [Leaf("dog")]);
    assert [nn][0] == nn && [nn][1..] == [];
    assert NtLabels(nn) == {};
  }

  // ---------------------------------------------------------------------------
  // The training sets

  /** The three sets collected from the training files. */
  datatype Seen = Seen(nts: set<string>, unks: set<string>, genUnks: set<string>)

  /** The training loops: the labels of every training tree and the UNK tokens of
      every training oracle. A training oracle file that fails to decode
      stops the script with that failure. */
  function CollectSeen(train: seq<Tree>, os: Stream<Oracle>, gos: Stream<GenOracle>): (r: Result<Seen>)
    ensures r.Ok? <==> os.failure.None? && gos.failure.None?
    ensures r.Err? ==> Some(r.error) == (if os.failure.Some? then os.failure else gos.failure)
  {
    if os.failure.Some? then Err(os.failure.value)
    else if gos.failure.Some? then Err(gos.failure.value)
    else Ok(Seen(UnionOf(train, NtLabels),
                 UnionOf(os.items, (o: Oracle) => UnkTokens(o.unkified)),
                 UnionOf(gos.items, (o: GenOracle) => UnkTokens(o.unkified))))
  }

  /** `has_no_unseen`. */
  predicate HasNoUnseen(seen: Seen, tree: Tree, o: Oracle, go: GenOracle) {
    NtLabels(tree) <= seen.nts && UnkTokens(o.unkified) <= seen.unks &&
    UnkTokens(go.unkified) <= seen.genUnks
  }

  /** On a tree the oracle extractor accepts and oracles whose unkified lines
      are space-joined words, the test reads the oracles: every label an NT
      action opens is seen, and so is every `UNK` word of either unkified
      line. */
  lemma {:induction false} HasNoUnseenOfOracle(seen: Seen, tree: Tree, o: Oracle, go: GenOracle,
                                               unks: seq<string>, genUnks: seq<string>)
    requires IsPhrase(tree)
    requires o.unkified == Join(" ", unks) && forall k :: 0 <= k < |unks| ==> IsWord(unks[k])
    requires go.unkified == Join(" ", genUnks) && forall k :: 0 <= k < |genUnks| ==> IsWord(genUnks[k])
    ensures GetActions(Render(tree)).Ok?
    ensures HasNoUnseen(seen, tree, o, go) <==>
      (forall l :: NT(l) in GetActions(Render(tree)).value ==> l in seen.nts) &&
      (forall w :: w in unks && StartsWith(w, "UNK") ==> w in seen.unks) &&
      (forall w :: w in genUnks && StartsWith(w, "UNK") ==> w in seen.genUnks)
  {
    GetActionsOfTree(tree);
    forall l ensures l in NtLabels(tree) <==> NT(l) in GetActions(Render(tree)).value {
      NtLabelsOfOracle(tree, l);
    }
    UnkTokensOfWords(unks);
    UnkTokensOfWords(genUnks);
  }

  /** A training example always passes against the sets of its own data. */
  lemma {:induction false} TrainingPasses(train: seq<Tree>, os: seq<Oracle>, gos: seq<GenOracle>, k: nat)
    requires k < |train| && k < |os| && k < |gos|
    ensures CollectSeen(train, Stream(os, None), Stream(gos, None)).Ok?
    ensures HasNoUnseen(CollectSeen(train, Stream(os, None), Stream(gos, None)).value, train[k], os[k], gos[k])
  {
  }

  /** Larger sets reject less. */
  predicate Within(a: Seen, b: Seen) {
    a.nts <= b.nts && a.unks <= b.unks && a.genUnks <= b.genUnks
  }

  lemma {:induction false} HasNoUnseenMonotone(a: Seen, b: Seen, tree: Tree, o: Oracle, go: GenOracle)
    requires Within(a, b) && HasNoUnseen(a, tree, o, go)
    ensures HasNoUnseen(b, tree, o, go)
  {
  }

  // ---------------------------------------------------------------------------
  // The test-file loop

  /** One test example as the loop sees it: the stripped tree line and the
      two oracles at the same position. */
  datatype Example = Example(parsed: string, oracle: Oracle, gen: GenOracle)

  function Min(a: nat, b: nat): nat {
    if a <= b then a else b
  }

  /** `zip(testf, oracle_iter(testof), gen_oracle_iter(testgof))`: pulls from
      the three inputs in that order and stops at the first exhausted one; a
      decoder that fails when pulled raises its failure. The loop strips each
      tree line it gets; the loop is given the lines already stripped. */
  function Zip(lines: seq<string>, os: Stream<Oracle>, gos: Stream<GenOracle>): (r: Stream<Example>)
    decreases |lines|
  {
    if |lines| == 0 then Stream([], None)
    else if |os.items| == 0 then Stream([], os.failure)
    else if |gos.items| == 0 then Stream([], gos.failure)
    else
      var rest := Zip(lines[1..], Stream(os.items[1..], os.failure), Stream(gos.items[1..], gos.failure));
      Stream([Example(lines[0], os.items[0], gos.items[0])] + rest.items, rest.failure)
  }

  /** The zip is as long as the shortest input, aligns the three inputs
      position by position, and fails with the failure of the first input
      to run out, a tree file running out being a clean stop. */
  lemma {:induction false} ZipAligned(lines: seq<string>, os: Stream<Oracle>, gos: Stream<GenOracle>)
    ensures |Zip(lines, os, gos).items| == Min(|lines|, Min(|os.items|, |gos.items|))
    ensures forall k :: 0 <= k < |Zip(lines, os, gos).items| ==>
      Zip(lines, os, gos).items[k] == Example(lines[k], os.items[k], gos.items[k])
    ensures Zip(lines, os, gos).failure ==
      (if |Zip(lines, os, gos).items| == |lines| then None
       else if |Zip(lines, os, gos).items| == |os.items| then os.failure
       else gos.failure)
  {
    ZipLength(lines, os, gos);
    ZipFailure(lines, os, gos);
    forall k | 0 <= k < |Zip(lines, os, gos).items|
      ensures Zip(lines, os, gos).items[k] == Example(lines[k], os.items[k], gos.items[k])
    {
      ZipItem(lines, os, gos, k);
    }
  }

  lemma {:induction false} ZipLength(lines: seq<string>, os: Stream<Oracle>, gos: Stream<GenOracle>)
    ensures |Zip(lines, os, gos).items| == Min(|lines|, Min(|os.items|, |gos.items|))
    decreases |lines|
  {
    if |lines| > 0 && |os.items| > 0 && |gos.items| > 0 {
      ZipLength(lines[1..], Stream(os.items[1..], os.failure), Stream(gos.items[1..], gos.failure));
    }
  }

  lemma {:induction false} ZipFailure(lines: seq<string>, os: Stream<Oracle>, gos: Stream<GenOracle>)
    ensures Zip(lines, os, gos).failure ==
      (if |lines| <= |os.items| && |lines| <= |gos.items| then None
       else if |os.items| <= |gos.items| then os.failure
       else gos.failure)
    decreases |lines|
  {
    if |lines| > 0 && |os.items| > 0 && |gos.items| > 0 {
      ZipFailure(lines[1..], Stream(os.items[1..], os.failure), Stream(gos.items[1..], gos.failure));
    }
  }

  lemma {:induction false} ZipItem(lines: seq<string>, os: Stream<Oracle>, gos: Stream<GenOracle>, k: nat)
    requires k < |Zip(lines, os, gos).items|
    ensures k < |lines| && k < |os.items| && k < |gos.items|
    ensures Zip(lines, os, gos).items[k] == Example(lines[k], os.items[k], gos.items[k])
    decreases |lines|
  {
    assert |lines| > 0 && |os.items| > 0 && |gos.items| > 0;
    var os', gos' := Stream(os.items[1..], os.failure), Stream(gos.items[1..], gos.failure);
    var rest := Zip(lines[1..], os', gos');
    var head := Example(lines[0], os.items[0], gos.items[0]);
    assert Zip(lines, os, gos).items == [head] + rest.items;
    if k > 0 {
      ZipItem(lines[1..], os', gos', k - 1);
      assert lines[1..][k - 1] == lines[k];
      assert os'.items[k - 1] == os.items[k] && gos'.items[k - 1] == gos.items[k];
      assert Zip(lines, os, gos).items[k] == rest.items[k - 1];
    } else {
      assert Zip(lines, os, gos).items[0] == head;
    }
  }

  predicate Keep(seen: Seen, parse: string -> Tree, e: Example) {
    HasNoUnseen(seen, parse(e.parsed), e.oracle, e.gen)
  }

  /** The test loop: the examples written, in order, and the failure that
      stops the script, if any. The script runs under Python 2, whose `zip`
      builds its whole list before the loop body runs: a test oracle file
      that fails to decode stops the script before anything is written. */
  function RemoveUnseen(seen: Seen, parse: string -> Tree, lines: seq<string>,
                        os: Stream<Oracle>, gos: Stream<GenOracle>): (r: Stream<Example>)
    ensures |r.items| <= Min(|lines|, Min(|os.items|, |gos.items|))
    ensures r.failure == Zip(StripAll(lines), os, gos).failure
    ensures r.failure.Some? ==> r.items == []
  {
    var z := Zip(StripAll(lines), os, gos);
    ZipAligned(StripAll(lines), os, gos);
    if z.failure.Some? then Stream([], z.failure)
    else Stream(Filter(z.items, e => Keep(seen, parse, e)), None)
  }

  /** An example is written exactly when the zip succeeds, the example is one
      of the aligned test examples, and it has nothing unseen. */
  lemma {:induction false} RemoveUnseenKeeps(seen: Seen, parse: string -> Tree, lines: seq<string>,
                          os: Stream<Oracle>, gos: Stream<GenOracle>, e: Example)
    ensures e in RemoveUnseen(seen, parse, lines, os, gos).items <==>
      Zip(StripAll(lines), os, gos).failure.None? &&
      e in Zip(StripAll(lines), os, gos).items && HasNoUnseen(seen, parse(e.parsed), e.oracle, e.gen)
  {
    FilterMember(Zip(StripAll(lines), os, gos).items, e => Keep(seen, parse, e), e);
  }

  /** The written examples keep their original order. */
  lemma {:induction false} RemoveUnseenOrdered(seen: Seen, parse: string -> Tree, lines: seq<string>,
                            os: Stream<Oracle>, gos: Stream<GenOracle>)
    ensures Subsequence(RemoveUnseen(seen, parse, lines, os, gos).items, Zip(StripAll(lines), os, gos).items)
  {
    FilterSubsequence(Zip(StripAll(lines), os, gos).items, e => Keep(seen, parse, e));
  }

  /** Enlarging the training sets never drops an example that was written. */
  lemma {:induction false} RemoveUnseenMonotone(a: Seen, b: Seen, parse: string -> Tree, lines: seq<string>,
                             os: Stream<Oracle>, gos: Stream<GenOracle>)
    requires Within(a, b)
    ensures Subsequence(RemoveUnseen(a, parse, lines, os, gos).items,
                        RemoveUnseen(b, parse, lines, os, gos).items)
  {
    var z := Zip(StripAll(lines), os, gos).items;
    var keep, wider := e => Keep(a, parse, e), e => Keep(b, parse, e);
    forall k | 0 <= k < |z| && keep(z[k]) ensures wider(z[k]) {
      HasNoUnseenMonotone(a, b, parse(z[k].parsed), z[k].oracle, z[k].gen);
    }
    if Zip(StripAll(lines), os, gos).failure.None? {
      FilterMonotone(z, keep, wider);
    }
  }

  // ---------------------------------------------------------------------------
  // The output files

  function KeptOracles(es: seq<Example>): (r: seq<Oracle>)
    ensures |r| == |es| && forall k :: 0 <= k < |es| ==> r[k] == es[k].oracle
  {
    seq(|es|, k requires 0 <= k < |es| => es[k].oracle)
  }

  function KeptGenOracles(es: seq<Example>): (r: seq<GenOracle>)
    ensures |r| == |es| && forall k :: 0 <= k < |es| ==> r[k] == es[k].gen
  {
    seq(|es|, k requires 0 <= k < |es| => es[k].gen)
  }

  /** A written example holds an oracle pair from the test files. */
  lemma {:induction false} KeptWellFormed(seen: Seen, parse: string -> Tree, lines: seq<string>,
                       os: Stream<Oracle>, gos: Stream<GenOracle>, e: Example)
    requires forall k :: 0 <= k < |os.items| ==> WellFormed(os.items[k])
    requires forall k :: 0 <= k < |gos.items| ==> GenWellFormed(gos.items[k])
    requires e in RemoveUnseen(seen, parse, lines, os, gos).items
    ensures WellFormed(e.oracle) && GenWellFormed(e.gen)
  {
    var z := Zip(StripAll(lines), os, gos).items;
    RemoveUnseenKeeps(seen, parse, lines, os, gos, e);
    var j :| 0 <= j < |z| && z[j] == e;
    ZipItem(StripAll(lines), os, gos, j);
  }

  /** Well-formed examples written out decode to themselves. */
  lemma {:induction false} ExamplesReadBack(es: seq<Example>)
    requires forall k :: 0 <= k < |es| ==> WellFormed(es[k].oracle) && GenWellFormed(es[k].gen)
    ensures OracleIter(FileLines(WriteOracles(KeptOracles(es)))) == Stream(KeptOracles(es), None)
    ensures GenOracleIter(FileLines(WriteGenOracles(KeptGenOracles(es)))) == Stream(KeptGenOracles(es), None)
  {
    OracleRoundTrip(KeptOracles(es));
    GenOracleRoundTrip(KeptGenOracles(es));
  }

  /** When the test oracles can be written back unchanged, the two oracle
      files written decode to exactly the kept oracles, in order. */
  lemma {:induction false} OutputReadsBack(seen: Seen, parse: string -> Tree, lines: seq<string>,
                        os: Stream<Oracle>, gos: Stream<GenOracle>)
    requires forall k :: 0 <= k < |os.items| ==> WellFormed(os.items[k])
    requires forall k :: 0 <= k < |gos.items| ==> GenWellFormed(gos.items[k])
    ensures OracleIter(FileLines(WriteOracles(KeptOracles(RemoveUnseen(seen, parse, lines, os, gos).items))))
         == Stream(KeptOracles(RemoveUnseen(seen, parse, lines, os, gos).items), None)
    ensures GenOracleIter(FileLines(WriteGenOracles(KeptGenOracles(RemoveUnseen(seen, parse, lines, os, gos).items))))
         == Stream(KeptGenOracles(RemoveUnseen(seen, parse, lines, os, gos).items), None)
  {
    var kept := RemoveUnseen(seen, parse, lines, os, gos).items;
    assert forall k :: 0 <= k < |kept| ==> WellFormed(kept[k].oracle) && GenWellFormed(kept[k].gen) by {
      forall k | 0 <= k < |kept|
        ensures WellFormed(kept[k].oracle) && GenWellFormed(kept[k].gen)
      {
        KeptWellFormed(seen, parse, lines, os, gos, kept[k]);
      }
    }
    ExamplesReadBack(kept);
  }
}

=== FILE: remove_unseen_unk.dfy ===
/** `remove_unseen_unk.py`: the UNK tokens of a training oracle file are read
    off the third line of every block, and each block of a validation oracle
    file (parsed line, tokens line, unkified line, actions) is copied when its
    unkified line uses only those tokens. Every block read, copied or not, is
    followed by one blank output line.

    A file is its list of lines; the output is the list of printed lines. */
module RemoveUnseenUnk {
  import opened Base
  import opened OracleCodec
  import opened Selection

  predicate IsUnk(t: string) {
    StartsWith(t, "UNK")
  }

  /** The UNK tokens of one line, in order, repeats kept. */
  function UnkList(line: string): seq<string> {
    Filter(Split(line), t => IsUnk(t))
  }

  // ---------------------------------------------------------------------------
  // get_unk_tokens

  /** The generator from its current state on: `k` counts the non-blank lines
      of the current block read so far, and is reset by a blank line. */
  function UnkFrom(ls: seq<string>, k: nat): seq<string>
    decreases |ls|
  {
    if |ls| == 0 then []
    else (if k == 2 then UnkList(ls[0]) else []) + UnkFrom(ls[1..], if ls[0] == "" then 0 else k + 1)
  }

  /** `get_unk_tokens(lines)`. */
  function GetUnkTokens(lines: seq<string>): seq<string> {
    UnkFrom(StripAll(lines), 0)
  }

  /** The UNK tokens of the third preamble line of each block, block by block;
      a block with fewer than three lines contributes none. */
  function ThirdLineUnks(bs: seq<Block>): seq<string>
    decreases |bs|
  {
    if |bs| == 0 then []
    else (if |bs[0].preamble| >= 3 then UnkList(bs[0].preamble[2]) else []) + ThirdLineUnks(bs[1..])
  }

  lemma {:induction false} ThirdLineUnksCons(b: Block, bs: seq<Block>)
    ensures ThirdLineUnks([b] + bs) == ThirdLineUnks([b]) + ThirdLineUnks(bs)
  {
    assert ([b] + bs)[1..] == bs;
    assert [b][1..] == [];
  }

  /** The counter against the block decoder with three preamble lines: the
      tokens still to come, after those of a third line already read, are the
      third-line tokens of the blocks the decoder still has to close. */
  lemma {:induction false} UnkFromBlocks(ls: seq<string>, count: nat, buff: seq<string>, acts: seq<string>)
    requires count == |buff| + |acts| && |buff| <= 3 && (|acts| > 0 ==> |buff| == 3)
    ensures (if count >= 3 then UnkList(buff[2]) else []) + UnkFrom(ls, count)
         == ThirdLineUnks(BlocksFrom(ls, 3, count, buff, acts))
    decreases |ls|
  {
    if |ls| == 0 {
      if |buff| > 0 {
        assert [Block(buff, acts)][1..] == [];
      }
    } else if ls[0] == "" {
      var later := BlocksFrom(ls[1..], 3, 0, [], []);
      assert UnkFrom(ls, count) == UnkFrom(ls[1..], 0) by {
        assert Split(ls[0]) == [];
        assert UnkList(ls[0]) == [];
      }
      assert BlocksFrom(ls, 3, count, buff, acts) == [Block(buff, acts)] + later;
      UnkFromBlocks(ls[1..], 0, [], []);
      ThirdLineUnksCons(Block(buff, acts), later);
      assert [Block(buff, acts)][1..] == [];
    } else if count < 3 {
      assert UnkFrom(ls, count) == (if count == 2 then UnkList(ls[0]) else []) + UnkFrom(ls[1..], count + 1);
      assert BlocksFrom(ls, 3, count, buff, acts) == BlocksFrom(ls[1..], 3, count + 1, buff + [ls[0]], acts);
      UnkFromBlocks(ls[1..], count + 1, buff + [ls[0]], acts);
      assert (buff + [ls[0]])[|buff|] == ls[0];
    } else {
      assert UnkFrom(ls, count) == UnkFrom(ls[1..], count + 1);
      assert BlocksFrom(ls, 3, count, buff, acts) == BlocksFrom(ls[1..], 3, count + 1, buff, acts + [ls[0]]);
      UnkFromBlocks(ls[1..], count + 1, buff, acts + [ls[0]]);
    }
  }

  /** `get_unk_tokens` yields exactly the UNK tokens of the third line of
      every block the oracle decoder would read from the same file. */
  lemma {:induction false} GetUnkTokensOfBlocks(lines: seq<string>)
    ensures GetUnkTokens(lines) == ThirdLineUnks(Blocks(lines, 3))
  {
    UnkFromBlocks(StripAll(lines), 0, [], []);
  }

  /** The UNK tokens of a line as a list and as a set hold the same tokens. */
  lemma {:induction false} UnkListTokens(line: string, t: string)
    ensures t in UnkList(line) <==> t in UnkTokens(line)
  {
    FilterMember(Split(line), u => IsUnk(u), t);
  }

  lemma {:induction false} ThirdLineUnksOfRecords(os: seq<GenOracle>, t: string)
    ensures t in ThirdLineUnks(seq(|os|, k requires 0 <= k < |os| => GenOracleBlockOf(os[k]))) <==>
      exists k :: 0 <= k < |os| && t in UnkTokens(os[k].unkified)
    decreases |os|
  {
    var bs := seq(|os|, k requires 0 <= k < |os| => GenOracleBlockOf(os[k]));
    if |os| > 0 {
      assert bs[1..] == seq(|os| - 1, k requires 0 <= k < |os| - 1 => GenOracleBlockOf(os[1..][k]));
      ThirdLineUnksOfRecords(os[1..], t);
      UnkListTokens(os[0].unkified, t);
      assert bs[0].preamble[2] == os[0].unkified;
      if exists k :: 0 <= k < |os| && t in UnkTokens(os[k].unkified) {
        var k :| 0 <= k < |os| && t in UnkTokens(os[k].unkified);
        if k > 0 {
          assert os[1..][k - 1] == os[k];
        }
      }
      if exists k :: 0 <= k < |os| - 1 && t in UnkTokens(os[1..][k].unkified) {
        var k :| 0 <= k < |os| - 1 && t in UnkTokens(os[1..][k].unkified);
        assert os[1..][k] == os[k + 1];
      }
    }
  }

  /** On a file of well-formed generative oracles, the training UNK tokens
      are those of the records' unkified lines: the same set
      `remove_unseen.py` collects from that file. */
  lemma {:induction false} GetUnkTokensOfRecords(os: seq<GenOracle>, t: string)
    requires forall k :: 0 <= k < |os| ==> GenWellFormed(os[k])
    ensures t in GetUnkTokens(FileLines(WriteGenOracles(os))) <==>
      exists k :: 0 <= k < |os| && t in UnkTokens(os[k].unkified)
  {
    var bs := seq(|os|, k requires 0 <= k < |os| => GenOracleBlockOf(os[k]));
    WriteGenOraclesAsBlocks(os);
    assert forall k :: 0 <= k < |bs| ==> Encodable(3, bs[k]) by {
      forall k | 0 <= k < |bs| ensures Encodable(3, bs[k]) {
        assert Contents(bs[k]) == GenFields(os[k]);
      }
    }
    BlocksRoundTrip(bs, 3);
    GetUnkTokensOfBlocks(FileLines(WriteGenOracles(os)));
    ThirdLineUnksOfRecords(os, t);
  }

  // ---------------------------------------------------------------------------
  // The validation-file loop

  const TokensLine: string := "a line of word tokens"
  const UnkifiedLine: string := "a line of unkified tokens"
  const FirstAction: string := "min. one parser action"

  /** How many lines a block's action loop copies: the leading non-blank
      lines. */
  function ActionRun(xs: seq<string>): (n: nat)
    ensures n <= |xs|
  {
    if |xs| == 0 || xs[0] == "" then 0 else 1 + ActionRun(xs[1..])
  }

  /** The run is every line up to the first blank one, or to the end. */
  lemma {:induction false} ActionRunStops(xs: seq<string>)
    ensures forall i :: 0 <= i < ActionRun(xs) ==> xs[i] != ""
    ensures ActionRun(xs) == |xs| || xs[ActionRun(xs)] == ""
  {
    if |xs| > 0 && xs[0] != "" {
      ActionRunStops(xs[1..]);
      forall i | 0 < i < ActionRun(xs) ensures xs[i] != "" {
        assert xs[i] == xs[1..][i - 1];
      }
    }
  }

  /** The loop from a block boundary on, over stripped lines; `done` lines
      have been read before. A block is its three preamble lines, a first
      action line that must exist, and the further lines up to a blank line
      (consumed) or the end of the file. The message for a missing line
      carries its 1-based line number. */
  function ValidFrom(ls: seq<string>, done: nat, known: string -> bool): Stream<string>
    decreases |ls|
  {
    if |ls| == 0 then Stream([], None)
    else if |ls| == 1 then Stream([], Some(UnexpectedEof(done + 2, TokensLine)))
    else if |ls| == 2 then Stream([], Some(UnexpectedEof(done + 3, UnkifiedLine)))
    else
      var keep := known(ls[2]);
      var head := if keep then ls[..3] else [];
      if |ls| == 3 then Stream(head, Some(UnexpectedEof(done + 4, FirstAction)))
      else
        var n := ActionRun(ls[3..]);
        var used := if 3 + n < |ls| then 4 + n else 3 + n;
        var rest := ValidFrom(ls[used..], done + used, known);
        Stream(head + (if keep then ls[3..3 + n] else []) + [""] + rest.items, rest.failure)
  }

  /** The test the loop applies to a block's unkified line: every UNK token
      in it was seen in training. */
  function KnownUnks(unks: set<string>): string -> bool {
    line => UnkTokens(line) <= unks
  }

  /** The validation loop with the error messages it evidently means to
      print: it stops at the first missing line with that line's message. */
  function RemoveUnseenUnk(lines: seq<string>, unks: set<string>): Stream<string> {
    ValidFrom(StripAll(lines), 0, KnownUnks(unks))
  }

  /** The loop as written: each message goes to `sys.err`, which does not
      exist, so every early end of file raises the missing-attribute error
      instead of printing its message. */
  function RemoveUnseenUnkAsWritten(lines: seq<string>, unks: set<string>): (r: Stream<string>)
    ensures r.items == RemoveUnseenUnk(lines, unks).items
    ensures r.failure.Some? <==> RemoveUnseenUnk(lines, unks).failure.Some?
  {
    var s := RemoveUnseenUnk(lines, unks);
    Stream(s.items, if s.failure.Some? then Some(AttributeError) else None)
  }

  /** A file cut off after its first line: as written the script dies with
      the missing-attribute error; the message it means names line 2. */
  lemma {:induction false} EofMessageLost()
    ensures RemoveUnseenUnkAsWritten(["(S (NN x))"], {}) == Stream([], Some(AttributeError))
    ensures RemoveUnseenUnk(["(S (NN x))"], {}) == Stream([], Some(UnexpectedEof(2, TokensLine)))
  {
  }

  /** The only failure is an end of file, and it names the line just past
      the last one. */
  lemma {:induction false} ValidFromEofLine(ls: seq<string>, done: nat, known: string -> bool)
    ensures ValidFrom(ls, done, known).failure.Some? ==>
      ValidFrom(ls, done, known).failure.value.UnexpectedEof? &&
      ValidFrom(ls, done, known).failure.value.line == done + |ls| + 1
    decreases |ls|
  {
    if |ls| > 3 {
      var n := ActionRun(ls[3..]);
      var used := if 3 + n < |ls| then 4 + n else 3 + n;
      ValidFromEofLine(ls[used..], done + used, known);
    }
  }

  lemma {:induction false} RemoveUnseenUnkEofLine(lines: seq<string>, unks: set<string>)
    ensures RemoveUnseenUnk(lines, unks).failure.Some? ==>
      RemoveUnseenUnk(lines, unks).failure.value.UnexpectedEof? &&
      RemoveUnseenUnk(lines, unks).failure.value.line == |lines| + 1
  {
    var ls := StripAll(lines);
    assert |ls| == |lines|;
    ValidFromEofLine(ls, 0, KnownUnks(unks));
  }

  // ---------------------------------------------------------------------------
  // On a well-formed generative oracle file

  /** What the loop prints for one record: its lines when its UNK tokens are
      all known, then a blank line. */
  function Copied(o: GenOracle, known: string -> bool): seq<string> {
    (if known(o.unkified) then GenFields(o) else []) + [""]
  }

  function AllCopied(os: seq<GenOracle>, known: string -> bool): seq<string>
    decreases |os|
  {
    if |os| == 0 then [] else Copied(os[0], known) + AllCopied(os[1..], known)
  }

  /** A written record file: the first record's lines joined, its newline,
      the blank line, then the rest. */
  lemma {:induction false} WrittenText(os: seq<GenOracle>)
    requires |os| > 0
    ensures WriteGenOracles(os) == Join("\n", GenFields(os[0])) + "\n" + ("\n" + WriteGenOracles(os[1..]))
  {
    var j := Join("\n", GenFields(os[0]));
    assert "\n\n" == "\n" + "\n";
    AppendAssoc(j + "\n", "\n", WriteGenOracles(os[1..]));
  }

  lemma {:induction false} RecordTextLines(o: GenOracle, rest: string)
    requires GenWellFormed(o)
    ensures FileLines(Join("\n", GenFields(o)) + "\n" + ("\n" + rest)) == GenFields(o) + [""] + FileLines(rest)
  {
    var fs := GenFields(o);
    assert forall k :: 0 <= k < |fs| ==> NoNewline(fs[k]);
    FileLinesJoin(fs, "\n" + rest);
    FileLinesBlank(rest);
    AppendAssoc(fs, [""], FileLines(rest));
  }

  /** A written record file read back line by line: the first record's
      lines, the blank line after it, then the rest. */
  lemma {:induction false} WrittenLines(os: seq<GenOracle>)
    requires |os| > 0 && GenWellFormed(os[0])
    ensures FileLines(WriteGenOracles(os)) == GenFields(os[0]) + [""] + FileLines(WriteGenOracles(os[1..]))
  {
    WrittenText(os);
    RecordTextLines(os[0], WriteGenOracles(os[1..]));
  }

  /** A block closed by a blank line: the loop prints its lines if it
      passes, then the blank line, and goes on after it. */
  lemma {:induction false} ValidFromStep(ls: seq<string>, done: nat, known: string -> bool, n: nat,
                      printed: seq<string>, rest: seq<string>, next: nat)
    requires 3 + n < |ls| && n == ActionRun(ls[3..])
    requires printed == (if known(ls[2]) then ls[..3 + n] else []) + [""]
    requires rest == ls[4 + n..] && next == done + 4 + n
    ensures ValidFrom(ls, done, known).items == printed + ValidFrom(rest, next, known).items
    ensures ValidFrom(ls, done, known).failure == ValidFrom(rest, next, known).failure
  {
    var r := ValidFrom(rest, next, known);
    var keep := known(ls[2]);
    var head := if keep then ls[..3] else [];
    var body := if keep then ls[3..3 + n] else [];
    assert ValidFrom(ls, done, known) == Stream(head + body + [""] + r.items, r.failure);
    assert head + body + [""] == printed by {
      if keep {
        assert ls[..3] + ls[3..3 + n] == ls[..3 + n];
      }
    }
  }

  /** No action line of a record is blank. */
  predicate ActionsNonBlank(o: GenOracle) {
    forall i :: 0 <= i < |o.actions| ==> o.actions[i] != ""
  }

  lemma {:induction false} WellFormedActions(o: GenOracle)
    requires GenWellFormed(o)
    ensures ActionsNonBlank(o)
  {
    forall i | 0 <= i < |o.actions| ensures o.actions[i] != "" {
      assert GenFields(o)[3 + i] == o.actions[i];
    }
  }

  /** One record and the blank line after it go through the loop as one
      block. */
  lemma {:induction false} ValidFromRecord(o: GenOracle, rest: seq<string>, done: nat, known: string -> bool)
    requires ActionsNonBlank(o)
    ensures ValidFrom(GenFields(o) + [""] + rest, done, known).items
         == Copied(o, known) + ValidFrom(rest, done + |GenFields(o)| + 1, known).items
    ensures ValidFrom(GenFields(o) + [""] + rest, done, known).failure
         == ValidFrom(rest, done + |GenFields(o)| + 1, known).failure
  {
    var ls := GenFields(o) + [""] + rest;
    RecordActionRun(o, rest);
    RecordPieces(o, rest, known);
    ValidFromStep(ls, done, known, |o.actions|, Copied(o, known), rest, done + |GenFields(o)| + 1);
  }

  /** The action run of a record's lines is its actions. */
  lemma {:induction false} RecordActionRun(o: GenOracle, rest: seq<string>)
    requires ActionsNonBlank(o)
    ensures 3 + |o.actions| < |GenFields(o) + [""] + rest|
    ensures ActionRun((GenFields(o) + [""] + rest)[3..]) == |o.actions|
  {
    assert (GenFields(o) + [""] + rest)[3..] == o.actions + ([""] + rest);
    ActionRunOf(o.actions, [""] + rest);
  }

  lemma {:induction false} RecordPieces(o: GenOracle, rest: seq<string>, known: string -> bool)
    ensures 3 + |o.actions| < |GenFields(o) + [""] + rest|
    ensures Copied(o, known) == (if known((GenFields(o) + [""] + rest)[2])
                                 then (GenFields(o) + [""] + rest)[..3 + |o.actions|] else []) + [""]
    ensures (GenFields(o) + [""] + rest)[4 + |o.actions|..] == rest
  {
    var ls := GenFields(o) + [""] + rest;
    assert ls[2] == o.unkified && ls[..3 + |o.actions|] == GenFields(o);
  }

  lemma {:induction false} ActionRunOf(acts: seq<string>, rest: seq<string>)
    requires forall i :: 0 <= i < |acts| ==> acts[i] != ""
    requires |rest| > 0 && rest[0] == ""
    ensures ActionRun(acts + rest) == |acts|
    decreases |acts|
  {
    if |acts| > 0 {
      assert (acts + rest)[1..] == acts[1..] + rest;
      ActionRunOf(acts[1..], rest);
    } else {
      assert acts + rest == rest;
    }
  }

  /** The lines of a record file: each record's lines and a blank line. */
  function RecordLines(os: seq<GenOracle>): seq<string>
    decreases |os|
  {
    if |os| == 0 then [] else GenFields(os[0]) + [""] + RecordLines(os[1..])
  }

  /** Every line is blank or carries no surrounding whitespace. */
  predicate AllStripped(ls: seq<string>) {
    forall k :: 0 <= k < |ls| ==> ls[k] == "" || IsStripped(ls[k])
  }

  lemma {:induction false} AllStrippedAppend(a: seq<string>, b: seq<string>)
    requires AllStripped(a) && AllStripped(b)
    ensures AllStripped(a + b)
  {
    forall k | 0 <= k < |a + b| ensures (a + b)[k] == "" || IsStripped((a + b)[k]) {
      if k >= |a| {
        assert (a + b)[k] == b[k - |a|];
      }
    }
  }

  lemma {:induction false} RecordLinesStripped(os: seq<GenOracle>)
    requires forall k :: 0 <= k < |os| ==> GenWellFormed(os[k])
    ensures AllStripped(RecordLines(os))
    decreases |os|
  {
    if |os| > 0 {
      var fs := GenFields(os[0]);
      assert AllStripped(fs + [""]) by {
        assert GenWellFormed(os[0]);
        forall k | 0 <= k < |fs + [""]| ensures (fs + [""])[k] == "" || IsStripped((fs + [""])[k]) {
          if k < |fs| {
            assert Carried(fs[k]);
          }
        }
      }
      RecordLinesStripped(os[1..]);
      AllStrippedAppend(fs + [""], RecordLines(os[1..]));
    }
  }

  lemma {:induction false} WrittenRecordLines(os: seq<GenOracle>)
    requires forall k :: 0 <= k < |os| ==> GenWellFormed(os[k])
    ensures FileLines(WriteGenOracles(os)) == RecordLines(os)
    decreases |os|
  {
    if |os| > 0 {
      WrittenLines(os);
      WrittenRecordLines(os[1..]);
    }
  }

  lemma {:induction false} ValidFromRecords(os: seq<GenOracle>, done: nat, known: string -> bool)
    requires forall k :: 0 <= k < |os| ==> GenWellFormed(os[k])
    ensures ValidFrom(RecordLines(os), done, known).items == AllCopied(os, known)
    ensures ValidFrom(RecordLines(os), done, known).failure == None
    decreases |os|
  {
    if |os| == 0 {
      assert RecordLines(os) == [];
    } else {
      var o, rest := os[0], RecordLines(os[1..]);
      var next := done + |GenFields(o)| + 1;
      var tail := ValidFrom(rest, next, known);
      assert tail.items == AllCopied(os[1..], known) && tail.failure == None by {
        ValidFromRecords(os[1..], next, known);
      }
      var whole := ValidFrom(GenFields(o) + [""] + rest, done, known);
      assert whole.items == Copied(o, known) + tail.items && whole.failure == tail.failure by {
        WellFormedActions(o);
        ValidFromRecord(o, rest, done, known);
      }
      assert RecordLines(os) == GenFields(o) + [""] + rest;
    }
  }

  /** On a file of well-formed generative oracles, the loop prints each
      record whose UNK tokens are all known and a blank line after every
      record, and ends without error. */
  lemma {:induction false} RemoveUnseenUnkOfRecords(os: seq<GenOracle>, unks: set<string>)
    requires forall k :: 0 <= k < |os| ==> GenWellFormed(os[k])
    ensures RemoveUnseenUnk(FileLines(WriteGenOracles(os)), unks) == Stream(AllCopied(os, KnownUnks(unks)), None)
  {
    WrittenRecordLines(os);
    RecordLinesStripped(os);
    StripAllId(RecordLines(os));
    ValidFromRecords(os, 0, KnownUnks(unks));
  }

  /** A dropped first record leaves its blank line at the head of the
      output, which the oracle decoder reads as an empty record. */
  lemma {:induction false} DroppedRecordLeavesBlank(os: seq<GenOracle>, unks: set<string>)
    requires forall k :: 0 <= k < |os| ==> GenWellFormed(os[k])
    requires |os| > 0 && !(UnkTokens(os[0].unkified) <= unks)
    ensures RemoveUnseenUnk(FileLines(WriteGenOracles(os)), unks).items == [""] + AllCopied(os[1..], KnownUnks(unks))
    ensures GenOracleIter(RemoveUnseenUnk(FileLines(WriteGenOracles(os)), unks).items).failure == Some(TypeError)
  {
    RemoveUnseenUnkOfRecords(os, unks);
    var x := AllCopied(os[1..], KnownUnks(unks));
    assert AllCopied(os, KnownUnks(unks)) == Copied(os[0], KnownUnks(unks)) + x;
    assert Copied(os[0], KnownUnks(unks)) == [""];
    EmptyBlockFirst(x, "");
  }
}

=== FILE: selection.dfy ===
/** What the train/test consistency scripts share: keeping the examples that
    pass a test, in their original order, and the UNK tokens of an unkified
    line. */
module Selection {
  import opened Base

  /** `[x for x in xs if keep(x)]`. */
  function Filter<T>(xs: seq<T>, keep: T -> bool): (r: seq<T>)
    ensures |r| <= |xs|
    decreases |xs|
  {
    if |xs| == 0 then [] else (if keep(xs[0]) then [xs[0]] else []) + Filter(xs[1..], keep)
  }

  /** `a` is `b` with some elements left out and the rest in order. */
  predicate Subsequence<T(==)>(a: seq<T>, b: seq<T>)
    decreases |b|
  {
    if |a| == 0 then true
    else if |b| == 0 then false
    else (a[0] == b[0] && Subsequence(a[1..], b[1..])) || Subsequence(a, b[1..])
  }

  /** What a subsequence holds, its supersequence holds. */
  lemma {:induction false} SubsequenceMember<T>(a: seq<T>, b: seq<T>, x: T)
    requires Subsequence(a, b) && x in a
    ensures x in b
    decreases |b|
  {
    if a[0] == b[0] && Subsequence(a[1..], b[1..]) {
      if x != a[0] {
        SubsequenceMember(a[1..], b[1..], x);
      }
    } else {
      SubsequenceMember(a, b[1..], x);
    }
  }

  lemma {:induction false} SubsequenceSkip<T>(a: seq<T>, b: seq<T>, y: T)
    requires Subsequence(a, b)
    ensures Subsequence(a, [y] + b)
  {
    assert ([y] + b)[1..] == b;
  }

  lemma {:induction false} SubsequenceRefl<T>(a: seq<T>)
    ensures Subsequence(a, a)
    decreases |a|
  {
    if |a| > 0 {
      SubsequenceRefl(a[1..]);
    }
  }

  /** An element is kept exactly when it occurs in the input and passes. */
  lemma {:induction false} FilterMember<T>(xs: seq<T>, keep: T -> bool, x: T)
    ensures x in Filter(xs, keep) <==> x in xs && keep(x)
    decreases |xs|
  {
    if |xs| > 0 {
      FilterMember(xs[1..], keep, x);
      assert xs == [xs[0]] + xs[1..];
    }
  }

  /** The kept elements are the input's, in the input's order. */
  lemma {:induction false} FilterSubsequence<T>(xs: seq<T>, keep: T -> bool)
    ensures Subsequence(Filter(xs, keep), xs)
    decreases |xs|
  {
    if |xs| > 0 {
      var rest := Filter(xs[1..], keep);
      FilterSubsequence(xs[1..], keep);
      if keep(xs[0]) {
        assert Filter(xs, keep)[0] == xs[0] && Filter(xs, keep)[1..] == rest;
      } else {
        assert Filter(xs, keep) == rest;
        SubsequenceSkip(rest, xs[1..], xs[0]);
        assert [xs[0]] + xs[1..] == xs;
      }
    }
  }

  /** A weaker test keeps everything a stronger one keeps, in the same order. */
  lemma {:induction false} FilterMonotone<T>(xs: seq<T>, keep: T -> bool, wider: T -> bool)
    requires forall k :: 0 <= k < |xs| && keep(xs[k]) ==> wider(xs[k])
    ensures Subsequence(Filter(xs, keep), Filter(xs, wider))
    decreases |xs|
  {
    if |xs| > 0 {
      var a, b := Filter(xs[1..], keep), Filter(xs[1..], wider);
      assert forall k :: 0 <= k < |xs[1..]| && keep(xs[1..][k]) ==> wider(xs[1..][k]) by {
        forall k | 0 <= k < |xs[1..]| && keep(xs[1..][k]) ensures wider(xs[1..][k]) {
          assert xs[1..][k] == xs[k + 1];
        }
      }
      FilterMonotone(xs[1..], keep, wider);
      if keep(xs[0]) {
        assert wider(xs[0]) by { assert keep(xs[0]); }
        assert Filter(xs, keep)[0] == xs[0] && Filter(xs, keep)[1..] == a;
        assert Filter(xs, wider)[0] == xs[0] && Filter(xs, wider)[1..] == b;
      } else if wider(xs[0]) {
        assert Filter(xs, keep) == a;
        SubsequenceSkip(a, b, xs[0]);
      } else {
        assert Filter(xs, keep) == a && Filter(xs, wider) == b;
      }
    }
  }

  /** The union of `f` over a list, as the training loops accumulate it with `update`. */
  function UnionOf<T>(xs: seq<T>, f: T -> set<string>): (r: set<string>)
    ensures forall k :: 0 <= k < |xs| ==> f(xs[k]) <= r
    decreases |xs|
  {
    if |xs| == 0 then {} else f(xs[0]) + UnionOf(xs[1..], f)
  }

  /** Nothing enters the union that no element contributed. */
  lemma {:induction false} UnionOfMember<T>(xs: seq<T>, f: T -> set<string>, x: string)
    requires x in UnionOf(xs, f)
    ensures exists k :: 0 <= k < |xs| && x in f(xs[k])
    decreases |xs|
  {
    if x !in f(xs[0]) {
      UnionOfMember(xs[1..], f, x);
      var k :| 0 <= k < |xs[1..]| && x in f(xs[1..][k]);
      assert xs[1..][k] == xs[k + 1];
    }
  }

  /** `{token for token in unkified.split() if token.startswith('UNK')}`. */
  function UnkTokens(unkified: string): set<string> {
    set t | t in Split(unkified) && StartsWith(t, "UNK")
  }

  /** On a space-joined line of words, the UNK tokens are exactly the words
      that start with `UNK`. */
  lemma {:induction false} UnkTokensOfWords(ws: seq<string>)
    requires forall k :: 0 <= k < |ws| ==> IsWord(ws[k])
    ensures forall t :: t in UnkTokens(Join(" ", ws)) <==> t in ws && StartsWith(t, "UNK")
  {
    SplitJoin(ws);
  }
}

=== FILE: split_cv.dfy ===
/** `split_cv.py`: k-fold cross-validation. The line indices are shuffled and
    cut into `k` consecutive folds whose sizes differ by at most one; for each
    fold, the lines whose index is in the fold become the test part and the
    others, shuffled, are cut into a held-out validation part and a training
    part.

    The shuffles are parameters: `order` is the shuffled index list and
    `shuffle` is any function that permutes a list. The hold-out proportion
    is an exact `real`; the held-out count truncates its product with the
    number of remaining lines, and the cut follows list slicing, so a
    negative proportion counts from the end. */
module SplitCv {
  import opened Base
  import opened Selection

  function Min(a: nat, b: nat): nat {
    if a <= b then a else b
  }

  /** `list(range(n))`. */
  function Range(n: nat): (r: seq<nat>)
    ensures |r| == n
  {
    if n == 0 then [] else Range(n - 1) + [n - 1]
  }

  lemma {:induction false} RangeCount(n: nat, x: nat)
    ensures multiset(Range(n))[x] == if x < n then 1 else 0
  {
    if n > 0 {
      var r: seq<nat> := Range(n - 1);
      var last: nat := n - 1;
      assert multiset(Range(n)) == multiset(r) + multiset{last} by {
        assert Range(n) == r + [last];
      }
      RangeCount(n - 1, x);
    }
  }

  /** `order` is `list(range(size))` shuffled. */
  predicate IsPermutationOf(order: seq<nat>, size: nat) {
    multiset(order) == multiset(Range(size))
  }

  lemma {:induction false} PermutationFacts(order: seq<nat>, size: nat)
    requires IsPermutationOf(order, size)
    ensures |order| == size
    ensures forall x: nat :: x < size ==> multiset(order)[x] == 1
    ensures forall i :: 0 <= i < |order| ==> order[i] < size
  {
    assert |multiset(order)| == |multiset(Range(size))|;
    forall x: nat | x < size ensures multiset(order)[x] == 1 {
      RangeCount(size, x);
    }
    forall i | 0 <= i < |order| ensures order[i] < size {
      RangeCount(size, order[i]);
      assert order[i] in multiset(order);
    }
  }

  // ---------------------------------------------------------------------------
  // get_split_indices

  /** Fold `i` holds `size // k` indices, one more for the first `size % k`
      folds. */
  function FoldSize(size: nat, k: nat, i: nat): nat
    requires k > 0
  {
    size / k + (if i < size % k then 1 else 0)
  }

  /** `sum(fold_sizes[:i])`. */
  function Sum(xs: seq<nat>): nat
    decreases |xs|
  {
    if |xs| == 0 then 0 else Sum(xs[..|xs| - 1]) + xs[|xs| - 1]
  }

  /** Where fold `i` starts: `i` full folds and one extra index for each of
      the first `size % k` of them. */
  function FoldStart(size: nat, k: nat, i: nat): nat
    requires k > 0
  {
    i * (size / k) + Min(i, size % k)
  }

  lemma {:induction false} FoldStartStep(size: nat, k: nat, i: nat)
    requires k > 0
    ensures FoldStart(size, k, i + 1) == FoldStart(size, k, i) + FoldSize(size, k, i)
  {
    assert (i + 1) * (size / k) == i * (size / k) + size / k;
  }

  lemma {:induction false} FoldStartBound(size: nat, k: nat, i: nat)
    requires k > 0 && i <= k
    ensures FoldStart(size, k, i) <= FoldStart(size, k, k) == size
  {
    assert k * (size / k) + size % k == size;
    assert i * (size / k) <= k * (size / k) by {
      MulLe(i, k, size / k);
    }
  }

  lemma {:induction false} MulLe(a: nat, b: nat, c: nat)
    requires a <= b
    ensures a * c <= b * c
  {
  }

  /** The running sum of the adjusted fold sizes is the fold start. */
  lemma {:induction false} SumSizes(sizes: seq<nat>, size: nat, k: nat, i: nat)
    requires k > 0 && i <= |sizes| == k
    requires forall j :: 0 <= j < k ==> sizes[j] == FoldSize(size, k, j)
    ensures Sum(sizes[..i]) == FoldStart(size, k, i)
  {
    if i > 0 {
      SumSizes(sizes, size, k, i - 1);
      assert sizes[..i][..i - 1] == sizes[..i - 1];
      FoldStartStep(size, k, i - 1);
    }
  }

  /** The first loop of `get_split_indices`: `size // k` for every fold,
      plus one for each of the first `size % k` folds. */
  method FoldSizes(size: nat, k: nat) returns (sizes: seq<nat>)
    requires k > 0
    ensures |sizes| == k
    ensures forall j :: 0 <= j < k ==> sizes[j] == FoldSize(size, k, j)
  {
    sizes := seq(k, _ => size / k);
    var i := 0;
    while i < size % k
      invariant 0 <= i <= size % k
      invariant |sizes| == k
      invariant forall j :: 0 <= j < k ==> sizes[j] == size / k + (if j < i then 1 else 0)
    {
      sizes := sizes[i := sizes[i] + 1];
      i := i + 1;
    }
  }

  /** Cutting the next fold extends the folds cut so far. */
  lemma {:induction false} NextFold(order: seq<nat>, folds: seq<seq<nat>>, skip: nat, fsz: nat)
    requires skip + fsz <= |order| && Flatten<nat>(folds) == order[..skip]
    ensures Flatten<nat>(folds + [order[skip..skip + fsz]]) == order[..skip + fsz]
  {
    var f := order[skip..skip + fsz];
    FlattenAppend(folds, [f]);
    assert Flatten<nat>([f]) == f + Flatten<nat>([]);
    assert order[..skip] + f == order[..skip + fsz];
  }

  /** `get_split_indices(size, k)` with the shuffled index list `order`. */
  method GetSplitIndices(size: nat, k: int, order: seq<nat>) returns (r: Result<seq<seq<nat>>>)
    requires IsPermutationOf(order, size)
    ensures r.Err? <==> k < 2 || size < k
    ensures r.Err? ==> r.error == ValueError
    ensures r.Ok? ==> |r.value| == k
    ensures r.Ok? ==> forall i :: 0 <= i < |r.value| ==> |r.value[i]| == FoldSize(size, k, i)
    ensures r.Ok? ==> Flatten<nat>(r.value) == order
  {
    if k < 2 {
      return Err(ValueError);
    }
    if size < k {
      return Err(ValueError);
    }
    PermutationFacts(order, size);
    var sizes := FoldSizes(size, k);
    var folds: seq<seq<nat>> := [];
    var i := 0;
    while i < k
      invariant 0 <= i <= k
      invariant |folds| == i
      invariant forall j :: 0 <= j < i ==> |folds[j]| == FoldSize(size, k, j)
      invariant FoldStart(size, k, i) <= size
      invariant Flatten<nat>(folds) == order[..FoldStart(size, k, i)]
    {
      SumSizes(sizes, size, k, i);
      var skip := Sum(sizes[..i]);
      var fsz := sizes[i];
      FoldStartStep(size, k, i);
      FoldStartBound(size, k, i + 1);
      NextFold(order, folds, skip, fsz);
      folds := folds + [order[skip..skip + fsz]];
      i := i + 1;
    }
    FoldStartBound(size, k, k);
    assert order[..size] == order;
    return Ok(folds);
  }

  /** Fold sizes differ by at most one, and add up to `size`. */
  lemma {:induction false} FoldSizesBalanced(size: nat, k: nat, i: nat, j: nat)
    requires k > 0
    ensures FoldSize(size, k, i) <= FoldSize(size, k, j) + 1
    ensures FoldStart(size, k, k) == size
  {
    FoldStartBound(size, k, k);
  }

  /** How often `x` occurs across two lists of a list of lists is at most how
      often it occurs in their concatenation. */
  lemma {:induction false} FlattenCount(xss: seq<seq<nat>>, i: nat, j: nat, x: nat)
    requires i < j < |xss|
    ensures multiset(xss[i])[x] + multiset(xss[j])[x] <= multiset(Flatten<nat>(xss))[x]
  {
    assert multiset(Flatten<nat>(xss)) == multiset(xss[0]) + multiset(Flatten<nat>(xss[1..]));
    if i > 0 {
      FlattenCount(xss[1..], i - 1, j - 1, x);
    } else {
      FlattenCountOne(xss[1..], j - 1, x);
    }
  }

  lemma {:induction false} FlattenCountOne(xss: seq<seq<nat>>, j: nat, x: nat)
    requires j < |xss|
    ensures multiset(xss[j])[x] <= multiset(Flatten<nat>(xss))[x]
  {
    assert multiset(Flatten<nat>(xss)) == multiset(xss[0]) + multiset(Flatten<nat>(xss[1..]));
    if j > 0 {
      FlattenCountOne(xss[1..], j - 1, x);
    }
  }

  lemma {:induction false} FlattenMember(xss: seq<seq<nat>>, x: nat)
    requires x in Flatten<nat>(xss)
    ensures exists i :: 0 <= i < |xss| && x in xss[i]
  {
    if x !in xss[0] {
      FlattenMember(xss[1..], x);
      var i :| 0 <= i < |xss[1..]| && x in xss[1..][i];
      assert xss[1..][i] == xss[i + 1];
    }
  }

  /** Folds cut from a permutation cover the indices: every index is in
      some fold. */
  lemma {:induction false} FoldsCover(folds: seq<seq<nat>>, order: seq<nat>, size: nat, x: nat)
    requires IsPermutationOf(order, size) && Flatten<nat>(folds) == order
    requires x < size
    ensures exists i :: 0 <= i < |folds| && x in folds[i]
  {
    PermutationFacts(order, size);
    assert multiset(order)[x] == 1;
    assert x in multiset(order);
    FlattenMember(folds, x);
  }

  /** An element occurring at most once in the concatenation is in at most
      one of the lists. */
  lemma {:induction false} FlattenNoDup(xss: seq<seq<nat>>, i: nat, j: nat, x: nat)
    requires i < j < |xss| && multiset(Flatten<nat>(xss))[x] <= 1
    requires x in xss[i]
    ensures x !in xss[j]
  {
    FlattenCount(xss, i, j, x);
    assert multiset(xss[i])[x] >= 1;
  }

  /** A permutation of `0..size` holds each value at most once. */
  lemma {:induction false} PermutationNoDup(order: seq<nat>, size: nat, x: nat)
    requires IsPermutationOf(order, size)
    ensures multiset(order)[x] <= 1
  {
    RangeCount(size, x);
  }

  /** ... and no index is in two folds. */
  lemma {:induction false} FoldsDisjoint(folds: seq<seq<nat>>, order: seq<nat>, size: nat, i: nat, j: nat, x: nat)
    requires IsPermutationOf(order, size) && Flatten<nat>(folds) == order
    requires i < j < |folds| && x in folds[i]
    ensures x !in folds[j]
  {
    PermutationNoDup(order, size, x);
    FlattenNoDup(folds, i, j, x);
  }

  // ---------------------------------------------------------------------------
  // split

  /** The elements whose position (counted from `start`) is in `indices`
      when `inside`, or not in it otherwise, in their original order. */
  function Pick<T>(xs: seq<T>, start: nat, indices: set<nat>, inside: bool): seq<T>
    decreases |xs|
  {
    if |xs| == 0 then []
    else (if (start in indices) == inside then [xs[0]] else []) + Pick(xs[1..], start + 1, indices, inside)
  }

  lemma {:induction false} PickSnoc<T>(xs: seq<T>, x: T, start: nat, indices: set<nat>, inside: bool)
    ensures Pick(xs + [x], start, indices, inside)
         == Pick(xs, start, indices, inside) + (if (start + |xs| in indices) == inside then [x] else [])
    decreases |xs|
  {
    var tail := if (start + |xs| in indices) == inside then [x] else [];
    if |xs| == 0 {
      assert [x][1..] == [];
      assert Pick([x], start, indices, inside) == tail + Pick([], start + 1, indices, inside);
      assert xs + [x] == [x];
    } else {
      var head := if (start in indices) == inside then [xs[0]] else [];
      assert (xs + [x])[0] == xs[0];
      assert (xs + [x])[1..] == xs[1..] + [x];
      PickSnoc(xs[1..], x, start + 1, indices, inside);
      assert start + 1 + |xs[1..]| == start + |xs|;
      assert Pick(xs + [x], start, indices, inside) == head + Pick(xs[1..] + [x], start + 1, indices, inside);
      assert head + (Pick(xs[1..], start + 1, indices, inside) + tail) == (head + Pick(xs[1..], start + 1, indices, inside)) + tail;
    }
  }

  /** An element lands in a part exactly when its position says so. */
  lemma {:induction false} PickMember<T>(xs: seq<T>, start: nat, indices: set<nat>, inside: bool, x: T)
    ensures x in Pick(xs, start, indices, inside) <==>
      exists p :: 0 <= p < |xs| && (start + p in indices) == inside && xs[p] == x
    decreases |xs|
  {
    if |xs| > 0 {
      PickMember(xs[1..], start + 1, indices, inside, x);
      if exists p :: 0 <= p < |xs| && (start + p in indices) == inside && xs[p] == x {
        var p :| 0 <= p < |xs| && (start + p in indices) == inside && xs[p] == x;
        if p > 0 {
          assert xs[1..][p - 1] == x && start + 1 + (p - 1) == start + p;
        }
      }
      if exists q :: 0 <= q < |xs[1..]| && (start + 1 + q in indices) == inside && xs[1..][q] == x {
        var q :| 0 <= q < |xs[1..]| && (start + 1 + q in indices) == inside && xs[1..][q] == x;
        assert xs[q + 1] == x && start + (q + 1) == start + 1 + q;
      }
    }
  }

  /** The two parts together are the input, as a multiset. */
  lemma {:induction false} PickPartition<T>(xs: seq<T>, start: nat, indices: set<nat>)
    ensures multiset(Pick(xs, start, indices, true)) + multiset(Pick(xs, start, indices, false)) == multiset(xs)
    decreases |xs|
  {
    if |xs| > 0 {
      var a, b := Pick(xs[1..], start + 1, indices, true), Pick(xs[1..], start + 1, indices, false);
      PickPartition(xs[1..], start + 1, indices);
      MultisetCons(xs[0], xs[1..], a, b, start in indices);
      assert [xs[0]] + xs[1..] == xs;
    }
  }

  lemma {:induction false} MultisetCons<T>(x: T, xs: seq<T>, a: seq<T>, b: seq<T>, left: bool)
    requires multiset(a) + multiset(b) == multiset(xs)
    ensures multiset((if left then [x] else []) + a) + multiset((if left then [] else [x]) + b)
         == multiset([x] + xs)
  {
  }

  /** Each part keeps the input order. */
  lemma {:induction false} PickOrdered<T>(xs: seq<T>, start: nat, indices: set<nat>, inside: bool)
    ensures Subsequence(Pick(xs, start, indices, inside), xs)
    decreases |xs|
  {
    if |xs| > 0 {
      var rest := Pick(xs[1..], start + 1, indices, inside);
      PickOrdered(xs[1..], start + 1, indices, inside);
      if (start in indices) == inside {
        assert Pick(xs, start, indices, inside)[0] == xs[0];
        assert Pick(xs, start, indices, inside)[1..] == rest;
      } else {
        assert Pick(xs, start, indices, inside) == rest;
        SubsequenceSkip(rest, xs[1..], xs[0]);
        assert [xs[0]] + xs[1..] == xs;
      }
    }
  }

  datatype Parts<T> = Parts(test: seq<T>, valid: seq<T>, train: seq<T>)

  /** The loop of `split`: each element, by position, appended to the
      selected or to the discarded list. */
  method Partition<T>(xs: seq<T>, chosen: set<nat>) returns (selected: seq<T>, discarded: seq<T>)
    ensures selected == Pick(xs, 0, chosen, true)
    ensures discarded == Pick(xs, 0, chosen, false)
  {
    selected, discarded := [], [];
    var i := 0;
    while i < |xs|
      invariant 0 <= i <= |xs|
      invariant selected == Pick(xs[..i], 0, chosen, true)
      invariant discarded == Pick(xs[..i], 0, chosen, false)
    {
      PickSnoc(xs[..i], xs[i], 0, chosen, true);
      PickSnoc(xs[..i], xs[i], 0, chosen, false);
      assert xs[..i + 1] == xs[..i] + [xs[i]];
      if i in chosen {
        selected := selected + [xs[i]];
      } else {
        discarded := discarded + [xs[i]];
      }
      i := i + 1;
    }
    assert xs[..|xs|] == xs;
  }

  /** `int(x)`: truncation toward zero. */
  function Trunc(x: real): (n: int)
    ensures x >= 0.0 ==> n as real <= x < n as real + 1.0
    ensures x < 0.0 ==> n as real - 1.0 < x <= n as real
  {
    if x >= 0.0 then x.Floor else -((-x).Floor)
  }

  /** Where `xs[:n]` ends in a list of length `len`: a negative `n` counts
      from the end, and the cut is clamped to the list. */
  function Cut(n: int, len: nat): (c: nat)
    ensures c <= len
    ensures 0 <= n <= len ==> c == n
    ensures n < 0 && -n <= len ==> c == len + n
  {
    if n < 0 then (if len + n < 0 then 0 else len + n) else if n > len then len else n
  }

  /** The number of validation elements for a hold-out proportion. */
  function HoldOut(holdOut: real, len: nat): nat {
    Cut(Trunc(holdOut * len as real), len)
  }

  /** For a proportion between 0 and 1 the validation part is its floor
      share of the remainder. */
  lemma {:induction false} HoldOutShare(holdOut: real, len: nat)
    requires 0.0 <= holdOut <= 1.0
    ensures HoldOut(holdOut, len) as real <= holdOut * len as real < HoldOut(holdOut, len) as real + 1.0
  {
    ProductBounds(holdOut, len as real);
    CutWithin(holdOut * len as real, len);
  }

  /** Cutting at a truncated position inside the list keeps the position. */
  lemma {:induction false} CutWithin(x: real, len: nat)
    requires 0.0 <= x <= len as real
    ensures Cut(Trunc(x), len) as real <= x < Cut(Trunc(x), len) as real + 1.0
  {
    var n := Trunc(x);
    assert 0 <= n <= len by {
      assert n as real <= x < n as real + 1.0;
    }
  }

  lemma {:induction false} ProductBounds(p: real, y: real)
    requires 0.0 <= p <= 1.0 && 0.0 <= y
    ensures 0.0 <= p * y <= y
  {
    assert (1.0 - p) * y >= 0.0;
  }

  /** Cutting a list in two keeps its elements. */
  lemma {:induction false} CutMultiset<T>(s: seq<T>, c: nat)
    requires c <= |s|
    ensures multiset(s[..c]) + multiset(s[c..]) == multiset(s)
  {
    assert s == s[..c] + s[c..];
  }

  /** A permutation has the length of what it permutes. */
  lemma {:induction false} PermutationLength<T>(a: seq<T>, b: seq<T>)
    requires multiset(a) == multiset(b)
    ensures |a| == |b|
  {
    assert |multiset(a)| == |multiset(b)|;
  }

  /** `split(iterable, indices, hold_out)`: the test part is the elements at
      the given positions, in order; the rest, shuffled, is cut into the
      validation part (the hold-out share) and the training part. */
  method Split<T>(xs: seq<T>, indices: seq<nat>, shuffle: seq<T> -> seq<T>, holdOut: real) returns (r: Parts<T>)
    requires forall d :: multiset(shuffle(d)) == multiset(d)
    ensures r.test == Pick(xs, 0, set i | i in indices, true)
    ensures multiset(r.valid) + multiset(r.train) == multiset(Pick(xs, 0, set i | i in indices, false))
    ensures |r.valid| == HoldOut(holdOut, |Pick(xs, 0, set i | i in indices, false)|)
    ensures multiset(r.test) + multiset(r.valid) + multiset(r.train) == multiset(xs)
  {
    var chosen := set i | i in indices;
    var selected, discarded := Partition(xs, chosen);
    PickPartition(xs, 0, chosen);
    var shuffled := shuffle(discarded);
    PermutationLength(shuffled, discarded);
    var c := HoldOut(holdOut, |discarded|);
    CutMultiset(shuffled, c);
    r := Parts(selected, shuffled[..c], shuffled[c..]);
  }
}

=== FILE: treebank_text.dfy ===
/** The line-level scanners of `dataset.py`: reassembling a Penn Treebank
    sentence that spans several lines, cutting an Indonesian Treebank line into
    its bracketed sentences, and squeezing whitespace out of a rendered tree. */
module TreebankText {
  import opened Base

  function Delta(c: char): int {
    if c == '(' then 1 else if c == ')' then -1 else 0
  }

  /** Opening minus closing brackets. */
  function Balance(s: string): int {
    if |s| == 0 then 0 else Delta(s[0]) + Balance(s[1..])
  }

  lemma {:induction false} BalanceAppend(a: string, b: string)
    ensures Balance(a + b) == Balance(a) + Balance(b)
  {
    if |a| == 0 {
      assert a + b == b;
    } else {
      assert (a + b)[0] == a[0] && (a + b)[1..] == a[1..] + b;
      BalanceAppend(a[1..], b);
    }
  }

  lemma {:induction false} BalanceSnoc(s: string, m: nat)
    requires m < |s|
    ensures Balance(s[..m + 1]) == Balance(s[..m]) + Delta(s[m])
  {
    assert s[..m + 1] == s[..m] + [s[m]];
    BalanceAppend(s[..m], [s[m]]);
    assert Balance([s[m]]) == Delta(s[m]) + Balance([]);
  }

  // ---------------------------------------------------------------------------
  // PennTreebank._concat_parsed_sentences

  /** The bracket balance of a group of lines taken together. */
  function GroupBalance(g: seq<string>): int {
    Balance(Flatten(g))
  }

  lemma {:induction false} GroupBalanceSnoc(g: seq<string>, x: string)
    ensures GroupBalance(g + [x]) == GroupBalance(g) + Balance(x)
  {
    FlattenAppend(g, [x]);
    assert Flatten([x]) == x + Flatten([x][1..]);
    assert Flatten([x]) == x;
    BalanceAppend(Flatten(g), x);
  }

  /** No non-empty prefix of `g` (taken line by line) is balanced. */
  predicate Open(g: seq<string>) {
    forall m :: 0 < m <= |g| ==> GroupBalance(g[..m]) != 0
  }

  /** A group that is emitted: it is balanced after its last line and after
      none before. */
  predicate Closed(g: seq<string>) {
    |g| > 0 && GroupBalance(g) == 0 && Open(g[..|g| - 1])
  }

  /** The loop of `_concat_parsed_sentences` over the stripped lines, from its
      current state on: `buff` holds the lines since the last emission and
      `depth` the running count of `(` minus `)`. After every line whose count
      ends at zero the buffer is emitted and cleared. */
  function GroupsFrom(ls: seq<string>, buff: seq<string>, depth: int): seq<seq<string>>
  {
    if |ls| == 0 then []
    else
      var buff', depth' := buff + [ls[0]], depth + Balance(ls[0]);
      if depth' == 0 then [buff'] + GroupsFrom(ls[1..], [], 0)
      else GroupsFrom(ls[1..], buff', depth')
  }

  /** Each group space-joined into one sentence line. */
  function JoinGroups(gs: seq<seq<string>>): (r: seq<string>)
    ensures |r| == |gs|
  {
    if |gs| == 0 then [] else [Join(" ", gs[0])] + JoinGroups(gs[1..])
  }

  /** `_concat_parsed_sentences`. */
  function ConcatParsedSentences(lines: seq<string>): seq<string> {
    JoinGroups(GroupsFrom(StripAll(lines), [], 0))
  }

  /** `gs` are closed groups that together are a prefix of `all`, and no
      prefix of the lines after them balances. */
  predicate Emits(all: seq<string>, gs: seq<seq<string>>) {
    && (forall k :: 0 <= k < |gs| ==> Closed(gs[k]))
    && |Flatten(gs)| <= |all| && Flatten(gs) == all[..|Flatten(gs)|]
    && Open(all[|Flatten(gs)|..])
  }

  /** Emitting the buffer once it balances keeps the invariant. */
  lemma {:induction false} EmitGroup(ls: seq<string>, buff: seq<string>, rest: seq<seq<string>>)
    requires |ls| > 0 && Open(buff) && GroupBalance(buff + [ls[0]]) == 0
    requires Emits(ls[1..], rest)
    ensures Emits(buff + ls, [buff + [ls[0]]] + rest)
  {
    var b := buff + [ls[0]];
    var all := buff + ls;
    var gs := [b] + rest;
    assert all == b + ls[1..];
    assert Closed(b) by {
      assert b[..|b| - 1] == buff;
    }
    forall k | 0 <= k < |gs| ensures Closed(gs[k]) {
      if k > 0 {
        assert gs[k] == rest[k - 1];
      }
    }
    assert Flatten(gs) == b + Flatten(rest);
    assert all[|b|..] == ls[1..];
    assert all[|Flatten(gs)|..] == ls[1..][|Flatten(rest)|..];
  }

  /** Adding a line that leaves the buffer unbalanced keeps it open. */
  lemma {:induction false} StillOpen(buff: seq<string>, x: string)
    requires Open(buff) && GroupBalance(buff + [x]) != 0
    ensures Open(buff + [x])
  {
    var b := buff + [x];
    forall m | 0 < m <= |b| ensures GroupBalance(b[..m]) != 0 {
      if m <= |buff| {
        assert b[..m] == buff[..m];
      } else {
        assert b[..m] == b;
      }
    }
  }

  /** What the loop emits, from any state whose buffer is still open: closed
      groups that together are a prefix of buffer and input, followed by a
      remainder none of whose prefixes balances. */
  lemma {:induction false} GroupsFromSpec(ls: seq<string>, buff: seq<string>)
    requires Open(buff)
    ensures Emits(buff + ls, GroupsFrom(ls, buff, GroupBalance(buff)))
  {
    if |ls| == 0 {
      assert buff + ls == buff;
      assert GroupsFrom(ls, buff, GroupBalance(buff)) == [];
      assert Flatten<string>([]) == [];
    } else {
      var b := buff + [ls[0]];
      GroupBalanceSnoc(buff, ls[0]);
      if GroupBalance(b) == 0 {
        var rest := GroupsFrom(ls[1..], [], 0);
        assert Emits(ls[1..], rest) by {
          assert GroupBalance([]) == 0;
          assert Open([]);
          GroupsFromSpec(ls[1..], []);
          assert [] + ls[1..] == ls[1..];
        }
        EmitGroup(ls, buff, rest);
        assert GroupsFrom(ls, buff, GroupBalance(buff)) == [b] + rest;
      } else {
        StillOpen(buff, ls[0]);
        GroupsFromSpec(ls[1..], b);
        assert b + ls[1..] == buff + ls;
        assert GroupsFrom(ls, buff, GroupBalance(buff)) == GroupsFrom(ls[1..], b, GroupBalance(b));
      }
    }
  }

  /** Every line of the input lands in exactly one place: the emitted groups,
      in order, are a prefix of the stripped lines and each is balanced for the
      first time at its last line; the lines after them never balance, so a
      trailing unbalanced group is dropped. */
  lemma {:induction false} ConcatGroups(lines: seq<string>)
    ensures var ls := StripAll(lines);
      var gs := GroupsFrom(ls, [], 0);
      && (forall k :: 0 <= k < |gs| ==> Closed(gs[k]))
      && |Flatten(gs)| <= |ls| && Flatten(gs) == ls[..|Flatten(gs)|]
      && Open(ls[|Flatten(gs)|..])
  {
    var ls := StripAll(lines);
    assert GroupBalance([]) == 0;
    assert [] + ls == ls;
    GroupsFromSpec(ls, []);
  }

  lemma {:induction false} BalanceJoin(g: seq<string>)
    ensures Balance(Join(" ", g)) == GroupBalance(g)
  {
    if |g| == 1 {
      assert Flatten(g) == g[0] + Flatten(g[1..]);
      assert Flatten(g) == g[0];
    } else if |g| > 1 {
      BalanceJoin(g[1..]);
      BalanceAppend(g[0] + " ", Join(" ", g[1..]));
      BalanceAppend(g[0], " ");
      BalanceAppend(g[0], Flatten(g[1..]));
      assert Balance(" ") == Balance("") + Delta(' ');
    }
  }

  lemma {:induction false} JoinGroupsAt(gs: seq<seq<string>>, k: nat)
    requires k < |gs|
    ensures JoinGroups(gs)[k] == Join(" ", gs[k])
  {
    if k > 0 {
      JoinGroupsAt(gs[1..], k - 1);
    }
  }

  /** Every sentence `_concat_parsed_sentences` yields has as many `(` as `)`. */
  lemma {:induction false} ConcatBalanced(lines: seq<string>)
    ensures forall k :: 0 <= k < |ConcatParsedSentences(lines)| ==> Balance(ConcatParsedSentences(lines)[k]) == 0
  {
    ConcatGroups(lines);
    var gs := GroupsFrom(StripAll(lines), [], 0);
    var out := ConcatParsedSentences(lines);
    forall k | 0 <= k < |out| ensures Balance(out[k]) == 0 {
      JoinGroupsAt(gs, k);
      BalanceJoin(gs[k]);
    }
  }

  /** The inner loop: `(` counts one up, `)` one down. */
  method CountBrackets(s: string) returns (d: int)
    ensures d == Balance(s)
  {
    d := 0;
    var j := 0;
    while j < |s|
      invariant 0 <= j <= |s|
      invariant d == Balance(s[..j])
    {
      BalanceSnoc(s, j);
      if s[j] == '(' {
        d := d + 1;
      } else if s[j] == ')' {
        d := d - 1;
      }
      j := j + 1;
    }
    assert s[..j] == s;
  }

  /** One line of the loop: the line joins the buffer, and the buffer is
      emitted when the count is back at zero. */
  lemma {:induction false} GroupsStep(ls: seq<string>, i: nat, buff: seq<string>, cnt: int)
    requires i < |ls|
    ensures var b, d := buff + [ls[i]], cnt + Balance(ls[i]);
      JoinGroups(GroupsFrom(ls[i..], buff, cnt))
      == if d == 0 then [Join(" ", b)] + JoinGroups(GroupsFrom(ls[i + 1..], [], 0))
         else JoinGroups(GroupsFrom(ls[i + 1..], b, d))
  {
    assert ls[i..][0] == ls[i] && ls[i..][1..] == ls[i + 1..];
    var b := buff + [ls[i]];
    var rest := GroupsFrom(ls[i + 1..], [], 0);
    assert ([b] + rest)[1..] == rest;
  }

  /** One turn of the loop keeps what is emitted plus what is still to come
      equal to the whole result. */
  lemma {:induction false} ConcatStep(ls: seq<string>, i: nat, buff: seq<string>, cnt: int,
                                      out: seq<string>, target: seq<string>)
    requires i < |ls| && target == out + JoinGroups(GroupsFrom(ls[i..], buff, cnt))
    ensures var b, d := buff + [ls[i]], cnt + Balance(ls[i]);
      if d == 0 then target == (out + [Join(" ", b)]) + JoinGroups(GroupsFrom(ls[i + 1..], [], 0))
      else target == out + JoinGroups(GroupsFrom(ls[i + 1..], b, d))
  {
    GroupsStep(ls, i, buff, cnt);
    var b := buff + [ls[i]];
    AppendAssoc(out, [Join(" ", b)], JoinGroups(GroupsFrom(ls[i + 1..], [], 0)));
  }

  /** The loop itself: a bracket count carried across lines, emitting the
      joined buffer whenever the count is back at zero. */
  method ConcatLoop(lines: seq<string>) returns (out: seq<string>)
    ensures out == ConcatParsedSentences(lines)
  {
    out := GroupLoop(StripAll(lines));
  }

  /** The loop over the stripped lines. */
  method GroupLoop(ls: seq<string>) returns (out: seq<string>)
    ensures out == JoinGroups(GroupsFrom(ls, [], 0))
  {
    out := [];
    var buff: seq<string> := [];
    var cnt := 0;
    var i := 0;
    ghost var target := JoinGroups(GroupsFrom(ls, [], 0));
    assert ls[0..] == ls;
    while i < |ls|
      invariant 0 <= i <= |ls|
      invariant target == out + JoinGroups(GroupsFrom(ls[i..], buff, cnt))
    {
      var d := CountBrackets(ls[i]);
      ConcatStep(ls, i, buff, cnt, out, target);
      buff := buff + [ls[i]];
      cnt := cnt + d;
      if cnt == 0 {
        out := out + [Join(" ", buff)];
        buff := [];
      }
      i := i + 1;
    }
    assert ls[i..] == [];
  }

  // ---------------------------------------------------------------------------
  // IDNTreebank._get_parsed_sentences

  /** The suffix of `s` from its first `(` on (empty when there is none). */
  function SkipToOpen(s: string): (r: string)
    ensures |r| <= |s|
    ensures r == [] || r[0] == '('
  {
    if |s| == 0 || s[0] == '(' then s else SkipToOpen(s[1..])
  }

  /** Scanning on from `j` with `depth` the balance of `x[..j]`: the first end
      position at which the balance is back to zero. */
  function CloseFrom(x: string, j: nat, depth: int): (r: Option<nat>)
    requires 0 < |x| && x[0] == '('
    requires j <= |x| && depth == Balance(x[..j]) && (j == 0 || depth > 0)
    ensures r.Some? ==> j < r.value <= |x| && Balance(x[..r.value]) == 0
    ensures r.Some? ==> forall m :: j < m < r.value ==> Balance(x[..m]) > 0
    ensures r.None? ==> forall m :: j < m <= |x| ==> Balance(x[..m]) > 0
    decreases |x| - j
  {
    if j == |x| then None
    else
      BalanceSnoc(x, j);
      var d := depth + Delta(x[j]);
      if d == 0 then Some(j + 1) else CloseFrom(x, j + 1, d)
  }

  /** The end of the sentence `x` opens, if it closes. */
  function Close(x: string): (r: Option<nat>)
    requires 0 < |x| && x[0] == '('
    ensures r.Some? ==> 0 < r.value <= |x|
  {
    assert x[..0] == [];
    CloseFrom(x, 0, 0)
  }

  /** A bracketed sentence: it opens with `(` and its bracket depth stays
      positive until it returns to zero at its last character. */
  predicate IsSentence(x: string) {
    0 < |x| && x[0] == '(' && Balance(x) == 0
    && forall m :: 0 < m < |x| ==> Balance(x[..m]) > 0
  }

  /** `_get_parsed_sentences` as a recursive definition: skip to the next `(`,
      take the sentence it opens, continue after it; a sentence that never
      closes ends the line. */
  function Sentences(line: string): seq<string>
    decreases |line|
  {
    var x := SkipToOpen(line);
    if x == [] then []
    else
      match Close(x)
      case None => []
      case Some(e) => [x[..e]] + Sentences(x[e..])
  }

  /** The scan closes a sentence exactly at the first return to depth zero. */
  lemma {:induction false} CloseIff(x: string, e: nat)
    requires 0 < |x| && x[0] == '(' && 0 < e <= |x|
    ensures Close(x) == Some(e) <==> IsSentence(x[..e])
  {
    assert x[..0] == [];
    assert x[..e][..e] == x[..e];
    assert forall m :: 0 < m < e ==> x[..e][..m] == x[..m];
  }

  /** Everything `_get_parsed_sentences` yields is a bracketed sentence. */
  lemma {:induction false} SentencesAreSentences(line: string)
    ensures forall k :: 0 <= k < |Sentences(line)| ==> IsSentence(Sentences(line)[k])
    decreases |line|
  {
    var x := SkipToOpen(line);
    if x != [] && Close(x).Some? {
      var e := Close(x).value;
      CloseIff(x, e);
      SentencesAreSentences(x[e..]);
      var r := Sentences(line);
      assert r == [x[..e]] + Sentences(x[e..]);
      assert forall k :: 0 < k < |r| ==> r[k] == Sentences(x[e..])[k - 1];
    }
  }

  /** A line that is sentences separated by text holding no `(`. */
  function Interleave(gaps: seq<string>, sents: seq<string>): string
    requires |gaps| == |sents| + 1
  {
    if |sents| == 0 then gaps[0] else gaps[0] + sents[0] + Interleave(gaps[1..], sents[1..])
  }

  lemma {:induction false} SkipGap(g: string, y: string)
    requires '(' !in g
    requires y == [] || y[0] == '('
    ensures SkipToOpen(g + y) == y
  {
    if |g| == 0 {
      assert g + y == y;
    } else {
      assert (g + y)[0] == g[0];
      assert (g + y)[1..] == g[1..] + y;
      SkipGap(g[1..], y);
    }
  }

  /** A sentence followed by anything: the scan takes exactly the sentence. */
  lemma {:induction false} SentencesCons(g: string, x: string, rest: string)
    requires '(' !in g && IsSentence(x)
    ensures Sentences(g + (x + rest)) == [x] + Sentences(rest)
  {
    var y := x + rest;
    SkipGap(g, y);
    assert y[..|x|] == x && y[|x|..] == rest;
    CloseIff(y, |x|);
  }

  /** The sentences of such a line are exactly the sentences put into it, in
      order: the text between them is skipped and none is split or merged. */
  lemma {:induction false} SentencesOfInterleave(gaps: seq<string>, sents: seq<string>)
    requires |gaps| == |sents| + 1
    requires forall k :: 0 <= k < |gaps| ==> '(' !in gaps[k]
    requires forall k :: 0 <= k < |sents| ==> IsSentence(sents[k])
    ensures Sentences(Interleave(gaps, sents)) == sents
  {
    if |sents| == 0 {
      SkipGap(gaps[0], "");
      assert gaps[0] + "" == gaps[0];
    } else {
      var rest := Interleave(gaps[1..], sents[1..]);
      assert Interleave(gaps, sents) == gaps[0] + (sents[0] + rest);
      SentencesCons(gaps[0], sents[0], rest);
      SentencesOfInterleave(gaps[1..], sents[1..]);
      assert sents == [sents[0]] + sents[1..];
    }
  }

  /** The skipping loop: advance to the next `(` or the end. */
  method SkipLoop(line: string, i0: nat) returns (i: nat)
    requires i0 <= |line|
    ensures i0 <= i <= |line|
    ensures line[i..] == SkipToOpen(line[i0..])
  {
    i := i0;
    while i < |line| && line[i] != '('
      invariant i0 <= i <= |line|
      invariant SkipToOpen(line[i..]) == SkipToOpen(line[i0..])
    {
      assert line[i..][1..] == line[i + 1..];
      i := i + 1;
    }
  }

  /** The counting loop from a `(` at `i`: `found` when the depth is back at
      zero at `j`. */
  method CloseLoop(line: string, i: nat) returns (j: nat, found: bool)
    requires i < |line| && line[i] == '('
    ensures i < j <= |line|
    ensures !found ==> j == |line|
    ensures found <==> Close(line[i..]).Some?
    ensures found ==> Close(line[i..]) == Some(j - i)
  {
    ghost var x := line[i..];
    j := i;
    var cnt := 0;
    found := false;
    while j < |line| && !found
      invariant i <= j <= |line|
      invariant cnt == Balance(x[..j - i])
      invariant found ==> j > i && cnt == 0
      invariant forall m :: 0 < m < j - i ==> Balance(x[..m]) > 0
      invariant !found ==> forall m :: 0 < m <= j - i ==> Balance(x[..m]) > 0
      decreases |line| - j, if found then 0 else 1
    {
      BalanceSnoc(x, j - i);
      if line[j] == '(' {
        cnt := cnt + 1;
      } else if line[j] == ')' {
        cnt := cnt - 1;
      }
      j := j + 1;
      if cnt == 0 {
        found := true;
      }
    }
    if found {
      CloseIff(x, j - i);
    } else {
      assert x[..0] == [];
    }
  }

  /** From a `(` at `i`: the sentence up to `j` when it closes there, nothing
      more when it never closes. */
  lemma {:induction false} SentencesAt(line: string, i: nat, j: nat)
    requires i < j <= |line| && line[i] == '('
    requires Close(line[i..]).Some? ==> Close(line[i..]) == Some(j - i)
    ensures Sentences(line[i..])
         == if Close(line[i..]).Some? then [line[i..j]] + Sentences(line[j..]) else []
  {
    var x := line[i..];
    assert x[..j - i] == line[i..j];
    assert x[j - i..] == line[j..];
  }

  /** Skipped text holds no sentence. */
  lemma {:induction false} SentencesSkipped(s: string, t: string)
    requires t == SkipToOpen(s)
    ensures Sentences(s) == Sentences(t)
  {
  }

  /** `_get_parsed_sentences` as written: skip to a `(`, count brackets until
      the depth is back at zero, emit that slice, go on from its end. */
  method GetParsedSentences(line: string) returns (out: seq<string>)
    ensures out == Sentences(line)
  {
    out := [];
    var i := SkipLoop(line, 0);
    assert line[0..] == line;
    SentencesSkipped(line, line[i..]);
    while i < |line|
      invariant 0 <= i <= |line|
      invariant line[i..] == SkipToOpen(line[i..])
      invariant out + Sentences(line[i..]) == Sentences(line)
      decreases |line| - i
    {
      var j, found := CloseLoop(line, i);
      SentencesAt(line, i, j);
      if found {
        var k := SkipLoop(line, j);
        SentencesSkipped(line[j..], line[k..]);
        AppendAssoc(out, [line[i..j]], Sentences(line[k..]));
        out := out + [line[i..j]];
        i := k;
      } else {
        i := j;
      }
    }
  }

  // ---------------------------------------------------------------------------
  // _squeeze_line (identical in both treebank classes)

  /** `s.replace(c, '')`. */
  function RemoveChar(s: string, c: char): (r: string)
    ensures c !in r
    ensures forall ch :: ch in r ==> ch in s
    ensures 0 < |s| && s[0] != c ==> 0 < |r| && r[0] == s[0]
    ensures 0 < |s| && s[|s| - 1] != c ==> 0 < |r| && r[|r| - 1] == s[|s| - 1]
  {
    if |s| == 0 then ""
    else (if s[0] == c then "" else [s[0]]) + RemoveChar(s[1..], c)
  }

  lemma {:induction false} RemoveAbsent(s: string, c: char)
    requires c !in s
    ensures RemoveChar(s, c) == s
  {
    if |s| > 0 {
      assert s == [s[0]] + s[1..];
      RemoveAbsent(s[1..], c);
    }
  }

  predicate NoDoubleSpace(s: string) {
    forall i :: 0 <= i < |s| - 1 ==> !(s[i] == ' ' && s[i + 1] == ' ')
  }

  /** `re.sub(r'  +', ' ', s)`: every run of two or more spaces becomes one.
      A run keeps its first and last character, and only spaces are dropped. */
  function Collapse(s: string): (r: string)
    ensures forall ch :: ch in r ==> ch in s
    ensures 0 < |s| ==> 0 < |r| && r[0] == s[0] && r[|r| - 1] == s[|s| - 1]
  {
    if |s| == 0 then ""
    else if 2 <= |s| && s[0] == ' ' && s[1] == ' ' then Collapse(s[1..])
    else [s[0]] + Collapse(s[1..])
  }

  /** No run of spaces survives. */
  lemma {:induction false} CollapseNoDouble(s: string)
    ensures NoDoubleSpace(Collapse(s))
  {
    if |s| > 0 {
      CollapseNoDouble(s[1..]);
    }
  }

  /** Only spaces are dropped. */
  lemma {:induction false} CollapseKeepsOthers(s: string)
    ensures RemoveChar(Collapse(s), ' ') == RemoveChar(s, ' ')
  {
    if |s| > 0 {
      CollapseKeepsOthers(s[1..]);
      if !(2 <= |s| && s[0] == ' ' && s[1] == ' ') {
        var t := Collapse(s[1..]);
        assert ([s[0]] + t)[1..] == t;
      }
    }
  }

  lemma {:induction false} CollapseFixed(s: string)
    requires NoDoubleSpace(s)
    ensures Collapse(s) == s
  {
    if |s| > 0 {
      assert NoDoubleSpace(s[1..]);
      CollapseFixed(s[1..]);
      assert s == [s[0]] + s[1..];
    }
  }

  /** Splitting a string that starts with a word character: the character
      joins the first word when one follows at once, and is a word of its own
      otherwise. */
  lemma {:induction false} SplitCons(c: char, t: string)
    requires !IsSpace(c)
    ensures t == [] || IsSpace(t[0]) ==> Split([c] + t) == [[c]] + Split(t)
    ensures 0 < |t| && !IsSpace(t[0]) ==>
      0 < |Split(t)| && Split([c] + t) == [[c] + Split(t)[0]] + Split(t)[1..]
  {
    var s := [c] + t;
    assert s[1..] == t;
    var m := WordLen(t);
    assert WordLen(s) == m + 1;
    assert s[..m + 1] == [c] + t[..m];
    assert s[m + 1..] == t[m..];
  }

  /** Putting the same word character in front of two strings with the same
      words and the same first character gives strings with the same words. */
  lemma {:induction false} SplitConsSame(ch: char, c: string, t: string)
    requires !IsSpace(ch) && Split(c) == Split(t)
    requires c == [] <==> t == []
    requires 0 < |c| ==> c[0] == t[0]
    ensures Split([ch] + c) == Split([ch] + t)
  {
    SplitCons(ch, c);
    SplitCons(ch, t);
  }

  /** A character Collapse keeps in front keeps the words as well, given
      that the rest keeps them. */
  lemma {:induction false} CollapseKeptSplit(s: string)
    requires 0 < |s| && !(2 <= |s| && s[0] == ' ' && s[1] == ' ')
    requires Split(Collapse(s[1..])) == Split(s[1..])
    ensures Split(Collapse(s)) == Split(s)
  {
    var t := s[1..];
    var c := Collapse(t);
    assert s == [s[0]] + t;
    if IsSpace(s[0]) {
      assert ([s[0]] + c)[1..] == c;
    } else {
      SplitConsSame(s[0], c, t);
    }
  }

  /** Collapsing space runs keeps the words apart and unchanged. */
  lemma {:induction false} CollapseSplit(s: string)
    ensures Split(Collapse(s)) == Split(s)
  {
    if |s| > 0 {
      CollapseSplit(s[1..]);
      if !(2 <= |s| && s[0] == ' ' && s[1] == ' ') {
        CollapseKeptSplit(s);
      }
    }
  }

  /** Words separated by single spaces: no surrounding whitespace, no run of
      spaces, and no whitespace other than the space. */
  predicate Spaced(r: string) {
    && (r == [] || (!IsSpace(r[0]) && !IsSpace(r[|r| - 1])))
    && NoDoubleSpace(r)
    && forall i :: 0 <= i < |r| && IsSpace(r[i]) ==> r[i] == ' '
  }

  /** A spaced string's suffix that starts on a word character is spaced. */
  lemma {:induction false} SpacedSuffix(r: string, m: nat)
    requires Spaced(r) && m < |r| && !IsSpace(r[m])
    ensures Spaced(r[m..])
  {
    var u := r[m..];
    assert NoDoubleSpace(u) by {
      forall i | 0 <= i < |u| - 1
        ensures !(u[i] == ' ' && u[i + 1] == ' ')
      {
        assert u[i] == r[m + i] && u[i + 1] == r[m + i + 1];
      }
    }
    forall i | 0 <= i < |u| && IsSpace(u[i])
      ensures u[i] == ' '
    {
      assert u[i] == r[m + i];
    }
  }

  /** Leading whitespace does not show in the split. */
  lemma {:induction false} SplitSkipSpace(v: string)
    requires 0 < |v| && IsSpace(v[0])
    ensures Split(v) == Split(v[1..])
  {
  }

  /** A string that starts on a word character holds a word. */
  lemma {:induction false} SplitStartsWord(u: string)
    requires 0 < |u| && !IsSpace(u[0])
    ensures 0 < |Split(u)|
  {
  }

  /** In a spaced string, a word that ends before the end is followed by one
      space and then by a word character. */
  lemma {:induction false} SpaceAfterWord(r: string, n: nat)
    requires Spaced(r) && n == WordLen(r) && n < |r|
    ensures r[n] == ' ' && n + 1 < |r| && !IsSpace(r[n + 1])
  {
  }

  /** After the first word of a spaced string with more to come: one space,
      then a spaced rest that holds at least one word. */
  lemma {:induction false} SpacedRest(r: string, n: nat)
    requires Spaced(r) && n == WordLen(r) && n < |r|
    ensures n + 1 < |r| && Split(r[n..]) == Split(r[n + 1..])
    ensures Spaced(r[n + 1..]) && 0 < |Split(r[n + 1..])|
    ensures r == r[..n] + " " + r[n + 1..]
  {
    SpaceAfterWord(r, n);
    var u := r[n + 1..];
    assert r[n..][1..] == u;
    SplitSkipSpace(r[n..]);
    SpacedSuffix(r, n + 1);
    SplitStartsWord(u);
    assert r == r[..n] + " " + u by {
      assert r[n..] == " " + u;
      assert r == r[..n] + r[n..];
    }
  }

  /** A string of single-space-separated words is the space-join of its words. */
  lemma {:induction false} SpacedWords(r: string)
    requires Spaced(r)
    ensures r == Join(" ", Split(r))
    decreases |r|
  {
    if |r| > 0 {
      var n := WordLen(r);
      assert Split(r) == [r[..n]] + Split(r[n..]);
      if n < |r| {
        SpacedRest(r, n);
        var u := r[n + 1..];
        SpacedWords(u);
        calc {
          Join(" ", Split(r));
          Join(" ", [r[..n]] + Split(u));
          { JoinCons(r[..n], Split(u)); }
          r[..n] + " " + Join(" ", Split(u));
        }
      } else {
        assert r[..n] == r && r[n..] == [];
      }
    }
  }

  /** Joining a word in front of a non-empty list puts one separator between. */
  lemma {:induction false} JoinCons(w: string, xs: seq<string>)
    requires 0 < |xs|
    ensures Join(" ", [w] + xs) == w + " " + Join(" ", xs)
  {
    assert ([w] + xs)[1..] == xs;
  }

  /** `_squeeze_line`: strip, drop every newline, collapse space runs. The
      result has no newline, no run of spaces and no surrounding whitespace;
      its other characters are those of the stripped line, in order, and its
      words are the words of the stripped line without its newlines. */
  function SqueezeLine(line: string): (r: string)
    ensures '\n' !in r
    ensures NoDoubleSpace(r)
    ensures r == [] || (!IsSpace(r[0]) && !IsSpace(r[|r| - 1]))
    ensures RemoveChar(r, ' ') == RemoveChar(RemoveChar(Strip(line), '\n'), ' ')
    ensures Split(r) == Split(RemoveChar(Strip(line), '\n'))
  {
    var s := RemoveChar(Strip(line), '\n');
    CollapseNoDouble(s);
    CollapseKeepsOthers(s);
    CollapseSplit(s);
    Collapse(s)
  }

  /** Stripping keeps only characters of the line. */
  lemma {:induction false} StripChars(s: string)
    ensures forall ch :: ch in Strip(s) ==> ch in s
  {
    var r := RStrip(s);
    assert forall ch :: ch in r ==> ch in s;
  }

  /** On a line whose only whitespace is spaces and newlines, squeezing gives
      exactly the words of the line, newlines deleted, each separated from
      the next by one space. */
  lemma {:induction false} SqueezeWords(line: string)
    requires forall i :: 0 <= i < |line| && IsSpace(line[i]) ==> line[i] == ' ' || line[i] == '\n'
    ensures SqueezeLine(line) == Join(" ", Split(RemoveChar(Strip(line), '\n')))
  {
    var s := RemoveChar(Strip(line), '\n');
    var r := SqueezeLine(line);
    StripChars(line);
    assert forall ch :: ch in r ==> ch in s;
    forall i | 0 <= i < |r| && IsSpace(r[i])
      ensures r[i] == ' '
    {
      assert r[i] in line;
    }
    assert Spaced(r);
    SpacedWords(r);
  }

  /** Squeezing a squeezed line changes nothing. */
  lemma {:induction false} SqueezeIdempotent(line: string)
    ensures SqueezeLine(SqueezeLine(line)) == SqueezeLine(line)
  {
    var r := SqueezeLine(line);
    StripStripped(r);
    RemoveAbsent(r, '\n');
    CollapseFixed(r);
  }
}

=== FILE: trees.dfy ===
/** Bracketed parse trees as nltk builds them: a leaf is a bare word, an internal
    node has a label and an ordered list of children. A preterminal is a node
    whose only child is a leaf (`(NN dog)`). */
module Trees {
  import opened Base

  /** `name` is the node's label (`label` is a Dafny keyword). */
  datatype Tree = Leaf(word: string) | Node(name: string, children: seq<Tree>)

  predicate IsPreterminal(t: Tree) {
    t.Node? && |t.children| == 1 && t.children[0].Leaf?
  }

  /** The one-line bracketed rendering, single spaces between tokens:
      `(S (NP (DT the) (NN dog)) (VP (VBZ runs)))`. */
  function Render(t: Tree): string
    decreases t
  {
    match t
    case Leaf(w) => w
    case Node(l, cs) => "(" + l + RenderChildren(cs) + ")"
  }

  /** Each child preceded by one space. */
  function RenderChildren(cs: seq<Tree>): string
    decreases cs
  {
    if |cs| == 0 then "" else " " + Render(cs[0]) + RenderChildren(cs[1..])
  }

  /** The leaves, left to right. */
  function Yield(t: Tree): seq<string>
    decreases t
  {
    match t
    case Leaf(w) => [w]
    case Node(_, cs) => YieldChildren(cs)
  }

  function YieldChildren(cs: seq<Tree>): seq<string>
    decreases cs
  {
    if |cs| == 0 then [] else Yield(cs[0]) + YieldChildren(cs[1..])
  }

  /** Labels of all internal nodes, preterminals included, in pre-order. */
  function Labels(t: Tree): seq<string>
    decreases t
  {
    match t
    case Leaf(_) => []
    case Node(l, cs) => [l] + LabelsChildren(cs)
  }

  function LabelsChildren(cs: seq<Tree>): seq<string>
    decreases cs
  {
    if |cs| == 0 then [] else Labels(cs[0]) + LabelsChildren(cs[1..])
  }

  /** Every internal node has at least one child. */
  predicate NoEmptyNodes(t: Tree)
    decreases t
  {
    match t
    case Leaf(_) => true
    case Node(_, cs) => |cs| > 0 && forall k :: 0 <= k < |cs| ==> NoEmptyNodes(cs[k])
  }

  /** Every word non-empty and no whitespace in any word or label: the trees
      whose one-line rendering holds no whitespace but the single spaces
      between tokens. */
  predicate Spaceless(t: Tree)
    decreases t, 1
  {
    match t
    case Leaf(w) => IsWord(w)
    case Node(l, cs) => NoSpace(l) && SpacelessChildren(cs)
  }

  predicate SpacelessChildren(cs: seq<Tree>)
    decreases cs, 0
  {
    |cs| == 0 || (Spaceless(cs[0]) && SpacelessChildren(cs[1..]))
  }

  lemma {:induction false} SpacelessAt(cs: seq<Tree>, k: nat)
    requires SpacelessChildren(cs) && k < |cs|
    ensures Spaceless(cs[k])
    decreases k
  {
    if k > 0 {
      SpacelessAt(cs[1..], k - 1);
    }
  }
}
